=== FILE: README.md ===
# SVBRDF Oculus viewer — a Dafny model of its core

The SVBRDF Oculus viewer renders measured spatially-varying BRDF materials on a flat quad or
on a loaded mesh, on screen or in an Oculus headset. This project models the logic around
the GPU calls, which has no graphics in it:

- **Utils** (`wrappers.dfy`, `utils.dfy`): the string helpers.
  - `join`, `tokenize`, `replaceAll`, `splitPath`, and the `find*` searches they use.
  - `sizeBytes`, `divRoundUp` in 32-bit unsigned arithmetic, and `roundUpToPowerOf2` on 64 bits.
  - The edge-detecting keyboard (`keyHeld`, `keyPressed`), whose 256 status slots are shared
    by key codes that are equal modulo 256.
- **Controls** (`controls.dfy`) and **Modes** (`modes.dfy`): the integer editors
  (`updateValueClamp`, `updateValueWrap`, `updateValueMax`, `updateEnum`, `toggleValue`) and
  the rendering-mode enumerations they cycle through.
- **Graphics** (`graphics.dfy`): what Graphics.cpp decides without the GPU.
  - Texture and buffer descriptors: typeless depth formats, the SRV, UAV, RTV and DSV
    descriptors, element sizes and counts.
  - Depth modes and the cube-map face table.
  - The WIC pixel transcoding and the `FloatPixelBuffer` indexing.
  - The swap-chain index of an eye.
- **ObjMesh** (`objmesh.dfy`): `loadObj` on already-parsed lines.
  - 1-based and negative index normalisation; triangulation of triangles and quads.
  - Vertex de-duplication across files with the Y/Z swap, and the mesh name taken from the
    path.
  - The per-vertex triangle counts of `computeVertexNormals`.
- **Grid** (`grid.dfy`): the single quad and the CPU displacement-mapped grid.
  - The grid's vertex sampling and its alternating-diagonal index buffer.
  - The renderer's choice of geometry.
- **Preset** (`preset.dfy`): `RenderingState` with its `save` and `load`, over lines already
  split into words.
- **Viewer** (`viewer.dfy`): the per-frame `update` of the viewer.
  - Light editing and mode toggles.
  - Material and mesh selection.
  - The rebuild decision, `updateState`, `setState`, and the shader constants of
    `computeConstants`.
  - The shadow cube-map array layout and the antialiasing targets of `initAA`.

Numbers are unbounded in Dafny. Where the source's width matters, the model writes it out:
- 32-bit `unsigned` in `divRoundUp` and `%u`;
- 64-bit in `roundUpToPowerOf2`;
- truncation toward zero in `%d`.

Operations that can fail return `Result`/`Option`, or an `Outcome` that records the crash the
source would hit.

## Model

| member | source | states |
|---|---|---|
| Utils.DivRoundUp | SVBRDFOculus/SVBRDFOculus/Utils.hpp:67-70 | without 32-bit overflow the result is the least r with r·y ≥ x; when x + y − 1 wraps, r·y falls short of x |
| Utils.RoundUpIsPowerOfTwoAbove | SVBRDFOculus/SVBRDFOculus/Utils.hpp:73-84 | for 1 ≤ v ≤ 2^63 the result is a power of two no smaller than v |
| Utils.RoundUpIsLeastPowerOfTwo | SVBRDFOculus/SVBRDFOculus/Utils.hpp:73-84 | no power of two that is at least v is smaller than the result |
| Utils.RoundUpKeepsPowersOfTwo | SVBRDFOculus/SVBRDFOculus/Utils.hpp:73-84 | a power of two is returned unchanged |
| Utils.RoundUpWrapsToZero | SVBRDFOculus/SVBRDFOculus/Utils.hpp:73-84 | 0, and every value above 2^63, wraps to 0 on 64 bits |
| Utils.SmearIsLowMask | SVBRDFOculus/SVBRDFOculus/Utils.hpp:75-81 | the shift-or cascade yields a mask of low one bits |
| Utils.SmearIsLeastCover | SVBRDFOculus/SVBRDFOculus/Utils.hpp:75-81 | the smeared value is the least low-bit mask that covers its input |
| Utils.JoinByLoop | SVBRDFOculus/SVBRDFOculus/Utils.hpp:143-163 | the loop puts the separator between consecutive parts, matching the recursive definition of joining |
| Utils.JoinLength | SVBRDFOculus/SVBRDFOculus/Utils.hpp:143-163 | a join of n ≥ 1 parts is as long as the parts plus n − 1 separators |
| Utils.FindFirstOf | SVBRDFOculus/SVBRDFOculus/Utils.cpp:292 | the result is the first position from `from` holding a delimiter; none means there is none |
| Utils.FindFirstNotOf | SVBRDFOculus/SVBRDFOculus/Utils.cpp:288 | the result is the first position from `from` holding a non-delimiter; none means there is none |
| Utils.Find | SVBRDFOculus/SVBRDFOculus/Utils.cpp:265 | a found occurrence starts at or after `from` and lies wholly inside the string |
| Utils.FindIsFirst | SVBRDFOculus/SVBRDFOculus/Utils.cpp:271 | a found position is an occurrence with no earlier one from `from`; none found means no occurrence at all |
| Utils.ReplaceAll | SVBRDFOculus/SVBRDFOculus/Utils.cpp:260-275 | the search-and-splice loop yields the left-to-right, non-overlapping replacement of every occurrence |
| Utils.ReplacedKeepsPrefix | SVBRDFOculus/SVBRDFOculus/Utils.cpp:260-275 | text before the first occurrence is kept as it is |
| Utils.ReplacedAtFirstOccurrence | SVBRDFOculus/SVBRDFOculus/Utils.cpp:260-275 | the first occurrence is replaced and the search resumes after the replaced pattern |
| Utils.ReplacedWithoutOccurrence | SVBRDFOculus/SVBRDFOculus/Utils.cpp:260-275 | a string without the pattern is unchanged |
| Utils.ReplacedLength | SVBRDFOculus/SVBRDFOculus/Utils.cpp:260-275 | the length changes by the number of replacements times the length difference |
| Utils.ReplacedRemovesChar | SVBRDFOculus/SVBRDFOculus/Utils.cpp:260-275 | replacing a character by text without it removes every copy of that character |
| Utils.ReplacedCharIsMap | SVBRDFOculus/SVBRDFOculus/Utils.cpp:260-275 | replacing one character by another is a per-character substitution |
| Utils.TokensAreWords | SVBRDFOculus/SVBRDFOculus/Utils.cpp:277-304 | every token is non-empty and free of delimiters |
| Utils.TokensConcat | SVBRDFOculus/SVBRDFOculus/Utils.cpp:277-304 | the tokens, concatenated, are the input with its delimiters deleted, so no character is lost or reordered |
| Utils.TokensOfDelimiters | SVBRDFOculus/SVBRDFOculus/Utils.cpp:277-304 | a string of delimiters only has no tokens |
| Utils.Tokenize | SVBRDFOculus/SVBRDFOculus/Utils.cpp:277-304 | the alternating find-first-not-of / find-first-of loop yields exactly the maximal runs of non-delimiters |
| Utils.TokensAroundDelimiter | SVBRDFOculus/SVBRDFOculus/Utils.cpp:277-304 | a delimiter splits the token list: the tokens of a·d·b are those of a followed by those of b |
| Utils.TokensOfJoin | SVBRDFOculus/SVBRDFOculus/Utils.cpp:277-304 | tokenizing words joined by a delimiter gives back the words |
| Utils.SplitPath | SVBRDFOculus/SVBRDFOculus/Utils.cpp:306-311 | no path component is empty or contains a slash or backslash |
| Utils.SplitPathIsMaximalRuns | SVBRDFOculus/SVBRDFOculus/Utils.cpp:306-311 | mapping backslashes to slashes and splitting on '/' splits on both separators |
| Utils.SplitPathOfJoin | SVBRDFOculus/SVBRDFOculus/Utils.cpp:306-311 | splitting components joined by '/' gives back the components |
| Utils.InitialKeyboard | SVBRDFOculus/SVBRDFOculus/Utils.cpp:165-169 | all 256 key-status slots start released |
| Utils.KeySlot | SVBRDFOculus/SVBRDFOculus/Utils.cpp:165-169 | every key code maps into one of the 256 slots |
| Utils.KeyHeld | SVBRDFOculus/SVBRDFOculus/Utils.cpp:178-189 | a key is held when no other window has focus and it is down; the key's slot records that and no other slot changes |
| Utils.KeyPressed | SVBRDFOculus/SVBRDFOculus/Utils.cpp:191-196 | a press is reported exactly on a released-to-held edge, and the status is updated as by keyHeld |
| Utils.HeldKeyDoesNotRepeat | SVBRDFOculus/SVBRDFOculus/Utils.cpp:191-196 | a key still down on the next poll is not pressed again |
| Utils.ReleaseThenPress | SVBRDFOculus/SVBRDFOculus/Utils.cpp:191-196 | after a release is seen, the next down poll is a press |
| Utils.AliasedKeysSharePress | SVBRDFOculus/SVBRDFOculus/Utils.cpp:167-168 | key codes 256 apart share a slot, so a press of one hides the next press of the other |
| Controls.ToggleOrdinal | SVBRDFOculus/SVBRDFOculus/SVBRDFOculus.cpp:847-876 | a press advances the value cyclically through 0..maximum and reports a change; otherwise nothing changes |
| Controls.TogglePressesAdvance | SVBRDFOculus/SVBRDFOculus/SVBRDFOculus.cpp:847-876 | n presses advance the value by n modulo the number of values |
| Controls.TogglePressesCycle | SVBRDFOculus/SVBRDFOculus/SVBRDFOculus.cpp:847-876 | as many presses as there are values return to the start |
| Controls.UpdateEnum | SVBRDFOculus/SVBRDFOculus/SVBRDFOculus.cpp:792-831 | a change is reported iff a key is pressed, and an in-range value stays within [min, max] |
| Controls.UpdateEnumCycles | SVBRDFOculus/SVBRDFOculus/SVBRDFOculus.cpp:792-831 | increase and decrease step cyclically through [min, max]; pressing both keeps the value |
| Controls.UpdateValueClamp | SVBRDFOculus/SVBRDFOculus/SVBRDFOculus.cpp:707-735 | the result stays in [min, max] and equals the nudged value exactly when that value is in range; a nudged value below min becomes min and one above max becomes max; an empty range pins it to min |
| Controls.WrapValue | SVBRDFOculus/SVBRDFOculus/SVBRDFOculus.cpp:762-790 | a non-empty range [min, max) always contains the wrapped result |
| Controls.UpdateValueWrap | SVBRDFOculus/SVBRDFOculus/SVBRDFOculus.cpp:762-790 | the two while loops compute the nudged value reduced modulo the range length into [min, max) |
| Controls.UpdateValueMax | SVBRDFOculus/SVBRDFOculus/SVBRDFOculus.cpp:737-760 | increase stops at max, decrease stops at 0, an in-range value stays in range, and with no key nothing changes; with one key the flag is set exactly when the value moves; with both keys a value below max steps up and back down (flag set), and one at max steps down only if positive |
| Modes.LightingMode.Toggled | SVBRDFOculus/SVBRDFOculus/SVBRDFOculus.cpp:847-876 | a press moves to the next lighting mode in declaration order, wrapping to the first |
| Modes.DisplacementMode.Toggled | SVBRDFOculus/SVBRDFOculus/SVBRDFOculus.cpp:847-876 | a press moves to the next displacement mode, wrapping to the first |
| Modes.MeshMode.Toggled | SVBRDFOculus/SVBRDFOculus/SVBRDFOculus.cpp:847-876 | a press switches between the quad and the loaded mesh |
| Modes.NormalMode.Toggled | SVBRDFOculus/SVBRDFOculus/SVBRDFOculus.cpp:847-876 | a press moves to the next normal mode, wrapping to the first |
| Modes.ShadowMode.Toggled | SVBRDFOculus/SVBRDFOculus/SVBRDFOculus.cpp:847-876 | a press switches shadow mapping on or off |
| Modes.TonemapMode.Toggled | SVBRDFOculus/SVBRDFOculus/SVBRDFOculus.cpp:847-876 | a press moves to the next tonemapping operator, wrapping to the first |
| Modes.AntialiasingMode.Toggled | SVBRDFOculus/SVBRDFOculus/SVBRDFOculus.cpp:847-876 | a press moves to the next antialiasing mode, wrapping to the first |
| Graphics.SameVertexIgnoresDerived | SVBRDFOculus/SVBRDFOculus/Graphics.hpp:374-378 | vertex equality ignores normal and tessellation factor, and is symmetric and transitive |
| Graphics.NewFloatPixelBuffer | SVBRDFOculus/SVBRDFOculus/Graphics.cpp:1073-1079 | a new buffer has width·height·channels zero floats |
| Graphics.PixelFormat | SVBRDFOculus/SVBRDFOculus/Graphics.cpp:1081-1093 | only 1 and 4 channels have a format, and the format has that many channels |
| Graphics.WrapCoordinate | SVBRDFOculus/SVBRDFOculus/Graphics.cpp:1102-1103 | the add-until-non-negative loop leaves a non-negative coordinate alone and reduces a negative one modulo the extent |
| Graphics.PixelIndex | SVBRDFOculus/SVBRDFOculus/Graphics.cpp:1100-1112 | the access fails iff the channel is out of range; otherwise it is the row-major index, with negative coordinates wrapped into range however far below zero they are |
| Graphics.FlatIndexInverse | SVBRDFOculus/SVBRDFOculus/Graphics.cpp:1100-1106 | an in-range row-major index lies inside the buffer, and x, y and the channel can be read back from it |
| Graphics.NewTranscoding | SVBRDFOculus/SVBRDFOculus/Graphics.cpp:622-645 | only 24-bit BGR and RGB sources are accepted, and BGR is remembered |
| Graphics.Transcode | SVBRDFOculus/SVBRDFOculus/Graphics.cpp:669-711 | a source of the wrong size fails; otherwise each pixel becomes four bytes, expanded from three |
| Graphics.TranscodeRoundTrip | SVBRDFOculus/SVBRDFOculus/Graphics.cpp:690-699 | dropping the alpha bytes of an RGB transcoding gives back the source |
| Graphics.TranscodeSwapsRedBlue | SVBRDFOculus/SVBRDFOculus/Graphics.cpp:679-688 | a BGR transcoding swaps red and blue, keeps green, and makes alpha opaque |
| Graphics.Texture2DDesc | SVBRDFOculus/SVBRDFOculus/Graphics.cpp:1155-1168 | a texture of the given size and format that is never retyped and whose default views are plain single-slice 2D views |
| Graphics.FixupTextureDescriptor | SVBRDFOculus/SVBRDFOculus/Graphics.cpp:217-236 | only the format changes, and it changes exactly for depth textures that also need shader access, to R32 typeless |
| Graphics.TextureViewFormat | SVBRDFOculus/SVBRDFOculus/Graphics.cpp:267-276 | a view reads D32 depth as R32 float and keeps every other format, with the same channel count |
| Graphics.SrvDesc | SVBRDFOculus/SVBRDFOculus/Graphics.cpp:278-325 | a shader-resource view uses the view format of the texture; it is a cube view iff the cube flag is set, a cube array iff also more than six slices, a plain 2D array iff not a cube and more than one slice, and never a buffer view |
| Graphics.UavDescAsWritten | SVBRDFOculus/SVBRDFOculus/Graphics.cpp:349-356 | as written, an unordered-access view of a texture array carries no format |
| Graphics.UavDesc | SVBRDFOculus/SVBRDFOculus/Graphics.cpp:327-374 | an unordered-access view always uses the view format of the texture; it is an array view iff the texture has more than one slice, never a buffer view, and has the dimension the code as written gives it |
| Graphics.RtvDesc | SVBRDFOculus/SVBRDFOculus/Graphics.cpp:376-413 | a render-target view uses the texture's own format; it is multisampled iff more than one sample, an array iff single-sampled with more than one slice, and a plain 2D view otherwise |
| Graphics.DsvDesc | SVBRDFOculus/SVBRDFOculus/Graphics.cpp:415-452 | a depth-stencil view uses the texture's own format, with the same three-way choice of dimension as a render-target view |
| Graphics.TargetDimensionOf | SVBRDFOculus/SVBRDFOculus/Graphics.cpp:388-402 | the target dimension is multisampled iff more than one sample, an array iff single-sampled with more than one slice, and plain 2D otherwise |
| Graphics.SrvSlicesAsWritten | SVBRDFOculus/SVBRDFOculus/Graphics.cpp:303-309 | as written, the slices a cube-array view covers are unknown exactly when the texture is a cube with more than six slices; every other view covers all slices |
| Graphics.SrvCubeArrayCountMissing | SVBRDFOculus/SVBRDFOculus/Graphics.cpp:303-309 | a twelve-slice cube texture gets a cube-array view whose cube count the code never sets, while the corrected view covers all twelve slices |
| Graphics.DefaultViewsFit | SVBRDFOculus/SVBRDFOculus/Graphics.cpp:278-452 | default views, with the cube-array count set to whole cubes, cover every slice of a well-formed texture, and their formats can view the fixed-up texture format |
| Graphics.UavArrayFormatMissing | SVBRDFOculus/SVBRDFOculus/Graphics.cpp:349-356 | a six-slice R32 float array gets no UAV format as written, and R32 float once corrected |
| Graphics.ElementSize | SVBRDFOculus/SVBRDFOculus/Graphics.cpp:131-154 | a structure stride wins; otherwise R32 signed, unsigned and float elements take 4 bytes, R32G32 float 8, and every other format fails |
| Graphics.ElementCount | SVBRDFOculus/SVBRDFOculus/Graphics.cpp:262-265 | the count is defined exactly when the element size is |
| Graphics.ElementCountOfSizeBytes | SVBRDFOculus/SVBRDFOculus/Graphics.cpp:262-265 | a buffer sized by sizeBytes holds as many elements as the vector it came from |
| Graphics.DepthStencilDescOf | SVBRDFOculus/SVBRDFOculus/Graphics.cpp:1170-1190 | depth test and depth writes as asked, stencil off; forward depth compares with less, inverse depth with greater, and "always" always passes |
| Graphics.InverseDepthMirrorsForward | SVBRDFOculus/SVBRDFOculus/Graphics.cpp:1170-1190 | the inverse depth test on 1 − depth passes exactly when the forward test passes; "always" always passes |
| Graphics.FaceIndex | SVBRDFOculus/SVBRDFOculus/Graphics.hpp:423-431 | each cube face has one of the six indices |
| Graphics.FaceAt | SVBRDFOculus/SVBRDFOculus/Graphics.hpp:423-431 | exactly the indices below 6 name a face |
| Graphics.FaceIndexRoundTrip | SVBRDFOculus/SVBRDFOculus/Graphics.hpp:423-431 | index and face convert into each other without loss |
| Graphics.CubeFaceOrder | SVBRDFOculus/SVBRDFOculus/Graphics.cpp:1678-1704 | faces 2a and 2a + 1 look along axis a, positive then negative |
| Graphics.FaceFrameIsOrthonormal | SVBRDFOculus/SVBRDFOculus/Graphics.cpp:1678-1704 | each face's look and up vectors are perpendicular unit axes |
| Graphics.CubeFacesDistinct | SVBRDFOculus/SVBRDFOculus/Graphics.cpp:1678-1704 | no two faces look the same way |
| Graphics.NextSwapIndex | SVBRDFOculus/SVBRDFOculus/Graphics.cpp:1915-1919 | the swap index advances by one and wraps to 0 after the last texture |
| Graphics.AdvanceSwapIndexIsModular | SVBRDFOculus/SVBRDFOculus/Graphics.cpp:1915-1919 | after n frames the index has advanced by n modulo the texture count |
| ObjMesh.NormalizeIndex | SVBRDFOculus/SVBRDFOculus/Graphics.cpp:1291-1303 | an OBJ index is valid exactly when it is 1..count or −count..−1 |
| ObjMesh.RelativeIndexMatchesAbsolute | SVBRDFOculus/SVBRDFOculus/Graphics.cpp:1291-1303 | the negative index k − count − 1 names the same element as the absolute index k |
| ObjMesh.FaceCornerCount | SVBRDFOculus/SVBRDFOculus/Graphics.cpp:1266-1289 | four or more read corners give a quad, exactly three a triangle, and fewer no face |
| ObjMesh.Triangulate | SVBRDFOculus/SVBRDFOculus/Graphics.cpp:1305-1320 | a triangle is kept as read; a quad becomes the triangles (0, 1, 2) and (0, 2, 3); fewer corners give nothing; only the face's own corners are used |
| ObjMesh.ApplyObjLine | SVBRDFOculus/SVBRDFOculus/Graphics.cpp:1246-1320 | one line adds whole triangles only |
| ObjMesh.LoadObj | SVBRDFOculus/SVBRDFOculus/Graphics.cpp:1235-1334 | a loaded file's face list is whole triangles |
| ObjMesh.LoadObjCounts | SVBRDFOculus/SVBRDFOculus/Graphics.cpp:1235-1334 | there is one position per `v` line and three corners per triangle of each face line |
| ObjMesh.LoadObjAppends | SVBRDFOculus/SVBRDFOculus/Graphics.cpp:1235-1334 | later lines only append to positions, texture coordinates and faces |
| ObjMesh.LastPositionReference | SVBRDFOculus/SVBRDFOculus/Graphics.cpp:1291-1303 | index −1 in a face refers to the position read just before it |
| ObjMesh.SwapYZ | SVBRDFOculus/SVBRDFOculus/Graphics.cpp:1550-1554 | the swap keeps x |
| ObjMesh.SwapYZIsQuarterTurn | SVBRDFOculus/SVBRDFOculus/Graphics.cpp:1550-1554 | the swap is a quarter turn about x: it keeps length, is undone by the inverse rotation, and four swaps are the identity |
| ObjMesh.CornerVertex | SVBRDFOculus/SVBRDFOculus/Graphics.cpp:1540-1556 | a corner's vertex has its texture coordinate and its position, swapped when asked |
| ObjMesh.KeyOfIsSameVertex | SVBRDFOculus/SVBRDFOculus/Graphics.cpp:1336-1349 | the hash key of a vertex is equal exactly for vertices that compare equal |
| ObjMesh.DeduplicateFile | SVBRDFOculus/SVBRDFOculus/Graphics.cpp:1536-1585 | earlier vertices are kept; each corner's index names an equal vertex; two corners share an index iff they are equal; new vertices are distinct and all used |
| ObjMesh.Deduplicate | SVBRDFOculus/SVBRDFOculus/Graphics.cpp:1536-1585 | over all files, every corner's index is in range and names a vertex equal to that corner; the vertices and indices split into one consecutive range per file, one index per face corner; within one file no vertex is stored twice and every stored vertex is named by one of the file's indices, and two corners share an index iff they are equal, their index lying in that file's vertex range |
| ObjMesh.MeshName | SVBRDFOculus/SVBRDFOculus/Graphics.cpp:1517-1522 | a non-empty name is the parent directory of some file; with no directories the name is empty |
| ObjMesh.MeshNameIsFirstDirectory | SVBRDFOculus/SVBRDFOculus/Graphics.cpp:1517-1522 | the name is the last directory of the first file that has one, and it is not empty |
| ObjMesh.MeshNameNonEmpty | SVBRDFOculus/SVBRDFOculus/Graphics.cpp:1517-1522 | the name is non-empty iff some file has a directory |
| ObjMesh.MeshNameOfPath | SVBRDFOculus/SVBRDFOculus/Graphics.cpp:1517-1522 | for a path of several components the name is the next-to-last one |
| ObjMesh.TriangleAmounts | SVBRDFOculus/SVBRDFOculus/Graphics.cpp:1373-1402 | each vertex's count is the number of times whole triangles reference it |
| Grid.QuadGeometry | SVBRDFOculus/SVBRDFOculus/SVBRDFOculus.cpp:2208-2241 | the quad is four vertices and two triangles whose indices are in range |
| Grid.PixelsPerVertex | SVBRDFOculus/SVBRDFOculus/SVBRDFOculus.cpp:2258-2259 | the step is density rounded up, clamped to [1, MaxPixelsPerVertex] |
| Grid.QuadTriangles | SVBRDFOculus/SVBRDFOculus/SVBRDFOculus.cpp:2315-2378 | both triangles of a cell stay in the cell, wind the same way, and share the diagonal the cell's parity selects |
| Grid.GridIndices | SVBRDFOculus/SVBRDFOculus/SVBRDFOculus.cpp:2315-2378 | a w×h grid has six indices per cell |
| Grid.GridIndexOfQuad | SVBRDFOculus/SVBRDFOculus/SVBRDFOculus.cpp:2315-2378 | the cells are laid out row by row, six indices each |
| Grid.GridIndicesInRange | SVBRDFOculus/SVBRDFOculus/SVBRDFOculus.cpp:2315-2378 | every index names a grid vertex |
| Grid.BuildIndices | SVBRDFOculus/SVBRDFOculus/SVBRDFOculus.cpp:2315-2378 | the nested loops produce exactly the cell-by-cell index list |
| Grid.TwoByTwoGridIsQuad | SVBRDFOculus/SVBRDFOculus/SVBRDFOculus.cpp:2315-2378 | a 2×2 grid has the same triangles as the single quad |
| Grid.SampleInBounds | SVBRDFOculus/SVBRDFOculus/SVBRDFOculus.cpp:2278-2284 | every sampled pixel lies inside the height map |
| Grid.Fraction | SVBRDFOculus/SVBRDFOculus/SVBRDFOculus.cpp:2293-2314 | texture coordinates run from 0 at the first vertex to 1 at the last |
| Grid.GridVertex | SVBRDFOculus/SVBRDFOculus/SVBRDFOculus.cpp:2293-2314 | a vertex has coordinates in [0, 1] and height equal to the sampled height times the magnitude |
| Grid.GridCorners | SVBRDFOculus/SVBRDFOculus/SVBRDFOculus.cpp:2293-2314 | the first vertex is the (−x, +y) corner at uv (0, 0) and the last the (+x, −y) corner at uv (1, 1) |
| Grid.BuildVertices | SVBRDFOculus/SVBRDFOculus/SVBRDFOculus.cpp:2293-2314 | the loops store each grid vertex at its row-major index |
| Grid.InitCpuDisplacementMapped | SVBRDFOculus/SVBRDFOculus/SVBRDFOculus.cpp:2256-2406 | without a height map or with density below 1 the quad is used; otherwise the sampled grid; indices are always in range and whole triangles |
| Grid.ChooseGeometry | SVBRDFOculus/SVBRDFOculus/SVBRDFOculus.cpp:1844-1880 | a loaded mesh wins; the plain quad is used iff nothing displaces it; a CPU grid needs positive density and non-zero magnitude, and carries the caller's density and magnitude |
| Preset.DefaultState | SVBRDFOculus/SVBRDFOculus/SVBRDFOculus.cpp:246-277 | the default has no names, one shadow-casting light and a density load keeps |
| Preset.Words | SVBRDFOculus/SVBRDFOculus/SVBRDFOculus.cpp:390-396 | every word of a line is a non-empty run without whitespace and carries no number, and the words joined back together are the line with its whitespace removed |
| Preset.Truncated | SVBRDFOculus/SVBRDFOculus/SVBRDFOculus.cpp:399 | `%511s` keeps at most 511 characters and leaves shorter names whole |
| Preset.TruncateTowardZero | SVBRDFOculus/SVBRDFOculus/SVBRDFOculus.cpp:407 | `%d` reads the integer part, rounding toward zero on both signs |
| Preset.UnsignedArg | SVBRDFOculus/SVBRDFOculus/SVBRDFOculus.cpp:466 | `%u` yields a 32-bit unsigned value |
| Preset.AaModeOf | SVBRDFOculus/SVBRDFOculus/SVBRDFOculus.cpp:419-434 | MSAA is chosen exactly by 'm' or 'M', and unknown characters mean no antialiasing |
| Preset.TonemapModeOf | SVBRDFOculus/SVBRDFOculus/SVBRDFOculus.cpp:435-449 | Reinhard is chosen exactly by 'r' or 'R', and unknown characters mean the identity |
| Preset.ModeCharsRoundTrip | SVBRDFOculus/SVBRDFOculus/SVBRDFOculus.cpp:298-328 | the characters save writes read back as the same modes, distinct modes get distinct characters, and upper case is accepted |
| Preset.WithLast | SVBRDFOculus/SVBRDFOculus/SVBRDFOculus.cpp:482-496 | editing the last light keeps the others and the count |
| Preset.LightWordsAreNoSettings | SVBRDFOculus/SVBRDFOculus/SVBRDFOculus.cpp:399-481 | no settings keyword begins with "light" |
| Preset.ApplySetting | SVBRDFOculus/SVBRDFOculus/SVBRDFOculus.cpp:399-449 | a settings line never touches the lights, and a "light…" line is never a setting |
| Preset.ApplyViewSetting | SVBRDFOculus/SVBRDFOculus/SVBRDFOculus.cpp:450-481 | the camera, ambient and shadow lines never touch the lights |
| Preset.ApplyLightLine | SVBRDFOculus/SVBRDFOculus/SVBRDFOculus.cpp:482-500 | only a "light…" line that is not a complete light field appends a light, and only "light…" lines change the lights |
| Preset.LoadStart | SVBRDFOculus/SVBRDFOculus/SVBRDFOculus.cpp:385-386 | loading starts with no lights |
| Preset.FixDensity | SVBRDFOculus/SVBRDFOculus/SVBRDFOculus.cpp:503-506 | a density below 1 becomes 0, nothing else changes, and a valid density is kept |
| Preset.Load | SVBRDFOculus/SVBRDFOculus/SVBRDFOculus.cpp:383-507 | a loaded density is 0 or at least 1 |
| Preset.ApplyLineLightCount | SVBRDFOculus/SVBRDFOculus/SVBRDFOculus.cpp:482-500 | a line adds one light exactly when it appends one |
| Preset.LoadCountsLights | SVBRDFOculus/SVBRDFOculus/SVBRDFOculus.cpp:383-507 | a loaded state has as many lights as the file has appending lines |
| Preset.ApplyLinesLightCount | SVBRDFOculus/SVBRDFOculus/SVBRDFOculus.cpp:389-501 | each line adds to the light count only when it appends a light |
| Preset.LightFieldLines | SVBRDFOculus/SVBRDFOculus/SVBRDFOculus.cpp:482-496 | a light field line edits only the last light, and is ignored when there are no lights |
| Preset.ShortLightPositionAppends | SVBRDFOculus/SVBRDFOculus/SVBRDFOculus.cpp:482-500 | a light_position line with only two numbers falls through to the `%5s` case and appends a zero light |
| Preset.CommentLineIsInert | SVBRDFOculus/SVBRDFOculus/SVBRDFOculus.cpp:389-501 | an empty or `#` line changes nothing |
| Preset.SvbrdfLineLoads | SVBRDFOculus/SVBRDFOculus/SVBRDFOculus.cpp:399-402 | the corrected svbrdf line loads its name, and an empty name leaves the state alone |
| Preset.MeshLineLoads | SVBRDFOculus/SVBRDFOculus/SVBRDFOculus.cpp:403-406 | the commented-out mesh line of an empty name changes nothing; a name is loaded |
| Preset.SvbrdfLineAsWrittenLoads | SVBRDFOculus/SVBRDFOculus/SVBRDFOculus.cpp:282 | as written, an empty svbrdf name is read back as "#" |
| Preset.MeshLinesLoad | SVBRDFOculus/SVBRDFOculus/SVBRDFOculus.cpp:284-287 | the mesh lines save writes load the mesh name |
| Preset.HeaderRoundTrip | SVBRDFOculus/SVBRDFOculus/SVBRDFOculus.cpp:282-287 | the corrected name lines load both names back |
| Preset.HeaderAsWrittenRoundTrip | SVBRDFOculus/SVBRDFOculus/SVBRDFOculus.cpp:282-287 | the name lines as written load both names back, except that an empty svbrdf name becomes "#" |
| Preset.VrScaleLineLoads | SVBRDFOculus/SVBRDFOculus/SVBRDFOculus.cpp:407-410 | the vr_scale line loads the VR scale and nothing else |
| Preset.DensityLineLoads | SVBRDFOculus/SVBRDFOculus/SVBRDFOculus.cpp:411-414 | the density line loads the density and nothing else |
| Preset.MagnitudeLineLoads | SVBRDFOculus/SVBRDFOculus/SVBRDFOculus.cpp:415-418 | the magnitude line loads the magnitude and nothing else |
| Preset.AaLineLoads | SVBRDFOculus/SVBRDFOculus/SVBRDFOculus.cpp:419-434 | the aa line loads the antialiasing mode and nothing else |
| Preset.TonemapLineLoads | SVBRDFOculus/SVBRDFOculus/SVBRDFOculus.cpp:435-449 | the tonemap line loads the tonemapping mode and nothing else |
| Preset.CameraPositionLineLoads | SVBRDFOculus/SVBRDFOculus/SVBRDFOculus.cpp:450-453 | the camera_position line loads the camera position and nothing else |
| Preset.CameraYawLineLoads | SVBRDFOculus/SVBRDFOculus/SVBRDFOculus.cpp:454-457 | the yaw line loads the yaw and nothing else |
| Preset.CameraPitchLineLoads | SVBRDFOculus/SVBRDFOculus/SVBRDFOculus.cpp:458-461 | the pitch line loads the pitch and nothing else |
| Preset.AmbientLineLoads | SVBRDFOculus/SVBRDFOculus/SVBRDFOculus.cpp:462-465 | the ambient line loads the ambient colour and nothing else |
| Preset.ShadowLightsLineLoads | SVBRDFOculus/SVBRDFOculus/SVBRDFOculus.cpp:466-469 | a 32-bit shadow light count loads back unchanged |
| Preset.ShadowResolutionLineLoads | SVBRDFOculus/SVBRDFOculus/SVBRDFOculus.cpp:470-473 | a 32-bit shadow resolution loads back unchanged |
| Preset.ShadowDepthBiasLineLoads | SVBRDFOculus/SVBRDFOculus/SVBRDFOculus.cpp:474-477 | the integer depth bias loads back unchanged |
| Preset.ShadowSlopeBiasLineLoads | SVBRDFOculus/SVBRDFOculus/SVBRDFOculus.cpp:478-481 | the slope-scaled depth bias loads back unchanged |
| Preset.ScaleLinesLoad | SVBRDFOculus/SVBRDFOculus/SVBRDFOculus.cpp:291 | the scale block save writes, comments included, loads the VR scale |
| Preset.DisplacementLinesLoad | SVBRDFOculus/SVBRDFOculus/SVBRDFOculus.cpp:295-296 | the displacement block loads density and magnitude |
| Preset.ModeLinesLoad | SVBRDFOculus/SVBRDFOculus/SVBRDFOculus.cpp:298-328 | the aa and tonemap blocks load both modes |
| Preset.CameraLinesLoad | SVBRDFOculus/SVBRDFOculus/SVBRDFOculus.cpp:333-335 | the camera block loads position, yaw and pitch |
| Preset.AmbientLinesLoad | SVBRDFOculus/SVBRDFOculus/SVBRDFOculus.cpp:339 | the ambient block loads the ambient colour |
| Preset.ShadowLinesLoad | SVBRDFOculus/SVBRDFOculus/SVBRDFOculus.cpp:343-346 | the shadow block loads all four shadow settings |
| Preset.SettingsRoundTrip | SVBRDFOculus/SVBRDFOculus/SVBRDFOculus.cpp:289-346 | the settings lines restore every setting other than the names and lights |
| Preset.LightOpenLoads | SVBRDFOculus/SVBRDFOculus/SVBRDFOculus.cpp:497-500 | a bare "light" line appends a zero light |
| Preset.LightPositionLoads | SVBRDFOculus/SVBRDFOculus/SVBRDFOculus.cpp:482-486 | a saved light_position line sets the last light's position |
| Preset.LightFalloffLoads | SVBRDFOculus/SVBRDFOculus/SVBRDFOculus.cpp:487-491 | a saved light_falloff line sets the last light's falloff |
| Preset.LightColorLoads | SVBRDFOculus/SVBRDFOculus/SVBRDFOculus.cpp:492-496 | a saved light_color line sets the last light's colour |
| Preset.LightBlockLoads | SVBRDFOculus/SVBRDFOculus/SVBRDFOculus.cpp:348-355 | one saved light block appends exactly that light |
| Preset.LightLinesLoad | SVBRDFOculus/SVBRDFOculus/SVBRDFOculus.cpp:348-355 | the saved light blocks append the lights in order |
| Preset.BodyRoundTrip | SVBRDFOculus/SVBRDFOculus/SVBRDFOculus.cpp:289-355 | settings and light blocks together restore everything but the names |
| Preset.SaveRoundTrip | SVBRDFOculus/SVBRDFOculus/SVBRDFOculus.cpp:279-356 | loading what the corrected save writes gives back the state |
| Preset.SaveAsWrittenRoundTrip | SVBRDFOculus/SVBRDFOculus/SVBRDFOculus.cpp:279-356 | loading what save writes as written gives back the state, except that an empty svbrdf name becomes "#" |
| Preset.DefaultStateLosesNameAsWritten | SVBRDFOculus/SVBRDFOculus/SVBRDFOculus.cpp:282 | the default state, saved as written, reloads with svbrdf name "#"; the corrected save round-trips it |
| Viewer.MaterialIndexOf | SVBRDFOculus/SVBRDFOculus/SVBRDFOculus.cpp:1569-1581 | the result is the first material of that name, and −1 means the name is empty or absent |
| Viewer.MeshIndexOf | SVBRDFOculus/SVBRDFOculus/SVBRDFOculus.cpp:1646-1658 | the result is the first path sharing a character with the name, and −1 means there is none or the name is empty |
| Viewer.MeshIndexFindsContainingPath | SVBRDFOculus/SVBRDFOculus/SVBRDFOculus.cpp:1646-1658 | a path containing the name is found, at or before its own index |
| Viewer.MeshIndexMatchesUnrelatedName | SVBRDFOculus/SVBRDFOculus/SVBRDFOculus.cpp:1653 | find_first_of matches any shared character, so "brick" selects "meshes/dragon" |
| Viewer.AddNewLight | SVBRDFOculus/SVBRDFOculus/SVBRDFOculus.cpp:2959-2973 | a white light with unit falloff is appended at the selected light's position and becomes selected; the others are kept |
| Viewer.RemoveLight | SVBRDFOculus/SVBRDFOculus/SVBRDFOculus.cpp:2975-2982 | the last light is never removed; otherwise the selected light is erased, the others keep their order, and the selection stays valid |
| Viewer.RemoveUndoesAdd | SVBRDFOculus/SVBRDFOculus/SVBRDFOculus.cpp:2959-2982 | removing the light just added restores the lights, with the last one selected |
| Viewer.LoadedMeshCorrection | SVBRDFOculus/SVBRDFOculus/SVBRDFOculus.cpp:3048-3054 | the modes become consistent, only lighting and normals change, consistent modes are kept, and constant normals become interpolated |
| Viewer.ComputeConstantsAsWritten | SVBRDFOculus/SVBRDFOculus/SVBRDFOculus.cpp:3204-3246 | as written, the shader gets the stored shadow light count, which may exceed the lights |
| Viewer.ComputeConstants | SVBRDFOculus/SVBRDFOculus/SVBRDFOculus.cpp:3204-3246 | the corrected shadow count never exceeds the lights, and every other constant is as written |
| Viewer.ShadowArraySize | SVBRDFOculus/SVBRDFOculus/SVBRDFOculus.cpp:2143-2145 | the shadow array has six slices per shadow light and at least six |
| Viewer.ShadowSliceInverse | SVBRDFOculus/SVBRDFOculus/SVBRDFOculus.cpp:2155-2172 | a slice number gives back its light and face |
| Viewer.ShadowSlicesFit | SVBRDFOculus/SVBRDFOculus/SVBRDFOculus.cpp:2155-2172 | every light's faces fit in the array, and distinct light/face pairs use distinct slices |
| Viewer.ShadowFaceSlices | SVBRDFOculus/SVBRDFOculus/SVBRDFOculus.cpp:2155-2172 | the loop creates one view per slice, in slice order, all inside the array |
| Viewer.InitAA | SVBRDFOculus/SVBRDFOculus/SVBRDFOculus.cpp:3135-3201 | no targets without antialiasing; otherwise matching sRGB colour and D32 depth targets at the supersampled size, multisampled only for MSAA, whose last mip is the window size |
| Viewer.EditLights | SVBRDFOculus/SVBRDFOculus/SVBRDFOculus.cpp:2998-3018 | with no lights the frame crashes; otherwise only lights, selection and shadow count change, the count moves by add and remove, and a change is reported for those keys |
| Viewer.ToggleRenderModes | SVBRDFOculus/SVBRDFOculus/SVBRDFOculus.cpp:3024-3037 | each mode changes only when its key is pressed, and a press moves the mode to its successor, wrapping from the last value to the first |
| Viewer.ToggleModes | SVBRDFOculus/SVBRDFOculus/SVBRDFOculus.cpp:3024-3043 | the reported toggles follow the keys; the headset is used only when connected; the VR scale stays in [−1, 10]; the lights are untouched |
| Viewer.LoadMaterial | SVBRDFOculus/SVBRDFOculus/SVBRDFOculus.cpp:1561-1567 | with no materials nothing valid is loaded |
| Viewer.LoadMesh | SVBRDFOculus/SVBRDFOculus/SVBRDFOculus.cpp:1637-1644 | with no meshes nothing valid is loaded |
| Viewer.ChooseMaterial | SVBRDFOculus/SVBRDFOculus/SVBRDFOculus.cpp:3066-3082 | the frame goes on only with a valid material; the dialog is opened when asked for or when nothing valid is loaded; with no key the current material stays |
| Viewer.ChooseMesh | SVBRDFOculus/SVBRDFOculus/SVBRDFOculus.cpp:3084-3105 | mesh mode is kept only with a valid mesh; the dialog asks for a rebuild; with no key nothing changes |
| Viewer.DisplacementWithHeightMap | SVBRDFOculus/SVBRDFOculus/SVBRDFOculus.cpp:3107-3117 | displacement stays only when the material has a usable height map |
| Viewer.BuildRenderer | SVBRDFOculus/SVBRDFOculus/SVBRDFOculus.cpp:1833-1911 | the renderer follows the viewer's modes, and the corrected one never shadows more lights than exist |
| Viewer.RecordNames | SVBRDFOculus/SVBRDFOculus/SVBRDFOculus.cpp:2939-2957 | only the two names change: the material name, and the mesh name only while a valid mesh is shown |
| Viewer.UpdateAsWritten | SVBRDFOculus/SVBRDFOculus/SVBRDFOculus.cpp:2984-3133 | as written, a frame crashes on an empty light list, and a running frame keeps a valid material and selection |
| Viewer.Update | SVBRDFOculus/SVBRDFOculus/SVBRDFOculus.cpp:2984-3133 | the corrected frame crashes only on an empty light list, leaves the viewer settled, and builds consistent renderers |
| Viewer.WrapSettles | SVBRDFOculus/SVBRDFOculus/SVBRDFOculus.cpp:3056-3057 | wrapping a material or mesh index keeps it in range |
| Viewer.FrameSettles | SVBRDFOculus/SVBRDFOculus/SVBRDFOculus.cpp:2984-3133 | a corrected frame leaves the viewer settled and rebuilds only consistent renderers |
| Viewer.IdleFrameChangesNothing | SVBRDFOculus/SVBRDFOculus/SVBRDFOculus.cpp:2984-3133 | a settled viewer with no key pressed is left as it is, with no rebuild |
| Viewer.RebuildWhenAsked | SVBRDFOculus/SVBRDFOculus/SVBRDFOculus.cpp:3119-3125 | every key that changes geometry or lights, and a forced init, rebuilds the renderer |
| Viewer.RemovingShadowedLightCrashesAsWritten | SVBRDFOculus/SVBRDFOculus/SVBRDFOculus.cpp:2975-2982 | removing one of two shadowed lights leaves the shadow count at 2 and the rebuild reads past the light list |
| Viewer.UpdateNeverOverrunsShadowLights | SVBRDFOculus/SVBRDFOculus/SVBRDFOculus.cpp:1930-1937 | the corrected frame never reads a shadow light past the light list |
| Viewer.MeshDialogKeepsTextureSpaceAsWritten | SVBRDFOculus/SVBRDFOculus/SVBRDFOculus.cpp:3088-3093 | as written, picking a mesh from the dialog builds a mesh renderer with texture-space lighting |
| Viewer.SetState | SVBRDFOculus/SVBRDFOculus/SVBRDFOculus.cpp:2836-2885 | the state is adopted; the material and mesh are looked up by name; the modes are reset consistently to forward lighting without displacement or shadows |
| Viewer.ApplyPresetAsWritten | SVBRDFOculus/SVBRDFOculus/SVBRDFOculus.cpp:2836-2885 | loading a preset with the frame as written crashes iff the preset has no lights; otherwise it forces a rebuild and reinit, leaves a valid material and a selected light in range, and keeps the preset's lights |
| Viewer.ApplyPreset | SVBRDFOculus/SVBRDFOculus/SVBRDFOculus.cpp:2836-2885 | loading a preset with the corrected frame crashes iff the preset has no lights; otherwise it forces a rebuild and reinit, leaves the viewer settled, and keeps the preset's lights |
| Viewer.PresetWithoutLightsCrashes | SVBRDFOculus/SVBRDFOculus/SVBRDFOculus.cpp:385-386 | a preset file without light lines loads no lights, so applying it crashes |

## Left out

- Direct3D 11 calls: device, context, shaders, resource creation, drawing. The model keeps
  only the descriptors and choices that feed them.
- The Oculus SDK session, head poses, the mirror texture and the swap-texture sets; the
  index of an eye's swap texture is kept.
- Win32: windows, message loop, file dialogs, `searchFiles`, and `GetFocus`/`GetAsyncKeyState`.
  The latter two become the parameters `otherWindowFocused` and `asyncDown` of `KeyHeld`.
- File input and output: preset files, OBJ files and images. Files come in as lines already
  split into words, and the material and mesh lists of the `World` stand for the directory
  scans.
- `%f` formatting and parsing: a number token carries the value it spells, so a saved float
  reads back as itself. The `fgets` split of lines longer than 1023 characters is left out.
- Preset keywords are matched as whole words. `sscanf` also accepts a keyword glued to a
  longer word, which is left out. A keyword line that starts with whitespace is also read
  as its words here, while the source skips it; the one exception is `light`, whose `%5s`
  skips the whitespace, so a line such as ` light_position 1 2 3` appends a zero light
  there and is ignored here.
- The floating-point editors are left out, because they are floating point: light position
  and colour, ambient, intensity, the height and density multipliers (`updateValueMultiply`),
  and the float overloads of clamp and wrap.
- The camera, the help text and the text manager, which draw only.
- `updatePresets`: its key handling and file I/O. Its effect is modelled by `ApplyPresetAsWritten`
  and `ApplyPreset`, which end with the forced `update` inside `setState`; the rest of the outer
  `update` that called `updatePresets` is not composed after it.
- `retessellate` and `computeTargetTriangleArea`, which are floating-point geometry.
- Vertex normals and tessellation factors of `computeVertexNormals`. Only the per-vertex
  triangle counts are modelled.
- The commented-out lighting-precision toggle; `processArgs` and `main`.
- Controls.UpdateValueClamp: does not model 32-bit overflow of `value + increment`, because
  the increments used are small constants.
- Controls.UpdateValueWrap: does not model 32-bit overflow, for the same reason.
- Utils.ReplaceAll: requires a non-empty pattern, because on an empty one the source's loop
  never terminates.
- ObjMesh.TriangleAmounts: requires at least three indices. With fewer, the source's
  `indices.size() - 3` wraps around as an unsigned value, and the loop then reads past the
  index list.
- `Graphics.cpp:1560` writes `v.pos[3] = 1` into a three-component position; the model
  gives positions three components and leaves that write out.
- Graphics.PixelIndex: requires a positive width (height) when x (y) is negative. The
  source's `while (x < 0) x += width;` never ends for a width of zero, so the model gives
  that input no result. It also requires a non-negative width and channel count, which
  every buffer `NewFloatPixelBuffer` makes has; a buffer with a negative extent is not modelled.
- Graphics.Transcode: requires the destination size to fit in 32 bits. The source's
  unsigned `dstSize()` wraps instead, and the wrapped size is not modelled.
- Utils.DivRoundUp: requires a positive divisor. With a divisor of zero the source divides
  by zero.
- Grid.InitCpuDisplacementMapped: requires a grid of at least two by two vertices, which
  the source does not check. With one column its uv division is 0/0, and with none `W - 1`
  wraps as an unsigned value. The GPU path reaches it for materials narrower than 128
  pixels, because it samples every 64th pixel.
- The mesh `scale` of `loadMesh`, the largest distance of a position from the origin, is
  left out, because it is a floating-point square root.
- `Mesh::valid` is modelled only as the predicate `Graphics.Mesh.Valid`.

## Findings

| source | as written | input that shows it | evidently intended | confidence | as-written member | corrected member |
|---|---|---|---|---|---|---|
| SVBRDFOculus/SVBRDFOculus/SVBRDFOculus.cpp:282 | `save` writes `svbrdf <name>` even for an empty name, so the line becomes `svbrdf` followed by the comment | the default state, whose svbrdf name is empty, reloads with the name "#" | an empty name is commented out, as the mesh line already is | not executed | Preset.SaveAsWrittenRoundTrip | Preset.SaveRoundTrip |
| SVBRDFOculus/SVBRDFOculus/SVBRDFOculus.cpp:2975-2982 | `removeLight` never lowers `shadowLights`, and the rebuild reads `lights[i]` for every shadow light | two lights, shadowLights 2, shadow mapping on, press remove | the shadow count is clamped to the number of lights | not executed | Viewer.RemovingShadowedLightCrashesAsWritten | Viewer.UpdateNeverOverrunsShadowLights |
| SVBRDFOculus/SVBRDFOculus/SVBRDFOculus.cpp:3088-3093 | the mesh dialog switches to the loaded mesh after the lighting correction has run | quad mode with texture-space lighting, pick a mesh in the dialog | a loaded mesh is never rendered with texture-space lighting | not executed | Viewer.MeshDialogKeepsTextureSpaceAsWritten | Viewer.Update |
| SVBRDFOculus/SVBRDFOculus/Graphics.cpp:349-356 | the UAV descriptor of a texture array never sets its format | a six-slice R32 float texture with unordered access | the array view uses the texture's view format, as the single-texture view does | not executed | Graphics.UavDescAsWritten | Graphics.UavDesc |
| SVBRDFOculus/SVBRDFOculus/Graphics.cpp:303-309 | the cube-array branch of the shader-resource descriptor sets the dimension but never the cube count or first face, in a descriptor that is not zeroed | a cube texture with twelve slices | the view covers `ArraySize / 6` cubes from face 0 | not executed | Graphics.SrvCubeArrayCountMissing | Graphics.DefaultViewsFit |

=== FILE: controls.dfy ===
/** The keyboard-driven value editors of the viewer (SVBRDFOculus.cpp). Each one is given the
    edge-detected presses of its keys as booleans, and answers the new value together with
    whether a key acted on it. Values are unbounded integers: the 32-bit overflow of the
    source's `int` arithmetic is not modelled. */
module Controls {
  import opened Utils

  /** A value after an editor ran, and whether one of its keys was pressed. */
  datatype Update<T> = Update(value: T, changed: bool)

  // ---------------------------------------------------------------------------
  // Enumerations

  /** `toggleValue` on an enumeration whose last value has ordinal `maximum`: a press moves
      to the successor, and the last value wraps around to the first. */
  function ToggleOrdinal(v: nat, maximum: nat, pressed: bool): (r: Update<nat>)
    requires v <= maximum
    ensures r.value <= maximum
    ensures r.changed == pressed
    ensures !pressed ==> r.value == v
    ensures pressed ==> r.value == (v + 1) % (maximum + 1)
  {
    if !pressed then Update(v, false)
    else if v == maximum then DivModOf(1, maximum + 1, 0); Update(0, true)
    else DivModOf(0, maximum + 1, v + 1); Update(v + 1, true)
  }

  /** The ordinal after `presses` presses of a toggle key. */
  function TogglePresses(v: nat, maximum: nat, presses: nat): (r: nat)
    requires v <= maximum
    ensures r <= maximum
  {
    if presses == 0 then v else ToggleOrdinal(TogglePresses(v, maximum, presses - 1), maximum, true).value
  }

  /** Pressing a toggle key n times advances the value by n around the cycle of all values. */
  lemma {:induction false} TogglePressesAdvance(v: nat, maximum: nat, presses: nat)
    requires v <= maximum
    ensures TogglePresses(v, maximum, presses) == (v + presses) % (maximum + 1)
    decreases presses
  {
    if presses == 0 {
      DivModOf(0, maximum + 1, v);
    } else {
      TogglePressesAdvance(v, maximum, presses - 1);
      ModSuccessor(v + presses - 1, maximum + 1);
    }
  }

  /** `maximum + 1` presses of a toggle key bring the value back to where it started. */
  lemma TogglePressesCycle(v: nat, maximum: nat)
    requires v <= maximum
    ensures TogglePresses(v, maximum, maximum + 1) == v
  {
    TogglePressesAdvance(v, maximum, maximum + 1);
    DivModOf(1, maximum + 1, v);
  }

  /** `updateEnum`: the increase key steps up and wraps from `max` to `min`; the decrease key,
      applied after it, steps down and wraps from `min` to `max`. */
  function UpdateEnum(v: int, min: int, max: int, increase: bool, decrease: bool): (r: Update<int>)
    ensures r.changed == (increase || decrease)
    ensures !increase && !decrease ==> r.value == v
    ensures min <= v <= max ==> min <= r.value <= max
  {
    var up := if !increase then v else if v == max then min else v + 1;
    var down := if !decrease then up else if up == min then max else up - 1;
    Update(down, increase || decrease)
  }

  /** Within the range [min, max] the increase key alone is the cyclic successor and the
      decrease key alone the cyclic predecessor; pressing both leaves the value where it was. */
  lemma UpdateEnumCycles(v: int, min: int, max: int)
    requires min <= v <= max
    ensures var n := max - min + 1;
            UpdateEnum(v, min, max, true, false).value == min + (v - min + 1) % n &&
            UpdateEnum(v, min, max, false, true).value == min + (v - min + n - 1) % n
    ensures UpdateEnum(v, min, max, true, true).value == v
  {
    var n := max - min + 1;
    if v == max {
      DivModUnique(v - min + 1, n, 1, 0);
    } else {
      DivModUnique(v - min + 1, n, 0, v - min + 1);
    }
    if v == min {
      DivModUnique(v - min + n - 1, n, 0, n - 1);
    } else {
      DivModUnique(v - min + n - 1, n, 1, v - min - 1);
    }
  }

  // ---------------------------------------------------------------------------
  // Integers

  /** The value after the increase key added `increment` and the decrease key took it away. */
  function Nudged(value: int, increment: int, increase: bool, decrease: bool): int
  {
    value + (if increase then increment else 0) - (if decrease then increment else 0)
  }

  /** Integer `updateValueClamp`: the nudged value is clamped into [min, max]; an empty range
      pins it at `min`. */
  function UpdateValueClamp(value: int, increment: int, min: int, max: int, increase: bool, decrease: bool): (r: Update<int>)
    ensures r.changed == (increase || decrease)
    ensures min >= max ==> r.value == min
    ensures min < max ==> min <= r.value <= max
    ensures min < max ==> (r.value == Nudged(value, increment, increase, decrease) <==>
                           min <= Nudged(value, increment, increase, decrease) <= max)
    ensures min < max && Nudged(value, increment, increase, decrease) < min ==> r.value == min
    ensures min < max && Nudged(value, increment, increase, decrease) > max ==> r.value == max
  {
    var v := Nudged(value, increment, increase, decrease);
    if min >= max then Update(min, increase || decrease)
    else Update(if v < min then min else if v > max then max else v, increase || decrease)
  }

  /** Where integer `updateValueWrap` leaves a value: the nudged value reduced modulo the
      range length into [min, max), or `min` when the range is empty. */
  function WrapValue(value: int, increment: int, min: int, max: int, increase: bool, decrease: bool): (r: Update<int>)
    ensures r.changed == (increase || decrease)
    ensures min < max ==> min <= r.value < max
  {
    var v := Nudged(value, increment, increase, decrease);
    Update(if min >= max then min else min + (v - min) % (max - min), increase || decrease)
  }

  /** Integer `updateValueWrap`: the nudged value is brought into [min, max) by adding or
      subtracting the range length as often as needed; an empty range pins it at `min`. */
  method UpdateValueWrap(value: int, increment: int, min: int, max: int, increase: bool, decrease: bool)
    returns (r: int, changed: bool)
    ensures changed == (increase || decrease)
    ensures min >= max ==> r == min
    ensures min < max ==> min <= r < max
    ensures min < max ==> r == min + (Nudged(value, increment, increase, decrease) - min) % (max - min)
    ensures Update(r, changed) == WrapValue(value, increment, min, max, increase, decrease)
  {
    changed := false;
    r := value;
    if increase {
      r := r + increment;
      changed := true;
    }
    if decrease {
      r := r - increment;
      changed := true;
    }
    if min >= max {
      r := min;
    } else {
      var range := max - min;
      ghost var residue := (r - min) % range;
      assert r == Nudged(value, increment, increase, decrease);
      while r < min
        invariant (r - min) % range == residue
        decreases min - r
      {
        ModAddPeriod(r - min, range);
        r := r + range;
      }
      while r >= max
        invariant r >= min
        invariant (r - min) % range == residue
        decreases r - min
      {
        ModAddPeriod(r - range - min, range);
        r := r - range;
      }
      DivModUnique(r - min, range, 0, r - min);
    }
  }

  /** `updateValueMax` on an unsigned value: the increase key steps up only below `max`, then
      the decrease key steps down only above zero. */
  function UpdateValueMax(value: nat, max: nat, increase: bool, decrease: bool): (r: Update<nat>)
    ensures value <= max ==> r.value <= max
    ensures value > max ==> r.value <= value
    ensures increase && !decrease ==> r.value == (if value < max then value + 1 else value)
    ensures decrease && !increase ==> r.value == (if value > 0 then value - 1 else value)
    ensures !increase && !decrease ==> r == Update(value, false)
    ensures r.changed ==> increase || decrease
    ensures !(increase && decrease) ==> (r.changed <==> r.value != value)
    ensures increase && decrease ==>
              r.changed == (value < max || value > 0) &&
              r.value == (if value < max || value == 0 then value else value - 1)
  {
    var up := if increase && value < max then value + 1 else value;
    var down := if decrease && up > 0 then up - 1 else up;
    Update(down, (increase && value < max) || (decrease && up > 0))
  }
}

=== FILE: graphics.dfy ===
/** The CPU-side rules of the Direct3D wrapper (Graphics.hpp and Graphics.cpp): vertices and
    meshes, float pixel buffers, 24-bit image transcoding, texture and view descriptors,
    depth-stencil state, the cube-map face table and the swap-chain index of an eye. */
module Graphics {
  import opened Wrappers
  import opened Utils

  // ---------------------------------------------------------------------------
  // Vertices and meshes

  datatype Float2 = Float2(u: real, v: real)
  datatype Float3 = Float3(x: real, y: real, z: real)

  /** A mesh vertex. Normals and tessellation factors are derived after loading. */
  datatype Vertex = Vertex(pos: Float3, normal: Float3, uv: Float2, tessellation: real)

  /** `Vertex::operator==`: only position and texture coordinate take part. */
  predicate SameVertex(a: Vertex, b: Vertex)
  {
    a.pos == b.pos && a.uv == b.uv
  }

  /** Vertices that differ only in the derived attributes compare equal, and the comparison
      is an equivalence, so it can key a de-duplication table. */
  lemma SameVertexIgnoresDerived(a: Vertex, n: Float3, t: real)
    ensures SameVertex(a, a.(normal := n, tessellation := t))
    ensures forall b, c :: SameVertex(a, b) && SameVertex(b, c) ==> SameVertex(a, c)
    ensures forall b :: SameVertex(a, b) <==> SameVertex(b, a)
  {
  }

  /** The GPU side of a mesh: a buffer is present once it has been created. */
  datatype Mesh = Mesh(
    name: string,
    objFiles: seq<string>,
    vertexBuffer: Option<seq<Vertex>>,
    indexBuffer: Option<seq<nat>>,
    scale: real)
  {
    /** `Mesh::valid`: both buffers exist. */
    predicate Valid()
    {
      vertexBuffer.Some? && indexBuffer.Some?
    }
  }

  /** A default-constructed mesh, as held before anything is loaded. */
  const NoMesh: Mesh := Mesh("", [], None, None, 0.0)

  // ---------------------------------------------------------------------------
  // Formats

  datatype Format =
    | Unknown
    | D32Float
    | R32Typeless
    | R32Float
    | R32Sint
    | R32Uint
    | R32G32Float
    | R32G32B32Float
    | R32G32B32A32Float
    | R16G16B16A16Float
    | R8G8B8A8Unorm
    | R8G8B8A8UnormSrgb

  /** Channels per texel, as DXGI defines the formats (0 for `Unknown`). */
  function ChannelCount(f: Format): nat
  {
    match f
    case Unknown => 0
    case D32Float | R32Typeless | R32Float | R32Sint | R32Uint => 1
    case R32G32Float => 2
    case R32G32B32Float => 3
    case R32G32B32A32Float | R16G16B16A16Float | R8G8B8A8Unorm | R8G8B8A8UnormSrgb => 4
  }

  // ---------------------------------------------------------------------------
  // FloatPixelBuffer

  /** A CPU copy of a float image. A default buffer has every dimension -1, which callers read
      as "no image". */
  datatype FloatPixelBuffer = FloatPixelBuffer(width: int, height: int, channels: int, pixels: seq<real>)

  const NoPixels: FloatPixelBuffer := FloatPixelBuffer(-1, -1, -1, [])

  predicate HasImage(b: FloatPixelBuffer)
  {
    b.width > 0
  }

  /** The sized constructor: width * height * channels zeros. */
  function NewFloatPixelBuffer(width: nat, height: nat, channels: nat): (b: FloatPixelBuffer)
    ensures b.width == width && b.height == height && b.channels == channels
    ensures |b.pixels| == width * height * channels
    ensures forall i :: 0 <= i < |b.pixels| ==> b.pixels[i] == 0.0
  {
    FloatPixelBuffer(width, height, channels, seq(width * height * channels, _ => 0.0))
  }

  /** `FloatPixelBuffer::format`: only one- and four-channel buffers have a format; any other
      channel count stops the program. */
  function PixelFormat(b: FloatPixelBuffer): (r: Result<Format>)
    ensures r.Ok? <==> b.channels == 1 || b.channels == 4
    ensures r.Ok? ==> ChannelCount(r.value) == b.channels
  {
    if b.channels == 1 then Ok(R32Float)
    else if b.channels == 4 then Ok(R32G32B32A32Float)
    else Failed("Invalid channel amount")
  }

  /** `FloatPixelBuffer::bytes`: four bytes per float. */
  function PixelBytes(b: FloatPixelBuffer): nat
  {
    SizeBytes(b.pixels, 4)
  }

  /** The first loop of `operator()(x, y)`: a negative coordinate is advanced by the extent until
      it is not negative, which leaves its (non-negative) remainder modulo the extent; a
      non-negative one is left alone. */
  method WrapCoordinate(c: int, extent: int) returns (w: int)
    requires c < 0 ==> extent > 0
    ensures c >= 0 ==> w == c
    ensures c < 0 ==> w == c % extent
  {
    w := c;
    while w < 0
      invariant c < 0 ==> w < extent && w % extent == c % extent
      invariant c >= 0 ==> w == c
      decreases -w
    {
      ModAddPeriod(w, extent);
      w := w + extent;
    }
    if c < 0 {
      DivModOf(0, extent, w);
    }
  }

  /** The position of channel `ch` of pixel (x, y) in the row-major, channel-interleaved
      pixel array. */
  function FlatIndex(x: nat, y: nat, ch: nat, width: nat, channels: nat): nat
  {
    (y * width + x) * channels + ch
  }

  /** `operator()(x, y, ch)`: the channel is checked, negative coordinates are wrapped into
      range by adding the extent as often as needed, and the flat index is returned. */
  method PixelIndex(b: FloatPixelBuffer, x: int, y: int, ch: int) returns (r: Result<nat>)
    requires x < 0 ==> b.width > 0
    requires y < 0 ==> b.height > 0
    requires b.width >= 0 && b.channels >= 0
    ensures r.Ok? <==> 0 <= ch < b.channels
    ensures r.Ok? && 0 <= x < b.width && 0 <= y < b.height ==> r.value == FlatIndex(x, y, ch, b.width, b.channels)
    ensures r.Ok? ==> r.value == FlatIndex(if x < 0 then x % b.width else x, if y < 0 then y % b.height else y,
                                           ch, b.width, b.channels)
    ensures r.Ok? && -b.width <= x < b.width && -b.height <= y < b.height ==>
              r.value == FlatIndex(if x < 0 then x + b.width else x, if y < 0 then y + b.height else y, ch, b.width, b.channels)
  {
    if !(0 <= ch < b.channels) {
      return Failed("Invalid channel");
    }
    var wx := WrapCoordinate(x, b.width);
    var wy := WrapCoordinate(y, b.height);
    if x < 0 {
      ModOfNegative(x, b.width);
    }
    if y < 0 {
      ModOfNegative(y, b.height);
    }
    r := Ok(FlatIndex(wx, wy, ch, b.width, b.channels));
  }

  /** A coordinate less than zero wraps into range; one at least minus the extent moves by
      exactly one extent. */
  lemma ModOfNegative(c: int, extent: int)
    requires c < 0 && extent > 0
    ensures 0 <= c % extent < extent
    ensures -extent <= c ==> c % extent == c + extent
  {
    if -extent <= c {
      DivModUnique(c, extent, -1, c + extent);
    }
  }

  /** A pixel inside the image comes before the end of the row-major pixel list. */
  lemma RowMajorBelow(x: nat, y: nat, width: nat, height: nat)
    requires x < width && y < height
    ensures y * width + x < width * height
  {
    MultiplyMonotone(y + 1, height, width);
    assert (y + 1) * width == y * width + width;
  }

  /** Scaling both sides of p < n by the channel count leaves room for every channel. */
  lemma ScaledBelow(p: nat, n: nat, ch: nat, channels: nat)
    requires p < n && ch < channels
    ensures p * channels + ch < n * channels
  {
    MultiplyMonotone(p + 1, n, channels);
    assert (p + 1) * channels == p * channels + channels;
  }

  /** A pixel inside the image addresses a float inside a buffer of that size, and distinct
      pixels or channels address distinct floats: the index can be decomposed again. */
  lemma FlatIndexInverse(x: nat, y: nat, ch: nat, width: nat, height: nat, channels: nat)
    requires x < width && y < height && ch < channels
    ensures FlatIndex(x, y, ch, width, channels) < width * height * channels
    ensures FlatIndex(x, y, ch, width, channels) % channels == ch
    ensures (FlatIndex(x, y, ch, width, channels) / channels) % width == x
    ensures FlatIndex(x, y, ch, width, channels) / channels / width == y
  {
    var p := y * width + x;
    DivModOf(p, channels, ch);
    DivModOf(y, width, x);
    RowMajorBelow(x, y, width, height);
    ScaledBelow(p, width * height, ch, channels);
  }

  // ---------------------------------------------------------------------------
  // PixelTranscoding

  newtype uint8 = x: int | 0 <= x < 256

  /** `-1` stored into a `uint8_t`: a fully opaque alpha. */
  const OpaqueAlpha: uint8 := 255

  /** The WIC pixel formats the loader accepts; anything else stops the program. */
  datatype WicFormat = Rgb24 | Bgr24 | OtherWicFormat

  datatype Transcoding = Transcoding(width: nat, height: nat, bgr: bool)
  {
    /** Three source bytes per pixel. */
    function SourceSize(): nat { 3 * width * height }

    /** Four destination bytes per pixel. */
    function DestinationSize(): nat { 4 * width * height }
  }

  /** The `PixelTranscoding` constructor: both accepted formats become RGBA8. */
  function NewTranscoding(width: nat, height: nat, format: WicFormat): (r: Result<Transcoding>)
    ensures r.Ok? <==> format != OtherWicFormat
    ensures r.Ok? ==> r.value.width == width && r.value.height == height && (r.value.bgr <==> format == Bgr24)
  {
    match format
    case Rgb24 => Ok(Transcoding(width, height, false))
    case Bgr24 => Ok(Transcoding(width, height, true))
    case OtherWicFormat => Failed("Unsupported format")
  }

  /** Byte `c` of destination pixel `i`: the source channel, with red and blue exchanged for BGR
      sources, and an opaque alpha. */
  function ExpandedByte(t: Transcoding, src: seq<uint8>, i: nat, c: nat): uint8
    requires 3 * i + 2 < |src| && c < 4
  {
    if c == 3 then OpaqueAlpha
    else if t.bgr then src[3 * i + (2 - c)]
    else src[3 * i + c]
  }

  /** `transcode`: a source of the wrong size stops the program; otherwise every pixel is
      expanded to four bytes. The destination size is a 32-bit product, so the image must fit. */
  method Transcode(t: Transcoding, src: seq<uint8>) returns (r: Result<seq<uint8>>)
    requires t.DestinationSize() < U32Modulus
    ensures r.Ok? <==> |src| == t.SourceSize()
    ensures r.Ok? ==> |r.value| == t.DestinationSize()
    ensures r.Ok? ==> forall i, c :: 0 <= i < t.width * t.height && 0 <= c < 4 ==>
                        r.value[4 * i + c] == ExpandedByte(t, src, i, c)
  {
    if |src| != t.SourceSize() {
      return Failed("Unexpected source size");
    }
    var pixels := t.width * t.height;
    var dst: seq<uint8> := [];
    var i := 0;
    while i < pixels
      invariant 0 <= i <= pixels
      invariant |dst| == 4 * i
      invariant forall j, c :: 0 <= j < i && 0 <= c < 4 ==> dst[4 * j + c] == ExpandedByte(t, src, j, c)
    {
      var px := if t.bgr then [src[3 * i + 2], src[3 * i + 1], src[3 * i], OpaqueAlpha]
                else [src[3 * i], src[3 * i + 1], src[3 * i + 2], OpaqueAlpha];
      dst := dst + px;
      i := i + 1;
    }
    r := Ok(dst);
  }

  /** The first three bytes of every four: RGBA back to RGB. */
  function StripAlpha(rgba: seq<uint8>): (rgb: seq<uint8>)
    decreases |rgba|
  {
    if |rgba| < 4 then [] else rgba[..3] + StripAlpha(rgba[4..])
  }

  /** Bytes laid out four to a pixel whose first three are the source's three give the source
      back once the fourth is dropped. */
  lemma {:induction false} StripAlphaOfExpanded(rgba: seq<uint8>, rgb: seq<uint8>, n: nat)
    requires |rgba| == 4 * n && |rgb| == 3 * n
    requires forall i, c :: 0 <= i < n && 0 <= c < 3 ==> RgbaByte(rgba, i, c) == RgbByte(rgb, i, c)
    ensures StripAlpha(rgba) == rgb
    decreases n
  {
    if n > 0 {
      forall i, c | 0 <= i < n - 1 && 0 <= c < 3
        ensures RgbaByte(rgba[4..], i, c) == RgbByte(rgb[3..], i, c)
      {
        assert RgbaByte(rgba, i + 1, c) == RgbByte(rgb, i + 1, c);
      }
      StripAlphaOfExpanded(rgba[4..], rgb[3..], n - 1);
      assert rgba[..3] == rgb[..3] by {
        forall c | 0 <= c < 3
          ensures rgba[c] == rgb[c]
        {
          assert RgbaByte(rgba, 0, c) == RgbByte(rgb, 0, c);
        }
      }
      assert rgb == rgb[..3] + rgb[3..];
    }
  }

  function RgbaByte(s: seq<uint8>, i: nat, c: nat): uint8
    requires 4 * i + c < |s|
  {
    s[4 * i + c]
  }

  function RgbByte(s: seq<uint8>, i: nat, c: nat): uint8
    requires 3 * i + c < |s|
  {
    s[3 * i + c]
  }

  /** Transcoding an RGB source and dropping the alpha bytes gives the source back. */
  lemma TranscodeRoundTrip(t: Transcoding, src: seq<uint8>, dst: seq<uint8>)
    requires !t.bgr && |src| == t.SourceSize() && |dst| == t.DestinationSize()
    requires forall i, c :: 0 <= i < t.width * t.height && 0 <= c < 4 ==> dst[4 * i + c] == ExpandedByte(t, src, i, c)
    ensures StripAlpha(dst) == src
  {
    var n := t.width * t.height;
    forall i, c | 0 <= i < n && 0 <= c < 3
      ensures RgbaByte(dst, i, c) == RgbByte(src, i, c)
    {
      assert dst[4 * i + c] == ExpandedByte(t, src, i, c);
    }
    StripAlphaOfExpanded(dst, src, n);
  }

  /** For a BGR source, red and blue of each destination pixel are the source's blue and red. */
  lemma TranscodeSwapsRedBlue(t: Transcoding, src: seq<uint8>, dst: seq<uint8>, i: nat)
    requires t.bgr && |src| == t.SourceSize() && |dst| == t.DestinationSize()
    requires forall i, c :: 0 <= i < t.width * t.height && 0 <= c < 4 ==> dst[4 * i + c] == ExpandedByte(t, src, i, c)
    requires i < t.width * t.height
    ensures dst[4 * i] == src[3 * i + 2] && dst[4 * i + 1] == src[3 * i + 1] && dst[4 * i + 2] == src[3 * i]
    ensures dst[4 * i + 3] == OpaqueAlpha
  {
    assert dst[4 * i + 0] == ExpandedByte(t, src, i, 0);
    assert dst[4 * i + 1] == ExpandedByte(t, src, i, 1);
    assert dst[4 * i + 2] == ExpandedByte(t, src, i, 2);
    assert dst[4 * i + 3] == ExpandedByte(t, src, i, 3);
  }

  // ---------------------------------------------------------------------------
  // Texture and buffer descriptors

  datatype BindFlags = BindFlags(shaderResource: bool, unorderedAccess: bool, renderTarget: bool, depthStencil: bool)

  const NoBinding: BindFlags := BindFlags(false, false, false, false)

  datatype TextureDesc = TextureDesc(
    width: nat,
    height: nat,
    mipLevels: nat,
    arraySize: nat,
    sampleCount: nat,
    format: Format,
    bind: BindFlags,
    cube: bool)

  /** `texture2DDesc`: a single-sample, single-slice, single-mip texture with no bindings. */
  function Texture2DDesc(width: nat, height: nat, format: Format): (d: TextureDesc)
    ensures d.width == width && d.height == height && d.format == format
    ensures FixupTextureDescriptor(d) == d
    ensures SrvDesc(d).dimension == SrvTexture2D && TargetDimensionOf(d) == TargetTexture2D
  {
    TextureDesc(width, height, 1, 1, 1, format, NoBinding, false)
  }

  /** Whether `fixupTextureDescriptor` retypes the texture: a 32-bit float depth target that a
      shader also reads or writes. */
  predicate NeedsTypelessDepth(d: TextureDesc)
  {
    d.bind.depthStencil && (d.bind.shaderResource || d.bind.unorderedAccess) && d.format == D32Float
  }

  /** `fixupTextureDescriptor`: such a texture is created typeless, any other one as described. */
  function FixupTextureDescriptor(d: TextureDesc): (r: TextureDesc)
    ensures r.(format := d.format) == d
    ensures r.format != d.format <==> NeedsTypelessDepth(d)
    ensures NeedsTypelessDepth(d) ==> r.format == R32Typeless
  {
    if NeedsTypelessDepth(d) then d.(format := R32Typeless) else d
  }

  /** `textureViewFormat`: a depth format is read as the float colour format of the same
      width. */
  function TextureViewFormat(f: Format): (r: Format)
    ensures f == D32Float ==> r == R32Float
    ensures f != D32Float ==> r == f
    ensures ChannelCount(r) == ChannelCount(f)
  {
    if f == D32Float then R32Float else f
  }

  /** Which view format a texture created with format `texture` accepts: its own, or a typed
      member of the 32-bit family for the typeless format. */
  predicate ViewFits(view: Format, texture: Format)
  {
    view == texture || (texture == R32Typeless && view in {R32Float, D32Float})
  }

  datatype SrvDimension = SrvBufferEx | SrvTexture2D | SrvTexture2DArray | SrvTextureCube | SrvTextureCubeArray

  datatype UavDimension = UavBuffer | UavTexture2D | UavTexture2DArray

  /** The dimension of render-target and depth-stencil views. */
  datatype TargetDimension = TargetTexture2D | TargetTexture2DArray | TargetTexture2DMS

  /** A view description: a dimension and, where the source writes one, a format. */
  datatype ViewDesc<D> = ViewDesc(dimension: D, format: Option<Format>)

  /** The default shader-resource view of a texture (`makeSrvDesc`). The resource keeps the
      format it was described with, before the fix-up. */
  function SrvDesc(d: TextureDesc): (v: ViewDesc<SrvDimension>)
    ensures v.format == Some(TextureViewFormat(d.format))
    ensures v.dimension in {SrvTextureCube, SrvTextureCubeArray} <==> d.cube
    ensures v.dimension == SrvTextureCubeArray <==> d.cube && d.arraySize > 6
    ensures v.dimension == SrvTexture2DArray <==> !d.cube && d.arraySize > 1
    ensures v.dimension != SrvBufferEx
  {
    var dim :=
      if d.cube then (if d.arraySize > 6 then SrvTextureCubeArray else SrvTextureCube)
      else if d.arraySize > 1 then SrvTexture2DArray
      else SrvTexture2D;
    ViewDesc(dim, Some(TextureViewFormat(d.format)))
  }

  /** The default unordered-access view of a texture (`makeUavDesc`) as written: the array
      branch never assigns the format, so it is left as whatever the stack held. */
  function UavDescAsWritten(d: TextureDesc): (v: ViewDesc<UavDimension>)
    ensures v.format.None? <==> d.arraySize > 1
  {
    if d.arraySize > 1 then ViewDesc(UavTexture2DArray, None)
    else ViewDesc(UavTexture2D, Some(TextureViewFormat(d.format)))
  }

  /** The default unordered-access view with the format assigned in both branches. */
  function UavDesc(d: TextureDesc): (v: ViewDesc<UavDimension>)
    ensures v.format == Some(TextureViewFormat(d.format))
    ensures v.dimension == UavTexture2DArray <==> d.arraySize > 1
    ensures v.dimension != UavBuffer
    ensures v.dimension == UavDescAsWritten(d).dimension
  {
    ViewDesc(if d.arraySize > 1 then UavTexture2DArray else UavTexture2D, Some(TextureViewFormat(d.format)))
  }

  /** The render-target or depth-stencil view dimension (`makeRtvDesc`, `makeDsvDesc`):
      multisampling wins over arrays. */
  function TargetDimensionOf(d: TextureDesc): (dim: TargetDimension)
    ensures dim == TargetTexture2DMS <==> d.sampleCount > 1
    ensures dim == TargetTexture2DArray <==> d.sampleCount <= 1 && d.arraySize > 1
    ensures dim == TargetTexture2D <==> d.sampleCount <= 1 && d.arraySize <= 1
  {
    if d.sampleCount > 1 then TargetTexture2DMS
    else if d.arraySize > 1 then TargetTexture2DArray
    else TargetTexture2D
  }

  /** Render-target and depth-stencil views use the resource's format unchanged. */
  function RtvDesc(d: TextureDesc): (v: ViewDesc<TargetDimension>)
    ensures v.format == Some(d.format)
    ensures v.dimension == TargetTexture2DMS <==> d.sampleCount > 1
    ensures v.dimension == TargetTexture2DArray <==> d.sampleCount <= 1 && d.arraySize > 1
    ensures v.dimension == TargetTexture2D <==> d.sampleCount <= 1 && d.arraySize <= 1
  {
    ViewDesc(TargetDimensionOf(d), Some(d.format))
  }

  function DsvDesc(d: TextureDesc): (v: ViewDesc<TargetDimension>)
    ensures v.format == Some(d.format)
    ensures v.dimension == TargetTexture2DMS <==> d.sampleCount > 1
    ensures v.dimension == TargetTexture2DArray <==> d.sampleCount <= 1 && d.arraySize > 1
    ensures v.dimension == TargetTexture2D <==> d.sampleCount <= 1 && d.arraySize <= 1
  {
    ViewDesc(TargetDimensionOf(d), Some(d.format))
  }

  /** Array slices a view of each dimension covers, counted as the view descriptor does. A cube
      array view covers six faces for each of its `NumCubes` cubes, which the corrected
      descriptor sets to `ArraySize / 6`. */
  function SrvSlices(dim: SrvDimension, d: TextureDesc): nat
  {
    match dim
    case SrvBufferEx => 0
    case SrvTexture2D => 1
    case SrvTextureCube => 6
    case SrvTexture2DArray => d.arraySize
    case SrvTextureCubeArray => 6 * (d.arraySize / 6)
  }

  /** The slices the default shader-resource view covers as `makeSrvDesc` is written: its cube
      array branch never writes `NumCubes` or `First2DArrayFace` into the uninitialised
      descriptor, so for a cube array the count is unknown (`None`). */
  function SrvSlicesAsWritten(d: TextureDesc): (r: Option<nat>)
    ensures r.None? <==> d.cube && d.arraySize > 6
    ensures WellFormedTexture(d) && r.Some? ==> r.value == d.arraySize
  {
    var dim := SrvDesc(d).dimension;
    if dim.SrvTextureCubeArray? then None
    else Some(SrvSlices(dim, d))
  }

  function TargetSlices(dim: TargetDimension, d: TextureDesc): nat
  {
    match dim
    case TargetTexture2D | TargetTexture2DMS => 1
    case TargetTexture2DArray => d.arraySize
  }

  /** A texture D3D accepts: at least one slice, cubes made of whole faces, and multisampling
      only on single-slice textures. */
  predicate WellFormedTexture(d: TextureDesc)
  {
    d.arraySize >= 1 && d.sampleCount >= 1 &&
    (d.cube ==> d.arraySize % 6 == 0) &&
    (d.sampleCount > 1 ==> d.arraySize == 1)
  }

  /** The default views of a well-formed texture cover all of its slices, and their formats fit
      the texture as created after the fix-up, provided depth formats are only used by depth
      targets. */
  lemma DefaultViewsFit(d: TextureDesc)
    requires WellFormedTexture(d)
    requires d.format == D32Float ==> d.bind.depthStencil
    ensures SrvSlices(SrvDesc(d).dimension, d) == d.arraySize
    ensures TargetSlices(TargetDimensionOf(d), d) == d.arraySize
    ensures d.bind.shaderResource ==> ViewFits(SrvDesc(d).format.value, FixupTextureDescriptor(d).format)
    ensures d.bind.unorderedAccess ==> ViewFits(UavDesc(d).format.value, FixupTextureDescriptor(d).format)
    ensures d.bind.depthStencil ==> ViewFits(DsvDesc(d).format.value, FixupTextureDescriptor(d).format)
  {
    if d.cube && d.arraySize <= 6 {
      assert d.arraySize == 6;
    } else if d.cube {
      assert d.arraySize == 6 * (d.arraySize / 6) + d.arraySize % 6;
    }
  }

  /** A two-cube array: as written its view covers an unknown number of cubes; the corrected
      view covers all twelve faces. */
  lemma SrvCubeArrayCountMissing()
    ensures var d := TextureDesc(64, 64, 1, 12, 1, R32Float, BindFlags(true, false, false, false), true);
            WellFormedTexture(d) && SrvDesc(d).dimension == SrvTextureCubeArray &&
            SrvSlicesAsWritten(d).None? && SrvSlices(SrvDesc(d).dimension, d) == 12
  {
  }

  /** The array branch of `makeUavDesc` leaves a typed depth array with no format at all. */
  lemma UavArrayFormatMissing()
    ensures var d := TextureDesc(64, 64, 1, 6, 1, R32Float, BindFlags(true, true, false, false), false);
            WellFormedTexture(d) && UavDescAsWritten(d).format.None? && UavDesc(d).format == Some(R32Float)
  {
  }

  datatype BufferDesc = BufferDesc(byteWidth: nat, structureByteStride: nat)

  /** `elementSize`: an explicit structure stride wins; otherwise the format's size, and an
      unknown format stops the program. */
  function ElementSize(d: BufferDesc, f: Format): (r: Result<nat>)
    ensures d.structureByteStride > 0 ==> r == Ok(d.structureByteStride)
    ensures r.Ok? ==> r.value > 0
    ensures d.structureByteStride == 0 ==> (r.Ok? <==> f in {R32Sint, R32Uint, R32Float, R32G32Float})
    ensures d.structureByteStride == 0 && f in {R32Sint, R32Uint, R32Float} ==> r == Ok(4)
    ensures d.structureByteStride == 0 && f == R32G32Float ==> r == Ok(8)
  {
    if d.structureByteStride > 0 then Ok(d.structureByteStride)
    else match f
      case R32Sint | R32Uint | R32Float => Ok(4)
      case R32G32Float => Ok(8)
      case _ => Failed("Unknown format")
  }

  /** `elementCount`: whole elements in the buffer. */
  function ElementCount(d: BufferDesc, f: Format): (r: Result<nat>)
    ensures r.Ok? <==> ElementSize(d, f).Ok?
  {
    match ElementSize(d, f)
    case Ok(size) => Ok(d.byteWidth / size)
    case Failed(e) => Failed(e)
  }

  /** A buffer sized with `sizeBytes` for its elements reports that many elements back, whether
      the element size comes from the stride or from the format. */
  lemma ElementCountOfSizeBytes<T>(elements: seq<T>, stride: nat, f: Format, elementBytes: nat)
    requires ElementSize(BufferDesc(0, stride), f) == Ok(elementBytes)
    ensures ElementCount(BufferDesc(SizeBytes(elements, elementBytes), stride), f) == Ok(|elements|)
  {
    DivModOf(|elements|, elementBytes, 0);
  }

  // ---------------------------------------------------------------------------
  // Depth-stencil state

  datatype DepthMode = ForwardDepth | InverseDepth | Always

  datatype Comparison = Less | Greater | AlwaysPass

  datatype DepthStencilDesc = DepthStencilDesc(depthEnable: bool, writeDepth: bool, func: Comparison, stencilEnable: bool)

  /** `depthStencilDesc`: forward depth keeps nearer (smaller) values, inverse depth larger ones. */
  function DepthStencilDescOf(mode: DepthMode, writeDepth: bool, depthTest: bool): (d: DepthStencilDesc)
    ensures d.depthEnable == depthTest && d.writeDepth == writeDepth && !d.stencilEnable
    ensures mode == ForwardDepth ==> d.func == Less
    ensures mode == InverseDepth ==> d.func == Greater
    ensures mode == Always ==> d.func == AlwaysPass
  {
    var func := match mode
      case ForwardDepth => Less
      case InverseDepth => Greater
      case Always => AlwaysPass;
    DepthStencilDesc(depthTest, writeDepth, func, false)
  }

  /** Whether a fragment at depth `incoming` survives against the stored depth. */
  predicate DepthPasses(d: DepthStencilDesc, incoming: real, stored: real)
  {
    !d.depthEnable ||
    match d.func
    case Less => incoming < stored
    case Greater => incoming > stored
    case AlwaysPass => true
  }

  /** Inverse depth is forward depth mirrored: the projection swaps the near and far planes,
      which maps each depth d to 1 - d, and the test then keeps exactly the same fragments. */
  lemma InverseDepthMirrorsForward(writeDepth: bool, depthTest: bool, incoming: real, stored: real)
    ensures DepthPasses(DepthStencilDescOf(ForwardDepth, writeDepth, depthTest), incoming, stored)
        <==> DepthPasses(DepthStencilDescOf(InverseDepth, writeDepth, depthTest), 1.0 - incoming, 1.0 - stored)
    ensures DepthPasses(DepthStencilDescOf(Always, writeDepth, depthTest), incoming, stored)
  {
  }

  // ---------------------------------------------------------------------------
  // Cube-map faces

  datatype CubeMapFace = XPositive | XNegative | YPositive | YNegative | ZPositive | ZNegative

  /** The face's array slice, in declaration order. */
  function FaceIndex(f: CubeMapFace): (i: nat)
    ensures i < 6
  {
    match f
    case XPositive => 0
    case XNegative => 1
    case YPositive => 2
    case YNegative => 3
    case ZPositive => 4
    case ZNegative => 5
  }

  /** The face at an array slice (`static_cast<CubeMapFace>(i)`). */
  function FaceAt(i: nat): (f: Option<CubeMapFace>)
    ensures f.Some? <==> i < 6
  {
    if i == 0 then Some(XPositive)
    else if i == 1 then Some(XNegative)
    else if i == 2 then Some(YPositive)
    else if i == 3 then Some(YNegative)
    else if i == 4 then Some(ZPositive)
    else if i == 5 then Some(ZNegative)
    else None
  }

  lemma FaceIndexRoundTrip(f: CubeMapFace, i: nat)
    ensures FaceAt(FaceIndex(f)) == Some(f)
    ensures i < 6 ==> FaceIndex(FaceAt(i).value) == i
  {
  }

  datatype Axis = Axis(x: int, y: int, z: int)

  function Dot(a: Axis, b: Axis): int
  {
    a.x * b.x + a.y * b.y + a.z * b.z
  }

  /** `cubeMapFaceViewRH`: the direction the face looks in and its up vector. */
  function FaceDirection(f: CubeMapFace): Axis
  {
    match f
    case XPositive => Axis(1, 0, 0)
    case XNegative => Axis(-1, 0, 0)
    case YPositive => Axis(0, 1, 0)
    case YNegative => Axis(0, -1, 0)
    case ZPositive => Axis(0, 0, 1)
    case ZNegative => Axis(0, 0, -1)
  }

  function FaceUp(f: CubeMapFace): Axis
  {
    match f
    case YPositive => Axis(0, 0, -1)
    case YNegative => Axis(0, 0, 1)
    case _ => Axis(0, 1, 0)
  }

  /** The unit vector along axis a (0 = x, 1 = y, 2 = z) with the given sign. */
  function UnitAxis(a: nat, sign: int): Axis
  {
    if a == 0 then Axis(sign, 0, 0) else if a == 1 then Axis(0, sign, 0) else Axis(0, 0, sign)
  }

  /** Slices 2a and 2a + 1 look along axis a, positive then negative, as a cube texture lays
      out its faces. */
  lemma CubeFaceOrder(a: nat)
    requires a < 3
    ensures FaceDirection(FaceAt(2 * a).value) == UnitAxis(a, 1)
    ensures FaceDirection(FaceAt(2 * a + 1).value) == UnitAxis(a, -1)
  {
    assert a == 0 || a == 1 || a == 2;
  }

  function Abs(n: int): nat
  {
    if n < 0 then -n else n
  }

  /** A vector with a single non-zero coordinate of size one. */
  predicate IsUnitAxis(v: Axis)
  {
    Abs(v.x) + Abs(v.y) + Abs(v.z) == 1
  }

  /** Every face looks along a unit axis with a unit-axis up vector orthogonal to it. */
  lemma FaceFrameIsOrthonormal(f: CubeMapFace)
    ensures IsUnitAxis(FaceDirection(f)) && IsUnitAxis(FaceUp(f))
    ensures Dot(FaceDirection(f), FaceUp(f)) == 0
  {
    match f
    case XPositive =>
    case XNegative =>
    case YPositive =>
    case YNegative =>
    case ZPositive =>
    case ZNegative =>
  }

  /** Distinct faces look in distinct directions. */
  lemma CubeFacesDistinct(f: CubeMapFace, g: CubeMapFace)
    ensures FaceDirection(f) == FaceDirection(g) <==> f == g
  {
  }

  // ---------------------------------------------------------------------------
  // Oculus::Eye

  /** `Eye::next`: the swap-texture index advances and wraps at the texture count. */
  function NextSwapIndex(current: nat, count: nat): (r: nat)
    requires count > 0
    ensures r < count
    ensures current < count - 1 ==> r == current + 1
    ensures current == count - 1 ==> r == 0
  {
    if current < count - 1 then DivModOf(0, count, current + 1); (current + 1) % count
    else if current == count - 1 then DivModOf(1, count, 0); (current + 1) % count
    else (current + 1) % count
  }

  function AdvanceSwapIndex(current: nat, count: nat, frames: nat): nat
    requires count > 0
  {
    if frames == 0 then current else NextSwapIndex(AdvanceSwapIndex(current, count, frames - 1), count)
  }

  /** After n frames the index is the starting one plus n, modulo the count, so every
      `count` frames the eye is back on the texture it started with. */
  lemma {:induction false} AdvanceSwapIndexIsModular(current: nat, count: nat, frames: nat)
    requires count > 0 && current < count
    ensures AdvanceSwapIndex(current, count, frames) == (current + frames) % count
    decreases frames
  {
    if frames > 0 {
      AdvanceSwapIndexIsModular(current, count, frames - 1);
      ModSuccessor(current + frames - 1, count);
    }
  }

}

=== FILE: grid.dfy ===
/** The geometry the renderer draws a material on (SVBRDFOculus.cpp): a single quad, or a grid
    of vertices displaced by the material's height map on the CPU. Positions, texture
    coordinates and heights are reals; the normals the source computes afterwards are left
    zero here. */
module Grid {
  import opened Utils
  import opened Graphics
  import opened Modes

  /** The tessellation factor of a quad that is not displaced on the CPU. */
  const MaxTessellation: real := 64.0

  /** The coarsest grid spacing, in height-map pixels. */
  const MaxPixelsPerVertex: nat := 64

  /** Vertex and index lists, as handed to the vertex and index buffers. */
  datatype Geometry = Geometry(vertices: seq<Vertex>, indices: seq<nat>)

  predicate IndicesInRange(g: Geometry)
  {
    forall k :: 0 <= k < |g.indices| ==> g.indices[k] < |g.vertices|
  }

  // ---------------------------------------------------------------------------
  // The single quad

  /** `initSingleQuad`: four corners facing +z, texture coordinates from (0, 0) at the top left
      to (1, 1) at the bottom right, and two counterclockwise triangles. */
  function QuadGeometry(xDim: real, yDim: real, tessellation: real): (g: Geometry)
    ensures |g.vertices| == 4 && |g.indices| == 6 && IndicesInRange(g)
  {
    var up := Float3(0.0, 0.0, 1.0);
    Geometry(
      [ Vertex(Float3(-xDim, yDim, 0.0), up, Float2(0.0, 0.0), tessellation),
        Vertex(Float3(xDim, yDim, 0.0), up, Float2(1.0, 0.0), tessellation),
        Vertex(Float3(-xDim, -yDim, 0.0), up, Float2(0.0, 1.0), tessellation),
        Vertex(Float3(xDim, -yDim, 0.0), up, Float2(1.0, 1.0), tessellation) ],
      [0, 2, 1, 1, 2, 3])
  }

  // ---------------------------------------------------------------------------
  // Grid spacing

  function Ceil(x: real): (c: int)
    ensures (c - 1) as real < x <= c as real
  {
    -((-x).Floor)
  }

  /** `initCPUDisplacementMapped`: one vertex every ceil(density) height-map pixels, at least
      one and at most 64. */
  function PixelsPerVertex(density: real): (ppv: nat)
    ensures 1 <= ppv <= MaxPixelsPerVertex
    ensures 1.0 <= density <= MaxPixelsPerVertex as real ==> (ppv - 1) as real < density <= ppv as real
    ensures density > MaxPixelsPerVertex as real ==> ppv == MaxPixelsPerVertex
  {
    var c := Ceil(density);
    if c < 1 then 1 else if c > MaxPixelsPerVertex then MaxPixelsPerVertex else c
  }

  // ---------------------------------------------------------------------------
  // Grid topology

  /** A grid vertex by column and row. */
  datatype Point = Point(x: nat, y: nat)

  /** Vertices are stored row by row. */
  function GridIndex(p: Point, width: nat): nat
  {
    p.y * width + p.x
  }

  /** The two triangles of quad (qx, qy), whose corners are A = (qx, qy), B = (qx + 1, qy),
      C = (qx, qy + 1) and D = (qx + 1, qy + 1): quads of even qx + qy are cut along B-C as
      A C B, B C D, and odd ones along A-D as A D B, A C D, so the diagonals alternate. */
  function QuadCorners(qx: nat, qy: nat): (r: seq<Point>)
    ensures |r| == 6
  {
    var a, b, c, d := Point(qx, qy), Point(qx + 1, qy), Point(qx, qy + 1), Point(qx + 1, qy + 1);
    if (qx + qy) % 2 == 0 then [a, c, b, b, c, d] else [a, d, b, a, c, d]
  }

  function QuadIndices(qx: nat, qy: nat, width: nat): (r: seq<nat>)
    ensures |r| == 6
  {
    var corners := QuadCorners(qx, qy);
    seq(6, j requires 0 <= j < 6 => GridIndex(corners[j], width))
  }

  /** Twice the signed area of a triangle of grid points, with rows growing downwards. */
  function Orientation(a: Point, b: Point, c: Point): int
  {
    (b.x - a.x) * (c.y - a.y) - (b.y - a.y) * (c.x - a.x)
  }

  /** Both triangles of a quad keep to the quad's own corners, cover half a quad each, are
      wound the same way, and share the diagonal the parity of the quad chooses. */
  lemma QuadTriangles(qx: nat, qy: nat)
    ensures var r := QuadCorners(qx, qy);
            forall j :: 0 <= j < 6 ==> qx <= r[j].x <= qx + 1 && qy <= r[j].y <= qy + 1
    ensures var r := QuadCorners(qx, qy);
            Orientation(r[0], r[1], r[2]) == -1 && Orientation(r[3], r[4], r[5]) == -1
    ensures var r := QuadCorners(qx, qy);
            var b, c := Point(qx + 1, qy), Point(qx, qy + 1);
            (qx + qy) % 2 == 0 ==> b in r[..3] && c in r[..3] && b in r[3..] && c in r[3..]
    ensures var r := QuadCorners(qx, qy);
            var a, d := Point(qx, qy), Point(qx + 1, qy + 1);
            (qx + qy) % 2 == 1 ==> a in r[..3] && d in r[..3] && a in r[3..] && d in r[3..]
  {
  }

  /** The index at position k of the grid's index list: entry k % 6 of quad k / 6, quads being
      numbered row by row. */
  function GridIndexAt(k: nat, width: nat): nat
    requires width >= 2
  {
    var t := k / 6;
    QuadIndices(t % (width - 1), t / (width - 1), width)[k % 6]
  }

  /** The index list of a `width` by `height` vertex grid. */
  function GridIndices(width: nat, height: nat): (r: seq<nat>)
    requires width >= 2 && height >= 2
    ensures |r| == 6 * (width - 1) * (height - 1)
  {
    seq(6 * (width - 1) * (height - 1), k requires 0 <= k => GridIndexAt(k, width))
  }

  /** Entry t * 6 + j of the index list is entry j of quad t, found at (qx, qy). */
  lemma GridIndexOfEntry(t: nat, width: nat, j: nat, qx: nat, qy: nat)
    requires width >= 2 && j < 6 && t % (width - 1) == qx && t / (width - 1) == qy
    ensures GridIndexAt(t * 6 + j, width) == QuadIndices(qx, qy, width)[j]
  {
    DivModOf(t, 6, j);
  }

  /** Quad qy (width - 1) + qx is quad (qx, qy). */
  lemma QuadNumber(qx: nat, qy: nat, width: nat)
    requires width >= 2 && qx < width - 1
    ensures var t := qy * (width - 1) + qx; t % (width - 1) == qx && t / (width - 1) == qy
  {
    DivModOf(qy, width - 1, qx);
  }

  /** The six entries quad (qx, qy) contributes sit at 6 t .. 6 t + 5, t = qy (width - 1) + qx. */
  lemma GridIndexOfQuad(qx: nat, qy: nat, width: nat, j: nat)
    requires width >= 2 && qx < width - 1 && j < 6
    ensures GridIndexAt((qy * (width - 1) + qx) * 6 + j, width) == QuadIndices(qx, qy, width)[j]
  {
    QuadNumber(qx, qy, width);
    GridIndexOfEntry(qy * (width - 1) + qx, width, j, qx, qy);
  }

  /** Every corner of a quad inside the grid is a vertex of the grid. */
  lemma QuadIndicesInRange(qx: nat, qy: nat, width: nat, height: nat)
    requires qx < width - 1 && qy < height - 1
    ensures forall j :: 0 <= j < 6 ==> QuadIndices(qx, qy, width)[j] < width * height
  {
    QuadTriangles(qx, qy);
    forall j | 0 <= j < 6
      ensures QuadIndices(qx, qy, width)[j] < width * height
    {
      var p := QuadCorners(qx, qy)[j];
      MultiplyMonotone(p.y, height - 1, width);
      assert p.y * width + p.x <= (height - 1) * width + (width - 1);
    }
  }

  /** Entry k of the index list belongs to one of the grid's quads. */
  lemma EntryQuadInRange(k: nat, width: nat, height: nat)
    requires width >= 2 && height >= 2 && k < 6 * (width - 1) * (height - 1)
    ensures k / 6 % (width - 1) < width - 1 && k / 6 / (width - 1) < height - 1
  {
    QuotientBelow(k, 6, (width - 1) * (height - 1));
    QuotientBelow(k / 6, width - 1, height - 1);
  }

  /** Every index of the grid names one of its `width * height` vertices. */
  lemma GridIndicesInRange(width: nat, height: nat)
    requires width >= 2 && height >= 2
    ensures forall k :: 0 <= k < |GridIndices(width, height)| ==> GridIndices(width, height)[k] < width * height
  {
    forall k | 0 <= k < |GridIndices(width, height)|
      ensures GridIndices(width, height)[k] < width * height
    {
      EntryQuadInRange(k, width, height);
      QuadIndicesInRange(k / 6 % (width - 1), k / 6 / (width - 1), width, height);
    }
  }

  /** The index loops of `initCPUDisplacementMapped`: the quads row by row, each adding its two
      triangles. */
  method BuildIndices(width: nat, height: nat) returns (indices: seq<nat>)
    requires width >= 2 && height >= 2
    ensures indices == GridIndices(width, height)
  {
    indices := [];
    var qy := 0;
    while qy < height - 1
      invariant qy <= height - 1
      invariant |indices| == 6 * (qy * (width - 1))
      invariant forall k :: 0 <= k < |indices| ==> indices[k] == GridIndexAt(k, width)
    {
      var qx := 0;
      while qx < width - 1
        invariant qx <= width - 1
        invariant |indices| == 6 * (qy * (width - 1) + qx)
        invariant forall k :: 0 <= k < |indices| ==> indices[k] == GridIndexAt(k, width)
      {
        var quad := QuadIndices(qx, qy, width);
        forall j | 0 <= j < 6
          ensures GridIndexAt(|indices| + j, width) == quad[j]
        {
          GridIndexOfQuad(qx, qy, width, j);
        }
        indices := indices + quad;
        qx := qx + 1;
      }
      assert qy * (width - 1) + (width - 1) == (qy + 1) * (width - 1);
      qy := qy + 1;
    }
    assert (height - 1) * (width - 1) == (width - 1) * (height - 1);
  }

  /** The grid of two by two vertices is the single quad: the same corners in the same order,
      and the same two triangles. */
  lemma TwoByTwoGridIsQuad(xDim: real, yDim: real, tessellation: real)
    ensures GridIndices(2, 2) == QuadGeometry(xDim, yDim, tessellation).indices
  {
    forall j | 0 <= j < 6
      ensures GridIndices(2, 2)[j] == QuadGeometry(xDim, yDim, tessellation).indices[j]
    {
      GridIndexOfEntry(0, 2, j, 0, 0);
      assert 0 * 6 + j == j;
    }
  }

  // ---------------------------------------------------------------------------
  // Grid vertices

  /** What the grid builder reads of a material: its size and its CPU height map. */
  datatype Surface = Surface(width: nat, height: nat, heightMap: FloatPixelBuffer)

  /** The `heightMapCPU.width <= 0 || heightMapCPU.height <= 0` test, negated. */
  predicate HasHeightMap(s: Surface)
  {
    s.heightMap.width > 0 && s.heightMap.height > 0
  }

  function Columns(s: Surface, ppv: nat): nat
    requires ppv >= 1
  {
    s.width / ppv
  }

  function Rows(s: Surface, ppv: nat): nat
    requires ppv >= 1
  {
    s.height / ppv
  }

  /** What the grid builder needs and does not check: at least two vertices each way, and a
      height map that covers the material with a well-sized pixel array. */
  predicate GridFits(s: Surface, ppv: nat)
    requires ppv >= 1
  {
    Columns(s, ppv) >= 2 && Rows(s, ppv) >= 2 &&
    s.heightMap.width >= s.width && s.heightMap.height >= s.height && s.heightMap.channels >= 1 &&
    |s.heightMap.pixels| == s.heightMap.width * s.heightMap.height * s.heightMap.channels
  }

  /** The pixel a grid vertex samples lies inside the material, so inside the height map. */
  lemma SampleInBounds(extent: nat, ppv: nat, i: nat)
    requires ppv >= 1 && i < extent / ppv
    ensures i * ppv < extent
  {
    MultiplyMonotone(i + 1, extent / ppv, ppv);
    DivModUnique(extent, ppv, extent / ppv, extent % ppv);
  }

  /** Channel 0 of the height map at pixel (x, y). */
  function HeightAt(s: Surface, ppv: nat, x: nat, y: nat): real
    requires ppv >= 1 && GridFits(s, ppv)
    requires x < Columns(s, ppv) && y < Rows(s, ppv)
  {
    var hm := s.heightMap;
    SampleInBounds(s.width, ppv, x);
    SampleInBounds(s.height, ppv, y);
    FlatIndexInverse(x * ppv, y * ppv, 0, hm.width, hm.height, hm.channels);
    hm.pixels[FlatIndex(x * ppv, y * ppv, 0, hm.width, hm.channels)]
  }

  /** Position i of n + 1 evenly spaced texture coordinates from 0 to 1. */
  function Fraction(i: nat, n: nat): (f: real)
    requires 0 < n && i <= n
    ensures 0.0 <= f <= 1.0
    ensures f * n as real == i as real
    ensures f == 0.0 <==> i == 0
    ensures f == 1.0 <==> i == n
  {
    i as real / n as real
  }

  /** The vertex at column x and row y: texture coordinates run from 0 to 1 across the grid,
      the position spans [-xDim, xDim] by [-yDim, yDim] with the first row at the top, and the
      height is the sampled height scaled by the magnitude. */
  function GridVertex(s: Surface, ppv: nat, x: nat, y: nat, xDim: real, yDim: real, magnitude: real, tessellation: real): (v: Vertex)
    requires ppv >= 1 && GridFits(s, ppv)
    requires x < Columns(s, ppv) && y < Rows(s, ppv)
    ensures 0.0 <= v.uv.u <= 1.0 && 0.0 <= v.uv.v <= 1.0
    ensures v.pos.z == HeightAt(s, ppv, x, y) * magnitude
  {
    var u := Fraction(x, Columns(s, ppv) - 1);
    var w := Fraction(y, Rows(s, ppv) - 1);
    Vertex(Float3((u * 2.0 - 1.0) * xDim, ((1.0 - w) * 2.0 - 1.0) * yDim, HeightAt(s, ppv, x, y) * magnitude),
           Float3(0.0, 0.0, 0.0), Float2(u, w), tessellation)
  }

  /** The first grid vertex is the top left corner of the quad and the last the bottom right. */
  lemma GridCorners(s: Surface, ppv: nat, xDim: real, yDim: real, magnitude: real, tessellation: real)
    requires ppv >= 1 && GridFits(s, ppv)
    ensures var v := GridVertex(s, ppv, 0, 0, xDim, yDim, magnitude, tessellation);
            v.uv == Float2(0.0, 0.0) && v.pos.x == -xDim && v.pos.y == yDim
    ensures var v := GridVertex(s, ppv, Columns(s, ppv) - 1, Rows(s, ppv) - 1, xDim, yDim, magnitude, tessellation);
            v.uv == Float2(1.0, 1.0) && v.pos.x == xDim && v.pos.y == -yDim
  {
  }

  /** The vertex loops of `initCPUDisplacementMapped`: rows top to bottom, columns left to
      right. */
  method BuildVertices(s: Surface, ppv: nat, xDim: real, yDim: real, magnitude: real, tessellation: real)
    returns (vertices: seq<Vertex>)
    requires ppv >= 1 && GridFits(s, ppv)
    ensures |vertices| == Columns(s, ppv) * Rows(s, ppv)
    ensures forall x, y :: 0 <= x < Columns(s, ppv) && 0 <= y < Rows(s, ppv) ==>
              GridIndex(Point(x, y), Columns(s, ppv)) < |vertices| &&
              vertices[GridIndex(Point(x, y), Columns(s, ppv))] == GridVertex(s, ppv, x, y, xDim, yDim, magnitude, tessellation)
  {
    var width, height := Columns(s, ppv), Rows(s, ppv);
    vertices := [];
    var y := 0;
    while y < height
      invariant y <= height
      invariant |vertices| == y * width
      invariant forall i, j :: 0 <= i < width && 0 <= j < y ==>
                  GridIndex(Point(i, j), width) < |vertices| &&
                  vertices[GridIndex(Point(i, j), width)] == GridVertex(s, ppv, i, j, xDim, yDim, magnitude, tessellation)
    {
      var x := 0;
      while x < width
        invariant x <= width
        invariant |vertices| == y * width + x
        invariant forall i, j :: 0 <= i < width && 0 <= j < y ==>
                    GridIndex(Point(i, j), width) < |vertices| &&
                    vertices[GridIndex(Point(i, j), width)] == GridVertex(s, ppv, i, j, xDim, yDim, magnitude, tessellation)
        invariant forall i :: 0 <= i < x ==>
                    vertices[GridIndex(Point(i, y), width)] == GridVertex(s, ppv, i, y, xDim, yDim, magnitude, tessellation)
      {
        vertices := vertices + [GridVertex(s, ppv, x, y, xDim, yDim, magnitude, tessellation)];
        x := x + 1;
      }
      forall i, j | 0 <= i < width && 0 <= j < y + 1
        ensures GridIndex(Point(i, j), width) < |vertices|
      {
        MultiplyMonotone(j, y, width);
      }
      y := y + 1;
    }
  }

  // ---------------------------------------------------------------------------
  // The displaced grid

  /** `initCPUDisplacementMapped`: without a height map, or with a density below one, the
      single quad at the highest tessellation; otherwise the displaced grid. */
  method InitCpuDisplacementMapped(s: Surface, xDim: real, yDim: real, density: real, magnitude: real, tessellation: real)
    returns (g: Geometry)
    requires HasHeightMap(s) && density >= 1.0 ==> GridFits(s, PixelsPerVertex(density))
    ensures IndicesInRange(g) && |g.indices| % 3 == 0
    ensures !HasHeightMap(s) || density < 1.0 ==> g == QuadGeometry(xDim, yDim, MaxTessellation)
    ensures HasHeightMap(s) && density >= 1.0 ==>
              var ppv := PixelsPerVertex(density);
              var width, height := Columns(s, ppv), Rows(s, ppv);
              |g.vertices| == width * height && g.indices == GridIndices(width, height) &&
              forall x, y :: 0 <= x < width && 0 <= y < height ==>
                GridIndex(Point(x, y), width) < |g.vertices| &&
                g.vertices[GridIndex(Point(x, y), width)] == GridVertex(s, ppv, x, y, xDim, yDim, magnitude, tessellation)
  {
    if !HasHeightMap(s) || density < 1.0 {
      return QuadGeometry(xDim, yDim, MaxTessellation);
    }
    var ppv := PixelsPerVertex(density);
    var vertices := BuildVertices(s, ppv, xDim, yDim, magnitude, tessellation);
    var indices := BuildIndices(Columns(s, ppv), Rows(s, ppv));
    GridIndicesInRange(Columns(s, ppv), Rows(s, ppv));
    assert |indices| == 6 * ((Columns(s, ppv) - 1) * (Rows(s, ppv) - 1));
    g := Geometry(vertices, indices);
  }

  // ---------------------------------------------------------------------------
  // Which geometry the renderer builds

  /** The geometry `initRenderer` asks for. */
  datatype GeometryChoice =
    | PlainQuad
    | CpuDisplacedGrid(density: real, magnitude: real)
    | GpuBaseGrid
    | MeshGeometry

  /** Displacement is in effect only when a displacement mode is chosen and both density and
      magnitude are non-zero; it then needs the CPU grid, or the coarse base grid the GPU
      subdivides. A loaded mesh is drawn as it is. */
  function ChooseGeometry(mesh: MeshMode, displacement: DisplacementMode, density: real, magnitude: real): (c: GeometryChoice)
    ensures mesh == LoadedMesh <==> c == MeshGeometry
    ensures c == PlainQuad <==> mesh == SingleQuad && (displacement == NoDisplacement || density <= 0.0 || magnitude == 0.0)
    ensures c.CpuDisplacedGrid? ==> displacement == CPUDisplacementMapping && c.density > 0.0 && c.magnitude != 0.0
    ensures c.CpuDisplacedGrid? ==> c.density == density && c.magnitude == magnitude
    ensures c == GpuBaseGrid ==> displacement == GPUDisplacementMapping
  {
    if mesh.LoadedMesh? then MeshGeometry
    else if !displacement.NoDisplacement? && density > 0.0 && magnitude != 0.0 then
      (if displacement.CPUDisplacementMapping? then CpuDisplacedGrid(density, magnitude) else GpuBaseGrid)
    else PlainQuad
  }
}

=== FILE: meshparts.dfy ===
/** Bookkeeping of de-duplicated vertex lists built file by file: which part of the vertex
    and index lists each file owns, and the facts the per-file tables of `loadMesh`
    (Graphics.cpp) leave behind, carried from one file to the next. */
module MeshParts {
  import opened Graphics

  /** Every index names a stored vertex equal to its corner. */
  predicate Indexed(vertices: seq<Vertex>, indices: seq<nat>, corners: seq<Vertex>)
    requires |indices| == |corners|
  {
    forall k :: 0 <= k < |indices| ==> indices[k] < |vertices| && SameVertex(vertices[indices[k]], corners[k])
  }

  /** Appending a file's vertices and indices keeps every earlier index pointing at its corner. */
  lemma IndexedStep(vertices: seq<Vertex>, vs: seq<Vertex>, indices: seq<nat>, idx: seq<nat>,
                    before: seq<Vertex>, corners: seq<Vertex>)
    requires |indices| == |before| && |idx| == |corners|
    requires |vs| >= |vertices| && vs[..|vertices|] == vertices
    requires Indexed(vertices, indices, before)
    requires forall k :: 0 <= k < |idx| ==> idx[k] < |vs| && SameVertex(vs[idx[k]], corners[k])
    ensures Indexed(vs, indices + idx, before + corners)
  {
    var ixs, cs := indices + idx, before + corners;
    forall k | 0 <= k < |ixs|
      ensures ixs[k] < |vs| && SameVertex(vs[ixs[k]], cs[k])
    {
      if k < |indices| {
        assert ixs[k] == indices[k] && cs[k] == before[k];
        assert vs[..|vertices|][indices[k]] == vs[indices[k]];
      } else {
        assert ixs[k] == idx[k - |indices|] && cs[k] == corners[k - |indices|];
      }
    }
  }

  /** Where each file's part of a list begins, the last entry being where the list ends. */
  predicate Partition(starts: seq<nat>, files: nat, total: nat)
  {
    |starts| == files + 1 && starts[0] == 0 && starts[files] == total &&
    forall f :: 0 <= f < files ==> starts[f] <= starts[f + 1]
  }

  /** No two vertices stored for one file are equal. */
  predicate DistinctPerFile(vertices: seq<Vertex>, vertexStarts: seq<nat>, files: nat)
    requires |vertexStarts| == files + 1
  {
    forall f, a, b :: 0 <= f < files && vertexStarts[f] <= a < b < vertexStarts[f + 1] && b < |vertices| ==>
      !SameVertex(vertices[a], vertices[b])
  }

  /** The corners of one file share an index exactly when they are equal, and every index
      names a vertex stored for that file. */
  predicate SharedPerFile(indices: seq<nat>, corners: seq<Vertex>, indexStarts: seq<nat>, vertexStarts: seq<nat>, files: nat)
    requires |indexStarts| == files + 1 && |vertexStarts| == files + 1 && |indices| == |corners|
  {
    (forall f, k :: 0 <= f < files && indexStarts[f] <= k < indexStarts[f + 1] && k < |indices| ==>
       vertexStarts[f] <= indices[k] < vertexStarts[f + 1]) &&
    forall f, k, l :: (0 <= f < files && indexStarts[f] <= k < indexStarts[f + 1] && k < |indices| &&
                       indexStarts[f] <= l < indexStarts[f + 1] && l < |indices|) ==>
      (indices[k] == indices[l] <==> SameVertex(corners[k], corners[l]))
  }

  /** Some index in positions [lo, hi) names vertex `a`. */
  predicate Referenced(indices: seq<nat>, lo: nat, hi: nat, a: nat)
  {
    exists k :: lo <= k < hi && k < |indices| && indices[k] == a
  }

  /** One of the indices of file `f` names vertex `a`. */
  predicate ReferencedIn(indices: seq<nat>, indexStarts: seq<nat>, f: nat, a: nat)
    requires f + 1 < |indexStarts|
  {
    Referenced(indices, indexStarts[f], indexStarts[f + 1], a)
  }

  /** Every vertex stored for a file is named by one of that file's indices. */
  predicate UsedPerFile(indices: seq<nat>, indexStarts: seq<nat>, vertexStarts: seq<nat>, files: nat)
    requires |indexStarts| == files + 1 && |vertexStarts| == files + 1
  {
    forall f, a :: 0 <= f < files && vertexStarts[f] <= a < vertexStarts[f + 1] ==>
      ReferencedIn(indices, indexStarts, f, a)
  }

  /** What `DeduplicateFile` promises about the vertices `vs` and indices `idx` it returns. */
  predicate FileDeduplicated(vertices: seq<Vertex>, corners: seq<Vertex>, vs: seq<Vertex>, idx: seq<nat>)
  {
    |vs| >= |vertices| && vs[..|vertices|] == vertices && |idx| == |corners| &&
    (forall k :: 0 <= k < |idx| ==> |vertices| <= idx[k] < |vs| && SameVertex(vs[idx[k]], corners[k])) &&
    (forall k, l :: 0 <= k < |idx| && 0 <= l < |idx| ==> (idx[k] == idx[l] <==> SameVertex(corners[k], corners[l]))) &&
    (forall a, b :: |vertices| <= a < b < |vs| ==> !SameVertex(vs[a], vs[b])) &&
    (forall a :: |vertices| <= a < |vs| ==> Referenced(idx, 0, |idx|, a))
  }

  /** What `Deduplicate` has built from the corners `all` of the first `files` files: one index
      per corner naming a vertex equal to it; vertex and index lists split into one consecutive
      part per file; no vertex stored twice for one file, and every one of them named by an index
      of that file; and within one file, two corners share an index exactly when they are equal,
      the index lying in that file's vertices. */
  predicate Built(all: seq<Vertex>, files: nat, vertices: seq<Vertex>, indices: seq<nat>,
                  vertexStarts: seq<nat>, indexStarts: seq<nat>)
  {
    |indices| == |all| &&
    Indexed(vertices, indices, all) &&
    Partition(vertexStarts, files, |vertices|) && Partition(indexStarts, files, |indices|) &&
    DistinctPerFile(vertices, vertexStarts, files) &&
    UsedPerFile(indices, indexStarts, vertexStarts, files) &&
    SharedPerFile(indices, all, indexStarts, vertexStarts, files)
  }

  /** One file of `Deduplicate`: what was built from the files before it and what
      `DeduplicateFile` returns for its corners give what is built from one file more.
      The lists after the step are passed as `all`, `indices'`, `vertexStarts'` and `indexStarts'`. */
  lemma BuiltStep(before: seq<Vertex>, corners: seq<Vertex>, all: seq<Vertex>, files: nat,
                  vertices: seq<Vertex>, indices: seq<nat>, vertexStarts: seq<nat>, indexStarts: seq<nat>,
                  vs: seq<Vertex>, idx: seq<nat>, indices': seq<nat>, vertexStarts': seq<nat>, indexStarts': seq<nat>)
    requires Built(before, files, vertices, indices, vertexStarts, indexStarts)
    requires FileDeduplicated(vertices, corners, vs, idx)
    requires all == before + corners && indices' == indices + idx
    requires vertexStarts' == vertexStarts + [|vs|] && indexStarts' == indexStarts + [|indices'|]
    ensures Built(all, files + 1, vs, indices', vertexStarts', indexStarts')
  {
    IndexedStep(vertices, vs, indices, idx, before, corners);
    DistinctStep(vertices, vs, vertexStarts, files);
    SharedStep(indices, idx, before, corners, indexStarts, vertexStarts, |vs|, files);
    UsedStep(indices, idx, indexStarts, vertexStarts, |vs|, files);
  }

  /** Appending one file's new, pairwise distinct vertices keeps the earlier files' vertices
      distinct and adds the new file's range. */
  lemma DistinctStep(vertices: seq<Vertex>, vs: seq<Vertex>, vertexStarts: seq<nat>, files: nat)
    requires |vs| >= |vertices| && vs[..|vertices|] == vertices
    requires Partition(vertexStarts, files, |vertices|)
    requires DistinctPerFile(vertices, vertexStarts, files)
    requires forall a, b :: |vertices| <= a < b < |vs| ==> !SameVertex(vs[a], vs[b])
    ensures Partition(vertexStarts + [|vs|], files + 1, |vs|)
    ensures DistinctPerFile(vs, vertexStarts + [|vs|], files + 1)
  {
    var starts := vertexStarts + [|vs|];
    forall f, a, b | 0 <= f < files + 1 && starts[f] <= a < b < starts[f + 1] && b < |vs|
      ensures !SameVertex(vs[a], vs[b])
    {
      if f < files {
        PartitionBound(vertexStarts, files, |vertices|, f);
        assert vs[a] == vertices[a] && vs[b] == vertices[b];
      }
    }
  }

  /** Appending one file's indices, which name every vertex stored for it, keeps every stored
      vertex named by an index of its own file. */
  lemma UsedStep(indices: seq<nat>, idx: seq<nat>, indexStarts: seq<nat>, vertexStarts: seq<nat>,
                 vertexCount: nat, files: nat)
    requires Partition(indexStarts, files, |indices|) && |vertexStarts| == files + 1
    requires UsedPerFile(indices, indexStarts, vertexStarts, files)
    requires forall a :: vertexStarts[files] <= a < vertexCount ==> Referenced(idx, 0, |idx|, a)
    ensures UsedPerFile(indices + idx, indexStarts + [|indices| + |idx|], vertexStarts + [vertexCount], files + 1)
  {
    var ixs, istarts, vstarts := indices + idx, indexStarts + [|indices| + |idx|], vertexStarts + [vertexCount];
    forall f, a | 0 <= f < files + 1 && vstarts[f] <= a < vstarts[f + 1]
      ensures ReferencedIn(ixs, istarts, f, a)
    {
      if f < files {
        assert vstarts[f] == vertexStarts[f] && vstarts[f + 1] == vertexStarts[f + 1];
        assert ReferencedIn(indices, indexStarts, f, a);
        var k :| indexStarts[f] <= k < indexStarts[f + 1] && k < |indices| && indices[k] == a;
        assert ixs[k] == indices[k];
      } else {
        assert Referenced(idx, 0, |idx|, a);
        var j :| 0 <= j < |idx| && idx[j] == a;
        assert ixs[|indices| + j] == idx[j];
      }
    }
  }

  /** A file's part of a partitioned list ends within the list. */
  lemma PartitionBound(starts: seq<nat>, files: nat, total: nat, f: nat)
    requires Partition(starts, files, total) && f < files
    ensures starts[f + 1] <= total
    decreases files - f
  {
    if f + 1 < files {
      PartitionBound(starts, files, total, f + 1);
    }
  }

  /** Appending one file's indices keeps the earlier files' sharing and adds the new file's. */
  lemma SharedStep(indices: seq<nat>, idx: seq<nat>, before: seq<Vertex>, corners: seq<Vertex>,
                   indexStarts: seq<nat>, vertexStarts: seq<nat>, vertexCount: nat, files: nat)
    requires |indices| == |before| && |idx| == |corners|
    requires Partition(indexStarts, files, |indices|) && |vertexStarts| == files + 1
    requires vertexStarts[files] <= vertexCount
    requires SharedPerFile(indices, before, indexStarts, vertexStarts, files)
    requires forall k :: 0 <= k < |idx| ==> vertexStarts[files] <= idx[k] < vertexCount
    requires forall k, l :: 0 <= k < |idx| && 0 <= l < |idx| ==> (idx[k] == idx[l] <==> SameVertex(corners[k], corners[l]))
    ensures Partition(indexStarts + [|indices| + |idx|], files + 1, |indices| + |idx|)
    ensures SharedPerFile(indices + idx, before + corners, indexStarts + [|indices| + |idx|],
                          vertexStarts + [vertexCount], files + 1)
  {
    SharedRangeStep(indices, idx, indexStarts, vertexStarts, vertexCount, files);
    SharedEqualStep(indices, idx, before, corners, indexStarts, files);
  }

  /** The range half of `SharedStep`. */
  lemma SharedRangeStep(indices: seq<nat>, idx: seq<nat>, indexStarts: seq<nat>, vertexStarts: seq<nat>,
                        vertexCount: nat, files: nat)
    requires Partition(indexStarts, files, |indices|) && |vertexStarts| == files + 1
    requires vertexStarts[files] <= vertexCount
    requires forall f, k :: 0 <= f < files && indexStarts[f] <= k < indexStarts[f + 1] && k < |indices| ==>
               vertexStarts[f] <= indices[k] < vertexStarts[f + 1]
    requires forall k :: 0 <= k < |idx| ==> vertexStarts[files] <= idx[k] < vertexCount
    ensures var ixs, istarts, vstarts := indices + idx, indexStarts + [|indices| + |idx|], vertexStarts + [vertexCount];
      forall f, k :: 0 <= f < files + 1 && istarts[f] <= k < istarts[f + 1] && k < |ixs| ==>
        vstarts[f] <= ixs[k] < vstarts[f + 1]
  {
    var ixs, istarts, vstarts := indices + idx, indexStarts + [|indices| + |idx|], vertexStarts + [vertexCount];
    forall f, k | 0 <= f < files + 1 && istarts[f] <= k < istarts[f + 1] && k < |ixs|
      ensures vstarts[f] <= ixs[k] < vstarts[f + 1]
    {
      if f < files {
        PartitionBound(indexStarts, files, |indices|, f);
        assert ixs[k] == indices[k];
      } else {
        assert ixs[k] == idx[k - |indices|];
      }
    }
  }

  /** The sharing half of `SharedStep`. */
  lemma SharedEqualStep(indices: seq<nat>, idx: seq<nat>, before: seq<Vertex>, corners: seq<Vertex>,
                        indexStarts: seq<nat>, files: nat)
    requires |indices| == |before| && |idx| == |corners|
    requires Partition(indexStarts, files, |indices|)
    requires forall f, k, l :: (0 <= f < files && indexStarts[f] <= k < indexStarts[f + 1] && k < |indices| &&
                                indexStarts[f] <= l < indexStarts[f + 1] && l < |indices|) ==>
               (indices[k] == indices[l] <==> SameVertex(before[k], before[l]))
    requires forall k, l :: 0 <= k < |idx| && 0 <= l < |idx| ==> (idx[k] == idx[l] <==> SameVertex(corners[k], corners[l]))
    ensures var ixs, cs, istarts := indices + idx, before + corners, indexStarts + [|indices| + |idx|];
      forall f, k, l :: (0 <= f < files + 1 && istarts[f] <= k < istarts[f + 1] && k < |ixs| &&
                         istarts[f] <= l < istarts[f + 1] && l < |ixs|) ==>
        (ixs[k] == ixs[l] <==> SameVertex(cs[k], cs[l]))
  {
    var ixs, cs, istarts := indices + idx, before + corners, indexStarts + [|indices| + |idx|];
    forall f, k, l | 0 <= f < files + 1 && istarts[f] <= k < istarts[f + 1] && k < |ixs| &&
                     istarts[f] <= l < istarts[f + 1] && l < |ixs|
      ensures ixs[k] == ixs[l] <==> SameVertex(cs[k], cs[l])
    {
      if f < files {
        PartitionBound(indexStarts, files, |indices|, f);
        assert ixs[k] == indices[k] && cs[k] == before[k];
        assert ixs[l] == indices[l] && cs[l] == before[l];
      } else {
        assert ixs[k] == idx[k - |indices|] && cs[k] == corners[k - |indices|];
        assert ixs[l] == idx[l - |indices|] && cs[l] == corners[l - |indices|];
      }
    }
  }
}

=== FILE: modes.dfy ===
/** The rendering modes of the viewer (SVBRDFOculus.cpp). Each enumeration is cycled by a
    toggle key through its values in declaration order. */
module Modes {
  import opened Controls

  datatype LightingMode = ForwardLighting | TextureSpaceLighting
  {
    static const Maximum: nat := 1

    function Ordinal(): (i: nat)
      ensures i <= Maximum
    {
      match this
      case ForwardLighting => 0
      case TextureSpaceLighting => 1
    }

    static function OfOrdinal(i: nat): (m: LightingMode)
      requires i <= Maximum
      ensures m.Ordinal() == i
    {
      if i == 0 then ForwardLighting else TextureSpaceLighting
    }

    /** `toggleValue`: the successor in declaration order, the last wrapping to the first. */
    function Toggled(pressed: bool): (r: Update<LightingMode>)
      ensures r.changed == pressed
      ensures r.value.Ordinal() == (if pressed then (Ordinal() + 1) % (Maximum + 1) else Ordinal())
    {
      var t := ToggleOrdinal(Ordinal(), Maximum, pressed);
      Update(OfOrdinal(t.value), t.changed)
    }
  }

  /** The texture-space lighting map format. It has no key of its own. */
  datatype LightingPrecision = Float11_11_10 | Float16 | Float32

  datatype DisplacementMode = NoDisplacement | GPUDisplacementMapping | CPUDisplacementMapping
  {
    static const Maximum: nat := 2

    function Ordinal(): (i: nat)
      ensures i <= Maximum
    {
      match this
      case NoDisplacement => 0
      case GPUDisplacementMapping => 1
      case CPUDisplacementMapping => 2
    }

    static function OfOrdinal(i: nat): (m: DisplacementMode)
      requires i <= Maximum
      ensures m.Ordinal() == i
    {
      if i == 0 then NoDisplacement else if i == 1 then GPUDisplacementMapping else CPUDisplacementMapping
    }

    function Toggled(pressed: bool): (r: Update<DisplacementMode>)
      ensures r.changed == pressed
      ensures r.value.Ordinal() == (if pressed then (Ordinal() + 1) % (Maximum + 1) else Ordinal())
    {
      var t := ToggleOrdinal(Ordinal(), Maximum, pressed);
      Update(OfOrdinal(t.value), t.changed)
    }
  }

  datatype MeshMode = SingleQuad | LoadedMesh
  {
    static const Maximum: nat := 1

    function Ordinal(): (i: nat)
      ensures i <= Maximum
    {
      match this
      case SingleQuad => 0
      case LoadedMesh => 1
    }

    static function OfOrdinal(i: nat): (m: MeshMode)
      requires i <= Maximum
      ensures m.Ordinal() == i
    {
      if i == 0 then SingleQuad else LoadedMesh
    }

    function Toggled(pressed: bool): (r: Update<MeshMode>)
      ensures r.changed == pressed
      ensures r.value.Ordinal() == (if pressed then (Ordinal() + 1) % (Maximum + 1) else Ordinal())
    {
      var t := ToggleOrdinal(Ordinal(), Maximum, pressed);
      Update(OfOrdinal(t.value), t.changed)
    }
  }

  datatype NormalMode = InterpolatedNormals | ReconstructedNormals | ConstantNormal
  {
    static const Maximum: nat := 2

    function Ordinal(): (i: nat)
      ensures i <= Maximum
    {
      match this
      case InterpolatedNormals => 0
      case ReconstructedNormals => 1
      case ConstantNormal => 2
    }

    static function OfOrdinal(i: nat): (m: NormalMode)
      requires i <= Maximum
      ensures m.Ordinal() == i
    {
      if i == 0 then InterpolatedNormals else if i == 1 then ReconstructedNormals else ConstantNormal
    }

    function Toggled(pressed: bool): (r: Update<NormalMode>)
      ensures r.changed == pressed
      ensures r.value.Ordinal() == (if pressed then (Ordinal() + 1) % (Maximum + 1) else Ordinal())
    {
      var t := ToggleOrdinal(Ordinal(), Maximum, pressed);
      Update(OfOrdinal(t.value), t.changed)
    }
  }

  datatype ShadowMode = NoShadows | ShadowMapping
  {
    static const Maximum: nat := 1

    function Ordinal(): (i: nat)
      ensures i <= Maximum
    {
      match this
      case NoShadows => 0
      case ShadowMapping => 1
    }

    static function OfOrdinal(i: nat): (m: ShadowMode)
      requires i <= Maximum
      ensures m.Ordinal() == i
    {
      if i == 0 then NoShadows else ShadowMapping
    }

    function Toggled(pressed: bool): (r: Update<ShadowMode>)
      ensures r.changed == pressed
      ensures r.value.Ordinal() == (if pressed then (Ordinal() + 1) % (Maximum + 1) else Ordinal())
    {
      var t := ToggleOrdinal(Ordinal(), Maximum, pressed);
      Update(OfOrdinal(t.value), t.changed)
    }
  }

  datatype TonemapMode = Identity | Reinhard | ReinhardMod
  {
    static const Maximum: nat := 2

    function Ordinal(): (i: nat)
      ensures i <= Maximum
    {
      match this
      case Identity => 0
      case Reinhard => 1
      case ReinhardMod => 2
    }

    static function OfOrdinal(i: nat): (m: TonemapMode)
      requires i <= Maximum
      ensures m.Ordinal() == i
    {
      if i == 0 then Identity else if i == 1 then Reinhard else ReinhardMod
    }

    function Toggled(pressed: bool): (r: Update<TonemapMode>)
      ensures r.changed == pressed
      ensures r.value.Ordinal() == (if pressed then (Ordinal() + 1) % (Maximum + 1) else Ordinal())
    {
      var t := ToggleOrdinal(Ordinal(), Maximum, pressed);
      Update(OfOrdinal(t.value), t.changed)
    }
  }

  datatype AntialiasingMode = NoAA | SSAA2x | SSAA4x | MSAA4x
  {
    static const Maximum: nat := 3

    function Ordinal(): (i: nat)
      ensures i <= Maximum
    {
      match this
      case NoAA => 0
      case SSAA2x => 1
      case SSAA4x => 2
      case MSAA4x => 3
    }

    static function OfOrdinal(i: nat): (m: AntialiasingMode)
      requires i <= Maximum
      ensures m.Ordinal() == i
    {
      if i == 0 then NoAA else if i == 1 then SSAA2x else if i == 2 then SSAA4x else MSAA4x
    }

    function Toggled(pressed: bool): (r: Update<AntialiasingMode>)
      ensures r.changed == pressed
      ensures r.value.Ordinal() == (if pressed then (Ordinal() + 1) % (Maximum + 1) else Ordinal())
    {
      var t := ToggleOrdinal(Ordinal(), Maximum, pressed);
      Update(OfOrdinal(t.value), t.changed)
    }
  }
}

=== FILE: objmesh.dfy ===
/** Mesh import (Graphics.cpp): the line decisions of `loadObj`, the vertex de-duplication and
    axis swap of `loadMesh`, the name a mesh takes from its path, and the per-vertex triangle
    counts of `computeVertexNormals`. Reading the file and the `sscanf` conversions are left
    to the caller, which hands over each line already classified. */
module ObjMesh {
  import opened Utils
  import opened Graphics
  import opened MeshParts

  // ---------------------------------------------------------------------------
  // Reading an OBJ file

  /** A face corner (`int2`): an index into the positions and one into the texture
      coordinates. */
  datatype Corner = Corner(position: int, uv: int)

  /** A line of an OBJ file as `loadObj` sees it: a `v` line with three numbers, a `vt` line
      with two, an `f` line with the `p/t` (or `p/t/n`) corners `sscanf` could read from it,
      or anything else. */
  datatype ObjLine =
    | PositionLine(p: Float3)
    | UvLine(uv: Float2)
    | FaceLine(corners: seq<Corner>)
    | OtherLine

  datatype ObjFile = ObjFile(positions: seq<Float3>, uvs: seq<Float2>, faces: seq<Corner>)

  const EmptyObj: ObjFile := ObjFile([], [], [])

  /** An OBJ index of a list that holds `count` entries so far: positive indices count from 1,
      negative ones back from the end. */
  function NormalizeIndex(k: int, count: nat): (r: int)
    ensures 0 <= r < count <==> (1 <= k <= count || -(count as int) <= k <= -1)
  {
    if k < 0 then k + count else k - 1
  }

  /** The relative index `-j` names the same entry as the absolute index `count + 1 - j`. */
  lemma RelativeIndexMatchesAbsolute(k: int, count: nat)
    requires 1 <= k <= count
    ensures NormalizeIndex(k - count - 1, count) == NormalizeIndex(k, count)
  {
  }

  function NormalizeCorner(c: Corner, positions: nat, uvs: nat): Corner
  {
    Corner(NormalizeIndex(c.position, positions), NormalizeIndex(c.uv, uvs))
  }

  /** How many corners of an `f` line are used: four when `sscanf` filled all eight
      conversions of the quad pattern, three when it filled the six of the triangle pattern,
      none otherwise. */
  function FaceCornerCount(read: nat): (n: nat)
    ensures n == 0 || n == 3 || n == 4
    ensures n <= read
    ensures read >= 4 ==> n == 4
    ensures read == 3 ==> n == 3
    ensures read < 3 ==> n == 0
  {
    if read >= 4 then 4 else if read == 3 then 3 else 0
  }

  /** The triangles of a face, as consecutive corner triples: a triangle as it is, a quad split
      along its diagonal from the first to the third corner. */
  function Triangulate(c: seq<Corner>): (r: seq<Corner>)
    ensures var n := FaceCornerCount(|c|);
            |r| == (if n == 0 then 0 else 3 * (n - 2))
    ensures forall t :: 0 <= t < |r| / 3 ==> r[3 * t] == c[0]
    ensures forall i :: 0 <= i < FaceCornerCount(|c|) ==> c[i] in r
    ensures forall x :: x in r ==> x in c[..FaceCornerCount(|c|)]
    ensures |c| == 3 ==> r == c
    ensures |c| >= 4 ==> r == [c[0], c[1], c[2], c[0], c[2], c[3]]
  {
    if |c| >= 4 then
      var r := [c[0], c[1], c[2], c[0], c[2], c[3]];
      assert forall x :: x in r ==> x in c[..4] by {
        assert c[..4][0] == c[0] && c[..4][1] == c[1] && c[..4][2] == c[2] && c[..4][3] == c[3];
      }
      r
    else if |c| == 3 then
      assert c[..3] == c;
      c
    else []
  }

  /** One line of `loadObj`: positions and texture coordinates are appended, and the corners
      of a face, resolved against the counts read so far, are appended triangle by triangle. */
  function ApplyObjLine(obj: ObjFile, line: ObjLine): (r: ObjFile)
    ensures |r.faces| % 3 == |obj.faces| % 3
  {
    match line
    case PositionLine(p) => obj.(positions := obj.positions + [p])
    case UvLine(uv) => obj.(uvs := obj.uvs + [uv])
    case FaceLine(corners) =>
      var n := FaceCornerCount(|corners|);
      var resolved := seq(n, i requires 0 <= i < n => NormalizeCorner(corners[i], |obj.positions|, |obj.uvs|));
      obj.(faces := obj.faces + Triangulate(resolved))
    case OtherLine => obj
  }

  /** `loadObj` over the lines of a file, in order. */
  function LoadObj(lines: seq<ObjLine>): (r: ObjFile)
    ensures |r.faces| % 3 == 0
    decreases |lines|
  {
    if |lines| == 0 then EmptyObj else ApplyObjLine(LoadObj(lines[..|lines| - 1]), lines[|lines| - 1])
  }

  function CountPositionLines(lines: seq<ObjLine>): nat
  {
    if |lines| == 0 then 0 else CountPositionLines(lines[..|lines| - 1]) + (if lines[|lines| - 1].PositionLine? then 1 else 0)
  }

  /** The corners a line contributes to the face list. */
  function FaceEntries(line: ObjLine): nat
  {
    if line.FaceLine? then (var n := FaceCornerCount(|line.corners|); if n == 0 then 0 else 3 * (n - 2)) else 0
  }

  function CountFaceEntries(lines: seq<ObjLine>): nat
  {
    if |lines| == 0 then 0 else CountFaceEntries(lines[..|lines| - 1]) + FaceEntries(lines[|lines| - 1])
  }

  /** Every `v` line adds one position, a triangle line three face entries and a quad line
      six. */
  lemma {:induction false} LoadObjCounts(lines: seq<ObjLine>)
    ensures |LoadObj(lines).positions| == CountPositionLines(lines)
    ensures |LoadObj(lines).faces| == CountFaceEntries(lines)
    decreases |lines|
  {
    if |lines| > 0 {
      LoadObjCounts(lines[..|lines| - 1]);
    }
  }

  /** Loading more lines only appends: what the first lines produced is a prefix of the
      result. */
  lemma {:induction false} LoadObjAppends(lines: seq<ObjLine>, more: seq<ObjLine>)
    ensures var a, b := LoadObj(lines), LoadObj(lines + more);
            a.positions <= b.positions && a.uvs <= b.uvs && a.faces <= b.faces
    decreases |more|
  {
    if |more| == 0 {
      assert lines + more == lines;
    } else {
      var init := more[..|more| - 1];
      LoadObjAppends(lines, init);
      assert (lines + more)[..|lines + more| - 1] == lines + init;
    }
  }

  /** A face corner with position index -1 written right after a `v` line refers to that
      position. */
  lemma LastPositionReference(lines: seq<ObjLine>, p: Float3, uv: int, rest: seq<Corner>)
    requires |rest| >= 2
    ensures var face := [Corner(-1, uv)] + rest;
            var r := LoadObj(lines + [PositionLine(p), FaceLine(face)]);
            |LoadObj(lines).faces| < |r.faces| &&
            var c := r.faces[|LoadObj(lines).faces|];
            0 <= c.position < |r.positions| && r.positions[c.position] == p
  {
    var a := lines + [PositionLine(p)];
    var all := lines + [PositionLine(p), FaceLine([Corner(-1, uv)] + rest)];
    assert all[..|all| - 1] == a;
    assert a[..|a| - 1] == lines;
  }

  // ---------------------------------------------------------------------------
  // Building the vertex and index lists

  /** `MeshLoadMode::SwapYZ`: the old y axis becomes z, and the old z axis points along -y. */
  function SwapYZ(p: Float3): (r: Float3)
    ensures r.x == p.x
  {
    Float3(p.x, -p.z, p.y)
  }

  /** The swap is a quarter turn about x: it keeps squared lengths, the turn the other way
      undoes it, and four of them are the identity. */
  lemma SwapYZIsQuarterTurn(p: Float3)
    ensures var r := SwapYZ(p); r.x * r.x + r.y * r.y + r.z * r.z == p.x * p.x + p.y * p.y + p.z * p.z
    ensures var r := SwapYZ(p); Float3(r.x, r.z, -r.y) == p
    ensures SwapYZ(SwapYZ(SwapYZ(SwapYZ(p)))) == p
  {
  }

  predicate ValidCorner(obj: ObjFile, c: Corner)
  {
    0 <= c.position < |obj.positions| && 0 <= c.uv < |obj.uvs|
  }

  /** The indices of every face corner address an existing position and texture coordinate:
      `loadMesh` reads them unchecked. */
  predicate ValidFaces(obj: ObjFile)
  {
    forall i :: 0 <= i < |obj.faces| ==> ValidCorner(obj, obj.faces[i])
  }

  /** The vertex `loadMesh` builds for a corner: normal and tessellation factor are zero until
      they are computed. */
  function CornerVertex(obj: ObjFile, c: Corner, swap: bool): (v: Vertex)
    requires ValidCorner(obj, c)
    ensures v.uv == obj.uvs[c.uv]
    ensures swap ==> v.pos == SwapYZ(obj.positions[c.position])
    ensures !swap ==> v.pos == obj.positions[c.position]
  {
    var p := obj.positions[c.position];
    Vertex(if swap then SwapYZ(p) else p, Float3(0.0, 0.0, 0.0), obj.uvs[c.uv], 0.0)
  }

  /** The vertex of every face corner of one file, in order. */
  function FileVertices(obj: ObjFile, swap: bool): (vs: seq<Vertex>)
    requires ValidFaces(obj)
    ensures |vs| == |obj.faces|
  {
    seq(|obj.faces|, i requires 0 <= i < |obj.faces| => CornerVertex(obj, obj.faces[i], swap))
  }

  /** The vertex of every face corner of every file, file after file. */
  function AllVertices(objs: seq<ObjFile>, swap: bool): (vs: seq<Vertex>)
    requires forall i :: 0 <= i < |objs| ==> ValidFaces(objs[i])
    decreases |objs|
  {
    if |objs| == 0 then [] else AllVertices(objs[..|objs| - 1], swap) + FileVertices(objs[|objs| - 1], swap)
  }

  /** The key of the de-duplication table: what `Vertex::operator==` compares. */
  function KeyOf(v: Vertex): (Float3, Float2)
  {
    (v.pos, v.uv)
  }

  lemma KeyOfIsSameVertex(a: Vertex, b: Vertex)
    ensures KeyOf(a) == KeyOf(b) <==> SameVertex(a, b)
  {
  }

  /** The de-duplication of one file's corners: each corner gets the index of the first
      stored vertex equal to it, appending a vertex when there is none yet. The table starts
      empty for every file. */
  method DeduplicateFile(vertices: seq<Vertex>, corners: seq<Vertex>) returns (vs: seq<Vertex>, idx: seq<nat>)
    ensures |vs| >= |vertices| && vs[..|vertices|] == vertices
    ensures |idx| == |corners|
    ensures forall k :: 0 <= k < |idx| ==> |vertices| <= idx[k] < |vs| && SameVertex(vs[idx[k]], corners[k])
    ensures forall k, l :: 0 <= k < |idx| && 0 <= l < |idx| ==> (idx[k] == idx[l] <==> SameVertex(corners[k], corners[l]))
    ensures forall a, b :: |vertices| <= a < b < |vs| ==> !SameVertex(vs[a], vs[b])
    ensures forall a :: |vertices| <= a < |vs| ==> Referenced(idx, 0, |idx|, a) && vs[a] in corners
    ensures FileDeduplicated(vertices, corners, vs, idx)
  {
    var n0 := |vertices|;
    var table: map<(Float3, Float2), nat> := map[];
    vs, idx := vertices, [];
    ghost var firstUse: seq<nat> := [];
    var i := 0;
    while i < |corners|
      invariant 0 <= i <= |corners| && |idx| == i
      invariant |vs| >= n0 && vs[..n0] == vertices
      invariant forall key :: key in table ==> n0 <= table[key] < |vs| && KeyOf(vs[table[key]]) == key
      invariant forall a :: n0 <= a < |vs| ==> KeyOf(vs[a]) in table && table[KeyOf(vs[a])] == a
      invariant forall k :: 0 <= k < i ==> KeyOf(corners[k]) in table && idx[k] == table[KeyOf(corners[k])]
      invariant |firstUse| == |vs| - n0
      invariant forall j :: 0 <= j < |firstUse| ==> firstUse[j] < i && idx[firstUse[j]] == n0 + j && vs[n0 + j] == corners[firstUse[j]]
    {
      var v := corners[i];
      var key := KeyOf(v);
      if key !in table {
        table := table[key := |vs|];
        vs := vs + [v];
        idx := idx + [|vs| - 1];
        firstUse := firstUse + [i];
      } else {
        idx := idx + [table[key]];
      }
      i := i + 1;
    }
    FirstUsesReferenced(n0, vs, idx, corners, firstUse);
    forall a, b | n0 <= a < b < |vs|
      ensures !SameVertex(vs[a], vs[b])
    {
      KeyOfIsSameVertex(vs[a], vs[b]);
    }
    forall k, l | 0 <= k < |idx| && 0 <= l < |idx|
      ensures idx[k] == idx[l] <==> SameVertex(corners[k], corners[l])
    {
      KeyOfIsSameVertex(corners[k], corners[l]);
    }
  }

  /** Every vertex appended for a file was appended for some corner, whose index names it. */
  lemma FirstUsesReferenced(n0: nat, vs: seq<Vertex>, idx: seq<nat>, corners: seq<Vertex>, firstUse: seq<nat>)
    requires |idx| == |corners| && |vs| >= n0 && |firstUse| == |vs| - n0
    requires forall j :: 0 <= j < |firstUse| ==>
               firstUse[j] < |idx| && idx[firstUse[j]] == n0 + j && vs[n0 + j] == corners[firstUse[j]]
    ensures forall a :: n0 <= a < |vs| ==> Referenced(idx, 0, |idx|, a) && vs[a] in corners
  {
    forall a | n0 <= a < |vs|
      ensures Referenced(idx, 0, |idx|, a) && vs[a] in corners
    {
      var k := firstUse[a - n0];
      assert idx[k] == a && vs[a] == corners[k];
    }
  }

  /** Each file's part of the index list is as long as its list of face corners. */
  predicate FaceCounts(objs: seq<ObjFile>, indexStarts: seq<nat>)
  {
    |indexStarts| == |objs| + 1 &&
    forall f :: 0 <= f < |objs| ==> indexStarts[f + 1] == indexStarts[f] + |objs[f].faces|
  }

  /** The vertex and index lists of `loadMesh`: one index per face corner of every file,
      naming a vertex equal to that corner's. The table is rebuilt for every file, so within
      one file no vertex is stored twice and equal corners share their index; equal corners of
      different files get separate vertices. `vertexStarts` and `indexStarts` say where each
      file's vertices and indices begin (`Built` spells these facts out). */
  method Deduplicate(objs: seq<ObjFile>, swap: bool)
    returns (vertices: seq<Vertex>, indices: seq<nat>, ghost vertexStarts: seq<nat>, ghost indexStarts: seq<nat>)
    requires forall i :: 0 <= i < |objs| ==> ValidFaces(objs[i])
    ensures |indices| == |AllVertices(objs, swap)| && Indexed(vertices, indices, AllVertices(objs, swap))
    ensures Built(AllVertices(objs, swap), |objs|, vertices, indices, vertexStarts, indexStarts)
    ensures FaceCounts(objs, indexStarts)
    decreases |objs|
  {
    if |objs| == 0 {
      return [], [], [0], [0];
    }
    var n := |objs| - 1;
    assert forall j :: 0 <= j < n ==> objs[..n][j] == objs[j];
    var vertices', indices', vertexStarts', indexStarts' := Deduplicate(objs[..n], swap);
    var idx;
    vertices, idx := DeduplicateFile(vertices', FileVertices(objs[n], swap));
    indices := indices' + idx;
    ghost var vertexEnd: seq<nat>, indexEnd: seq<nat> := [|vertices|], [|indices|];
    vertexStarts, indexStarts := vertexStarts' + vertexEnd, indexStarts' + indexEnd;
    LastFileStep(objs, swap, objs[..n], vertices', indices', vertexStarts', indexStarts', idx,
                 vertices, indices, vertexStarts, indexStarts);
  }

  /** The last file of `Deduplicate`: what was built from the files `p` before it and what
      `DeduplicateFile` returns for its corners give what `Deduplicate` promises for all. */
  lemma LastFileStep(objs: seq<ObjFile>, swap: bool, p: seq<ObjFile>,
                     vertices': seq<Vertex>, indices': seq<nat>, vertexStarts': seq<nat>, indexStarts': seq<nat>, idx: seq<nat>,
                     vertices: seq<Vertex>, indices: seq<nat>, vertexStarts: seq<nat>, indexStarts: seq<nat>)
    requires forall j :: 0 <= j < |objs| ==> ValidFaces(objs[j])
    requires |objs| > 0 && p == objs[..|objs| - 1]
    requires forall i :: 0 <= i < |p| ==> ValidFaces(p[i])
    requires Built(AllVertices(p, swap), |p|, vertices', indices', vertexStarts', indexStarts')
    requires FaceCounts(p, indexStarts')
    requires FileDeduplicated(vertices', FileVertices(objs[|objs| - 1], swap), vertices, idx)
    requires indices == indices' + idx
    requires vertexStarts == vertexStarts' + [|vertices|] && indexStarts == indexStarts' + [|indices|]
    ensures |indices| == |AllVertices(objs, swap)| && Indexed(vertices, indices, AllVertices(objs, swap))
    ensures Built(AllVertices(objs, swap), |objs|, vertices, indices, vertexStarts, indexStarts)
    ensures FaceCounts(objs, indexStarts)
  {
    var n := |objs| - 1;
    var corners := FileVertices(objs[n], swap);
    AllVerticesStep(objs, swap, p);
    BuiltStep(AllVertices(p, swap), corners, AllVertices(objs, swap), n, vertices', indices', vertexStarts', indexStarts',
              vertices, idx, indices, vertexStarts, indexStarts);
    FaceCountStep(objs, p, indexStarts', indexStarts, |indices'|, |idx|);
  }

  /** The corners of all files are those of all but the last followed by the last file's. */
  lemma AllVerticesStep(objs: seq<ObjFile>, swap: bool, p: seq<ObjFile>)
    requires forall j :: 0 <= j < |objs| ==> ValidFaces(objs[j])
    requires |objs| > 0 && p == objs[..|objs| - 1]
    requires forall i :: 0 <= i < |p| ==> ValidFaces(p[i])
    ensures AllVertices(objs, swap) == AllVertices(p, swap) + FileVertices(objs[|objs| - 1], swap)
  {
    assert forall j :: 0 <= j < |p| ==> p[j] == objs[j];
  }

  /** Appending the last file's start keeps every file's index range as long as its faces. */
  lemma FaceCountStep(objs: seq<ObjFile>, p: seq<ObjFile>, starts: seq<nat>, starts2: seq<nat>, before: nat, added: nat)
    requires |objs| > 0 && p == objs[..|objs| - 1]
    requires FaceCounts(p, starts) && starts[|p|] == before
    requires added == |objs[|objs| - 1].faces|
    requires starts2 == starts + [before + added]
    ensures FaceCounts(objs, starts2)
  {
    forall f | 0 <= f < |objs|
      ensures starts2[f + 1] == starts2[f] + |objs[f].faces|
    {
      if f < |p| {
        assert p[f] == objs[f];
      }
    }
  }

  // ---------------------------------------------------------------------------
  // The name of a mesh

  /** `loadMesh` names a mesh after the directory of the first file whose path has one. */
  function MeshName(files: seq<string>): (name: string)
    ensures name != "" ==> exists i :: 0 <= i < |files| && |SplitPath(files[i])| > 1 && name == SplitPath(files[i])[|SplitPath(files[i])| - 2]
    ensures (forall i :: 0 <= i < |files| ==> |SplitPath(files[i])| <= 1) ==> name == ""
  {
    if |files| == 0 then ""
    else
      var parts := SplitPath(files[0]);
      if |parts| > 1 then parts[|parts| - 2]
      else
        var rest := MeshName(files[1..]);
        assert forall i :: 0 <= i < |files| - 1 ==> files[1..][i] == files[i + 1];
        rest
  }

  /** Whether a path names a directory before its last component. */
  predicate HasDirectory(path: string)
  {
    |SplitPath(path)| > 1
  }

  /** The last directory of a path. */
  function DirectoryName(path: string): string
    requires HasDirectory(path)
  {
    var parts := SplitPath(path);
    parts[|parts| - 2]
  }

  /** The mesh is named after the first file that has a directory, and that name is never
      empty. */
  lemma {:induction false} MeshNameIsFirstDirectory(files: seq<string>, j: nat)
    requires j < |files| && HasDirectory(files[j])
    requires forall i :: 0 <= i < j ==> !HasDirectory(files[i])
    ensures MeshName(files) == DirectoryName(files[j])
    ensures MeshName(files) != ""
  {
    if j > 0 {
      assert !HasDirectory(files[0]);
      forall i | 0 <= i < j - 1
        ensures !HasDirectory(files[1..][i])
      {
        assert files[1..][i] == files[i + 1];
      }
      assert files[1..][j - 1] == files[j];
      MeshNameIsFirstDirectory(files[1..], j - 1);
    } else {
      var parts := SplitPath(files[0]);
      assert IsWord(parts[|parts| - 2], PathSeparators);
    }
  }

  /** Some file has a directory exactly when the mesh gets a non-empty name. */
  lemma MeshNameNonEmpty(files: seq<string>)
    ensures MeshName(files) != "" <==> exists i :: 0 <= i < |files| && HasDirectory(files[i])
  {
    if i :| 0 <= i < |files| && HasDirectory(files[i]) {
      var j := FirstDirectory(files, i);
      MeshNameIsFirstDirectory(files, j);
    }
  }

  /** The least index of a file with a directory, given one. */
  function FirstDirectory(files: seq<string>, i: nat): (j: nat)
    requires i < |files| && HasDirectory(files[i])
    ensures j <= i && HasDirectory(files[j])
    ensures forall k :: 0 <= k < j ==> !HasDirectory(files[k])
  {
    if exists k :: 0 <= k < i && HasDirectory(files[k]) then
      var k :| 0 <= k < i && HasDirectory(files[k]);
      FirstDirectory(files, k)
    else i
  }

  /** A file path built from directory names names its mesh after its last directory. */
  lemma MeshNameOfPath(parts: seq<string>, more: seq<string>)
    requires |parts| > 1
    requires forall i :: 0 <= i < |parts| ==> IsWord(parts[i], PathSeparators)
    ensures MeshName([Join(parts, "/")] + more) == parts[|parts| - 2]
  {
    SplitPathOfJoin(parts);
  }

  // ---------------------------------------------------------------------------
  // Triangles per vertex

  /** How many corners of the whole triangles of `indices` name each vertex: the counts
      `computeVertexNormals` averages the face normals by. It demands at least one triangle,
      since the last triangle start is computed as `size - 3` in unsigned arithmetic. */
  method TriangleAmounts(vertexCount: nat, indices: seq<nat>) returns (amount: seq<nat>)
    requires |indices| >= 3
    requires forall k :: 0 <= k < |indices| ==> indices[k] < vertexCount
    ensures |amount| == vertexCount
    ensures forall v :: 0 <= v < vertexCount ==> amount[v] == multiset(indices[..3 * (|indices| / 3)])[v]
  {
    amount := seq(vertexCount, v => 0);
    var last := |indices| - 3;
    var i := 0;
    while i <= last
      invariant i % 3 == 0 && i <= 3 * (|indices| / 3)
      invariant |amount| == vertexCount
      invariant forall v :: 0 <= v < vertexCount ==> amount[v] == multiset(indices[..i])[v]
      decreases |indices| - i
    {
      var i0, i1, i2 := indices[i], indices[i + 1], indices[i + 2];
      assert indices[..i + 3] == indices[..i] + [i0, i1, i2];
      amount := amount[i0 := amount[i0] + 1];
      amount := amount[i1 := amount[i1] + 1];
      amount := amount[i2 := amount[i2] + 1];
      i := i + 3;
    }
  }
}

=== FILE: preset.dfy ===
/** The rendering-state preset files of the viewer (`RenderingState`, SVBRDFOculus.cpp).

    A preset is a text file of lines. The model works on the lines after they have been split
    into whitespace-separated words: each word keeps its text and, when it spells a number, the
    number it spells. Numbers are opaque payloads: how `%f` prints them and how `sscanf` reads
    them back is not modelled; a saved number is assumed to read back as itself. */
module Preset {
  import opened Wrappers
  import opened Utils
  import opened Modes
  import Graphics

  // ---------------------------------------------------------------------------
  // The state

  datatype Light = Light(positionWorld: Graphics.Float3, falloffMultiplier: real, colorHDR: Graphics.Float3)

  /** A light appended by a `light` line: `emplace_back()` value-initialises it to zeros. */
  const ZeroLight: Light := Light(Graphics.Float3(0.0, 0.0, 0.0), 0.0, Graphics.Float3(0.0, 0.0, 0.0))

  datatype RenderingState = RenderingState(
    svbrdfName: string,
    meshName: string,
    vrScale: int,
    displacementDensity: real,
    displacementMagnitude: real,
    aaMode: AntialiasingMode,
    tonemapMode: TonemapMode,
    cameraPosWorld: Graphics.Float3,
    cameraYawDegrees: real,
    cameraPitchDegrees: real,
    ambientHDR: Graphics.Float3,
    shadowLights: nat,
    shadowResolution: nat,
    shadowDepthBias: int,
    shadowSSDepthBias: real,
    lights: seq<Light>)

  /** `XM_PI` as the single-precision literal the source uses. */
  const XmPi: real := 3.141592654

  function ToDegrees(rad: real): real
  {
    rad / XmPi * 180.0
  }

  const ShadowResolution: nat := 1024
  const ShadowDepthBias: int := -8
  const ShadowSSDepthBias: real := -1.0

  /** The `RenderingState` constructor: no names, one white light at (3, 3, 3) that casts a
      shadow, and the camera looking at the origin. */
  function DefaultState(): (s: RenderingState)
    ensures |s.lights| == 1 && s.shadowLights == 1
    ensures s.svbrdfName == "" && s.meshName == ""
    ensures s.displacementDensity >= 1.0
  {
    RenderingState(
      "", "", 4, 16.0, 0.01, NoAA, Identity,
      Graphics.Float3(-5.5, -5.0, 2.5), ToDegrees(-0.85), ToDegrees(1.15),
      Graphics.Float3(0.05, 0.05, 0.05),
      1, ShadowResolution, ShadowDepthBias, ShadowSSDepthBias,
      [Light(Graphics.Float3(3.0, 3.0, 3.0), 1.0, Graphics.Float3(1.0, 1.0, 1.0))])
  }

  // ---------------------------------------------------------------------------
  // Words and conversions

  /** A whitespace-separated word of a line and the number it spells, if any. */
  datatype Token = Token(text: string, number: Option<real>)

  type Line = seq<Token>

  /** The characters `isspace` accepts, which separate the words of a line. */
  const Whitespace: string := " \t\n\U{000B}\U{000C}\r"

  function Word(text: string): Token
  {
    Token(text, None)
  }

  /** A one-character word; the digits also spell their value. */
  function CharToken(c: char): (t: Token)
    ensures t.text == [c]
  {
    Token([c], if '0' <= c <= '9' then Some((c as int - '0' as int) as real) else None)
  }

  /** The texts of the words of a line. */
  function Texts(line: Line): (texts: seq<string>)
    ensures |texts| == |line|
  {
    seq(|line|, i requires 0 <= i < |line| => line[i].text)
  }

  /** The words of a string, none of which spells a number that matters to the reader: each
      is a non-empty run without whitespace, and together they hold every other character of
      the string, in order. */
  function Words(s: string): (line: Line)
    ensures forall i :: 0 <= i < |line| ==> IsWord(line[i].text, Whitespace) && line[i].number.None?
    ensures Concat(Texts(line)) == WithoutDelimiters(s, Whitespace)
  {
    var ws := Tokens(s, Whitespace);
    TokensAreWords(s, Whitespace);
    TokensConcat(s, Whitespace);
    var line := seq(|ws|, i requires 0 <= i < |ws| => Word(ws[i]));
    assert Texts(line) == ws;
    line
  }

  /** Whether the line starts with the keyword `kw` as a word of its own. */
  predicate Keyword(line: Line, kw: string)
  {
    |line| > 0 && line[0].text == kw
  }

  /** The longest name a `%511s` conversion stores. */
  const MaxNameLength: nat := 511

  function Truncated(s: string): (r: string)
    ensures |r| <= MaxNameLength
    ensures |s| <= MaxNameLength ==> r == s
  {
    if |s| <= MaxNameLength then s else s[..MaxNameLength]
  }

  /** `%d`: the integer part of the value the token spells, truncated toward zero. */
  function TruncateTowardZero(x: real): (r: int)
    ensures x >= 0.0 ==> r as real <= x < r as real + 1.0
    ensures x < 0.0 ==> r as real - 1.0 < x <= r as real
  {
    if x >= 0.0 then x.Floor else -((-x).Floor)
  }

  /** `kw %511s`: the first word after the keyword, cut to 511 characters. */
  function StringArg(line: Line, kw: string): Option<string>
  {
    if Keyword(line, kw) && |line| >= 2 then Some(Truncated(line[1].text)) else None
  }

  /** `kw %c`: the first character after the keyword. */
  function CharArg(line: Line, kw: string): Option<char>
  {
    if Keyword(line, kw) && |line| >= 2 && |line[1].text| > 0 then Some(line[1].text[0]) else None
  }

  /** `kw %f`. */
  function FloatArg(line: Line, kw: string): Option<real>
  {
    if Keyword(line, kw) && |line| >= 2 && line[1].number.Some? then Some(line[1].number.value) else None
  }

  /** `kw %d`. */
  function IntArg(line: Line, kw: string): Option<int>
  {
    if Keyword(line, kw) && |line| >= 2 && line[1].number.Some? then Some(TruncateTowardZero(line[1].number.value)) else None
  }

  /** `kw %u`: a negative number wraps around modulo 2^32. */
  function UnsignedArg(line: Line, kw: string): (r: Option<nat>)
    ensures r.Some? ==> r.value < U32Modulus
  {
    if Keyword(line, kw) && |line| >= 2 && line[1].number.Some? then Some(TruncateTowardZero(line[1].number.value) % U32Modulus) else None
  }

  /** `kw %f %f %f` with all three conversions made: `sscanf` must report 3. */
  function Float3Arg(line: Line, kw: string): Option<Graphics.Float3>
  {
    if Keyword(line, kw) && |line| >= 4 && line[1].number.Some? && line[2].number.Some? && line[3].number.Some?
    then Some(Graphics.Float3(line[1].number.value, line[2].number.value, line[3].number.value))
    else None
  }

  /** `%5s` reads "light": the first word begins with those five letters. */
  predicate StartsLight(line: Line)
  {
    |line| > 0 && |line[0].text| >= 5 && line[0].text[..5] == "light"
  }

  // ---------------------------------------------------------------------------
  // The two one-character fields

  function AaChar(m: AntialiasingMode): char
  {
    match m
    case NoAA => '0'
    case SSAA2x => '2'
    case SSAA4x => '4'
    case MSAA4x => 'm'
  }

  /** The `aa` switch of `load`: unknown characters select no antialiasing. */
  function AaModeOf(c: char): (m: AntialiasingMode)
    ensures c !in "24mM" ==> m == NoAA
    ensures m == MSAA4x <==> c in "mM"
  {
    if c == '2' then SSAA2x else if c == '4' then SSAA4x else if c == 'm' || c == 'M' then MSAA4x else NoAA
  }

  function TonemapChar(m: TonemapMode): char
  {
    match m
    case Identity => '0'
    case Reinhard => 'r'
    case ReinhardMod => 'm'
  }

  /** The `tonemap` switch of `load`: unknown characters select the identity. */
  function TonemapModeOf(c: char): (m: TonemapMode)
    ensures c !in "rRmM" ==> m == Identity
    ensures m == Reinhard <==> c in "rR"
  {
    if c == 'r' || c == 'R' then Reinhard else if c == 'm' || c == 'M' then ReinhardMod else Identity
  }

  /** The characters `save` writes read back as the modes they were written for, in either
      letter case, and distinct modes are written as distinct characters. */
  lemma ModeCharsRoundTrip(a: AntialiasingMode, b: AntialiasingMode, t: TonemapMode, u: TonemapMode)
    ensures AaModeOf(AaChar(a)) == a
    ensures TonemapModeOf(TonemapChar(t)) == t
    ensures a != b ==> AaChar(a) != AaChar(b)
    ensures t != u ==> TonemapChar(t) != TonemapChar(u)
    ensures AaModeOf('M') == MSAA4x && TonemapModeOf('R') == Reinhard && TonemapModeOf('M') == ReinhardMod
  {
  }

  // ---------------------------------------------------------------------------
  // Loading

  /** The last light with one field replaced. */
  function WithLast(lights: seq<Light>, l: Light): (r: seq<Light>)
    requires |lights| > 0
    ensures |r| == |lights| && r[..|r| - 1] == lights[..|lights| - 1] && r[|r| - 1] == l
  {
    lights[..|lights| - 1] + [l]
  }

  /** Whether `load` appends a light for this line: it begins with "light" and is not one of the
      complete `light_*` lines. */
  predicate AppendsLight(line: Line)
  {
    StartsLight(line) && Float3Arg(line, "light_position").None? &&
    FloatArg(line, "light_falloff").None? && Float3Arg(line, "light_color").None?
  }

  /** No settings keyword begins with "light". */
  lemma LightWordsAreNoSettings(line: Line)
    ensures StartsLight(line) ==>
      !Keyword(line, "svbrdf") && !Keyword(line, "mesh") && !Keyword(line, "vr_scale") &&
      !Keyword(line, "displacement_density") && !Keyword(line, "displacement_magnitude") &&
      !Keyword(line, "aa") && !Keyword(line, "tonemap") && !Keyword(line, "camera_position") &&
      !Keyword(line, "camera_yaw_degrees") && !Keyword(line, "camera_pitch_degrees") &&
      !Keyword(line, "ambient") && !Keyword(line, "shadow_lights") && !Keyword(line, "shadow_resolution") &&
      !Keyword(line, "shadow_depth_bias") && !Keyword(line, "shadow_slope_scaled_depth_bias")
  {
    if StartsLight(line) {
      assert line[0].text[0] == line[0].text[..5][0] == 'l';
    }
  }

  /** The settings directives of `load`, tried in order: the first whose conversions all
      succeed sets its field. None of them touches the lights or reads a line whose first word
      begins with "light". */
  function ApplySetting(s: RenderingState, line: Line): (r: Option<RenderingState>)
    ensures r.Some? ==> r.value.lights == s.lights
    ensures StartsLight(line) ==> r.None?
  {
    LightWordsAreNoSettings(line);
    var svbrdf := StringArg(line, "svbrdf");
    if svbrdf.Some? then Some(s.(svbrdfName := svbrdf.value)) else
    var mesh := StringArg(line, "mesh");
    if mesh.Some? then Some(s.(meshName := mesh.value)) else
    var vr := IntArg(line, "vr_scale");
    if vr.Some? then Some(s.(vrScale := vr.value)) else
    var density := FloatArg(line, "displacement_density");
    if density.Some? then Some(s.(displacementDensity := density.value)) else
    var magnitude := FloatArg(line, "displacement_magnitude");
    if magnitude.Some? then Some(s.(displacementMagnitude := magnitude.value)) else
    var aa := CharArg(line, "aa");
    if aa.Some? then Some(s.(aaMode := AaModeOf(aa.value))) else
    var tonemap := CharArg(line, "tonemap");
    if tonemap.Some? then Some(s.(tonemapMode := TonemapModeOf(tonemap.value))) else
    ApplyViewSetting(s, line)
  }

  /** The camera, ambient and shadow directives, which `load` tries after the others. */
  function ApplyViewSetting(s: RenderingState, line: Line): (r: Option<RenderingState>)
    ensures r.Some? ==> r.value.lights == s.lights
    ensures StartsLight(line) ==> r.None?
  {
    LightWordsAreNoSettings(line);
    var camera := Float3Arg(line, "camera_position");
    if camera.Some? then Some(s.(cameraPosWorld := camera.value)) else
    var yaw := FloatArg(line, "camera_yaw_degrees");
    if yaw.Some? then Some(s.(cameraYawDegrees := yaw.value)) else
    var pitch := FloatArg(line, "camera_pitch_degrees");
    if pitch.Some? then Some(s.(cameraPitchDegrees := pitch.value)) else
    var ambient := Float3Arg(line, "ambient");
    if ambient.Some? then Some(s.(ambientHDR := ambient.value)) else
    var shadowLights := UnsignedArg(line, "shadow_lights");
    if shadowLights.Some? then Some(s.(shadowLights := shadowLights.value)) else
    var resolution := UnsignedArg(line, "shadow_resolution");
    if resolution.Some? then Some(s.(shadowResolution := resolution.value)) else
    var bias := IntArg(line, "shadow_depth_bias");
    if bias.Some? then Some(s.(shadowDepthBias := bias.value)) else
    var ssBias := FloatArg(line, "shadow_slope_scaled_depth_bias");
    if ssBias.Some? then Some(s.(shadowSSDepthBias := ssBias.value)) else
    None
  }

  /** The light directives of `load`: the three `light_*` lines edit the last light, if there
      is one, and any other line whose first word begins with "light" appends a zero light. */
  function ApplyLightLine(lights: seq<Light>, line: Line): (r: seq<Light>)
    ensures |r| == |lights| + (if AppendsLight(line) then 1 else 0)
    ensures !StartsLight(line) ==> r == lights
  {
    var position := Float3Arg(line, "light_position");
    if position.Some? then
      (if |lights| > 0 then WithLast(lights, lights[|lights| - 1].(positionWorld := position.value)) else lights)
    else
    var falloff := FloatArg(line, "light_falloff");
    if falloff.Some? then
      (if |lights| > 0 then WithLast(lights, lights[|lights| - 1].(falloffMultiplier := falloff.value)) else lights)
    else
    var color := Float3Arg(line, "light_color");
    if color.Some? then
      (if |lights| > 0 then WithLast(lights, lights[|lights| - 1].(colorHDR := color.value)) else lights)
    else if StartsLight(line) then lights + [ZeroLight]
    else lights
  }

  /** One line of `load`: the first directive whose conversions all succeed applies; a line that
      matches none of them, such as a comment, changes nothing. */
  function ApplyLine(s: RenderingState, line: Line): RenderingState
  {
    var setting := ApplySetting(s, line);
    if setting.Some? then setting.value else s.(lights := ApplyLightLine(s.lights, line))
  }

  function ApplyLines(s: RenderingState, lines: seq<Line>): RenderingState
    decreases |lines|
  {
    if |lines| == 0 then s else ApplyLines(ApplyLine(s, lines[0]), lines[1..])
  }

  /** The state `load` starts from: the defaults without their light. */
  function LoadStart(): (s: RenderingState)
    ensures s.lights == []
  {
    DefaultState().(lights := [])
  }

  /** After the last line, a density that is not at least 1 disables displacement. */
  function FixDensity(s: RenderingState): (r: RenderingState)
    ensures r.displacementDensity >= 1.0 || r.displacementDensity == 0.0
    ensures r.(displacementDensity := s.displacementDensity) == s
    ensures s.displacementDensity >= 1.0 ==> r == s
    ensures !(s.displacementDensity >= 1.0) ==> r.displacementDensity == 0.0
  {
    if !(s.displacementDensity >= 1.0) then s.(displacementDensity := 0.0) else s
  }

  /** `RenderingState::load(FILE*)`. */
  function Load(lines: seq<Line>): (s: RenderingState)
    ensures s.displacementDensity >= 1.0 || s.displacementDensity == 0.0
  {
    FixDensity(ApplyLines(LoadStart(), lines))
  }

  lemma {:induction false} ApplyLinesConcat(s: RenderingState, a: seq<Line>, b: seq<Line>)
    ensures ApplyLines(s, a + b) == ApplyLines(ApplyLines(s, a), b)
    decreases |a|
  {
    if |a| > 0 {
      assert (a + b)[1..] == a[1..] + b;
      ApplyLinesConcat(ApplyLine(s, a[0]), a[1..], b);
    } else {
      assert a + b == b;
    }
  }

  lemma ApplyLinesStep(s: RenderingState, lines: seq<Line>, i: nat)
    requires i < |lines|
    ensures ApplyLines(s, lines[i..]) == ApplyLines(ApplyLine(s, lines[i]), lines[i + 1..])
  {
    assert lines[i..][1..] == lines[i + 1..];
  }

  function CountAppending(lines: seq<Line>): nat
  {
    if |lines| == 0 then 0 else (if AppendsLight(lines[0]) then 1 else 0) + CountAppending(lines[1..])
  }

  /** A line adds one light exactly when it is a light line, and never removes one. */
  lemma ApplyLineLightCount(s: RenderingState, line: Line)
    ensures |ApplyLine(s, line).lights| == |s.lights| + (if AppendsLight(line) then 1 else 0)
  {
    if !StartsLight(line) {
      assert !AppendsLight(line);
    }
  }

  /** Every light line of a preset appends one light, and nothing else adds or removes lights,
      so the loaded light list is as long as the number of light lines: a preset without one
      has no lights at all. */
  lemma {:induction false} LoadCountsLights(lines: seq<Line>)
    ensures |Load(lines).lights| == CountAppending(lines)
  {
    ApplyLinesLightCount(LoadStart(), lines);
  }

  lemma {:induction false} ApplyLinesLightCount(s: RenderingState, lines: seq<Line>)
    ensures |ApplyLines(s, lines).lights| == |s.lights| + CountAppending(lines)
    decreases |lines|
  {
    if |lines| > 0 {
      ApplyLineLightCount(s, lines[0]);
      ApplyLinesLightCount(ApplyLine(s, lines[0]), lines[1..]);
    }
  }

  /** A complete `light_*` line changes one field of the last light and nothing else; before
      the first light it is ignored. */
  lemma LightFieldLines(s: RenderingState, line: Line)
    requires Float3Arg(line, "light_position").Some? || FloatArg(line, "light_falloff").Some? ||
             Float3Arg(line, "light_color").Some?
    ensures |s.lights| == 0 ==> ApplyLine(s, line) == s
    ensures |s.lights| > 0 ==>
      var r := ApplyLine(s, line);
      r.(lights := s.lights) == s && |r.lights| == |s.lights| &&
      r.lights[..|s.lights| - 1] == s.lights[..|s.lights| - 1]
  {
  }

  /** A `light_position` line with fewer than three numbers is no position line; since its
      first word begins with "light" it appends a new light instead. */
  lemma ShortLightPositionAppends(s: RenderingState, x: real, y: real)
    ensures var line := [Word("light_position"), Token("1", Some(x)), Token("2", Some(y))];
            ApplyLine(s, line) == s.(lights := s.lights + [ZeroLight])
  {
    var line := [Word("light_position"), Token("1", Some(x)), Token("2", Some(y))];
    assert line[0].text[..5] == "light";
  }

  // ---------------------------------------------------------------------------
  // Saving

  /** A number as `save` prints it; `numeral` stands for the `%f`, `%d` or `%u` text. */
  function Number(x: real, numeral: real -> string): (t: Token)
    ensures t.number == Some(x)
  {
    Token(numeral(x), Some(x))
  }

  /** A `#` comment with the given words, to the end of the line. */
  function Remark(words: seq<string>): (line: Line)
    ensures |line| == |words| + 1 && line[0].text == "#"
  {
    [Word("#")] + seq(|words|, i requires 0 <= i < |words| => Word(words[i]))
  }

  /** The `svbrdf` line of `save` as written: with an empty name the first word after the
      keyword is the `#` that opens the comment. */
  function SvbrdfLineAsWritten(name: string): Line
  {
    [Word("svbrdf")] + Words(name) + Remark(["Material", "name", "from", "the", "data", "directory"])
  }

  /** The `svbrdf` line written the way `save` writes the `mesh` line: an empty name becomes a
      commented-out placeholder. */
  function SvbrdfLine(name: string): Line
  {
    if name == "" then Remark(["svbrdf", "<svbrdf-name>"]) + Remark(["Material", "name", "from", "the", "data", "directory"])
    else SvbrdfLineAsWritten(name)
  }

  function MeshLine(name: string): Line
  {
    if name == "" then Remark(["mesh", "<mesh-name>"]) + Remark(["Mesh", "name", "from", "the", "data", "directory"])
    else [Word("mesh")] + Words(name) + Remark(["Mesh", "name", "from", "the", "data", "directory"])
  }

  function AaRemark(m: AntialiasingMode): seq<string>
  {
    match m
    case NoAA => ["No", "antialiasing"]
    case SSAA2x => ["SSAA", "2x"]
    case SSAA4x => ["SSAA", "4x"]
    case MSAA4x => ["MSAA", "4x"]
  }

  function TonemapRemark(m: TonemapMode): seq<string>
  {
    match m
    case Identity => ["Identity", "tone", "mapping"]
    case Reinhard => ["Reinhard", "tone", "mapping"]
    case ReinhardMod => ["Reinhard", "modified", "tone", "mapping", "with", "fixed", "exposure"]
  }

  function MeshLines(s: RenderingState): seq<Line>
  {
    [MeshLine(s.meshName), []]
  }

  /** The opening comment, the material line, the mesh line and an empty line. */
  function HeaderLines(s: RenderingState, svbrdfLine: Line): seq<Line>
  {
    [Remark(["Comments", "start", "with", "'#'"]), svbrdfLine] + MeshLines(s)
  }

  function VrScaleLine(s: RenderingState, numeral: real -> string): Line
  {
    [Word("vr_scale"), Number(s.vrScale as real, numeral)] +
      Remark(["Head", "position", "multiplied", "by", "10^(" + numeral(s.vrScale as real), "/", "4)"])
  }

  function DensityLine(s: RenderingState, numeral: real -> string): Line
  {
    [Word("displacement_density"), Number(s.displacementDensity, numeral)] +
      Remark(["About", numeral(s.displacementDensity), "heightmap", "pixels", "per", "vertex.", "0", "=", "disabled."])
  }

  function MagnitudeLine(s: RenderingState, numeral: real -> string): Line
  {
    [Word("displacement_magnitude"), Number(s.displacementMagnitude, numeral)]
  }

  function AaLine(s: RenderingState): Line
  {
    [Word("aa"), CharToken(AaChar(s.aaMode))] + Remark(AaRemark(s.aaMode))
  }

  function TonemapLine(s: RenderingState): Line
  {
    [Word("tonemap"), CharToken(TonemapChar(s.tonemapMode))] + Remark(TonemapRemark(s.tonemapMode))
  }

  function CameraPositionLine(s: RenderingState, numeral: real -> string): Line
  {
    var p := s.cameraPosWorld;
    [Word("camera_position"), Number(p.x, numeral), Number(p.y, numeral), Number(p.z, numeral)]
  }

  function CameraYawLine(s: RenderingState, numeral: real -> string): Line
  {
    [Word("camera_yaw_degrees"), Number(s.cameraYawDegrees, numeral)]
  }

  function CameraPitchLine(s: RenderingState, numeral: real -> string): Line
  {
    [Word("camera_pitch_degrees"), Number(s.cameraPitchDegrees, numeral)]
  }

  function AmbientLine(s: RenderingState, numeral: real -> string): Line
  {
    var a := s.ambientHDR;
    [Word("ambient"), Number(a.x, numeral), Number(a.y, numeral), Number(a.z, numeral)] +
      Remark(["Constant", "diffuse", "HDR", "ambient"])
  }

  function ShadowLightsLine(s: RenderingState, numeral: real -> string): Line
  {
    [Word("shadow_lights"), Number(s.shadowLights as real, numeral)] +
      Remark(["First", numeral(s.shadowLights as real), "lights", "will", "have", "shadows"])
  }

  function ShadowResolutionLine(s: RenderingState, numeral: real -> string): Line
  {
    [Word("shadow_resolution"), Number(s.shadowResolution as real, numeral)] + Remark(["Shadow", "map", "resolution"])
  }

  function ShadowDepthBiasLine(s: RenderingState, numeral: real -> string): Line
  {
    [Word("shadow_depth_bias"), Number(s.shadowDepthBias as real, numeral)]
  }

  function ShadowSlopeBiasLine(s: RenderingState, numeral: real -> string): Line
  {
    [Word("shadow_slope_scaled_depth_bias"), Number(s.shadowSSDepthBias, numeral)]
  }

  /** The scalar settings of `save`, in the groups the file separates by empty lines. */
  function ScaleLines(s: RenderingState, numeral: real -> string): seq<Line>
  {
    [VrScaleLine(s, numeral), []]
  }

  function DisplacementLines(s: RenderingState, numeral: real -> string): seq<Line>
  {
    [DensityLine(s, numeral), MagnitudeLine(s, numeral), []]
  }

  function ModeLines(s: RenderingState): seq<Line>
  {
    [AaLine(s), TonemapLine(s), []]
  }

  function CameraLines(s: RenderingState, numeral: real -> string): seq<Line>
  {
    [CameraPositionLine(s, numeral), CameraYawLine(s, numeral), CameraPitchLine(s, numeral), []]
  }

  function AmbientLines(s: RenderingState, numeral: real -> string): seq<Line>
  {
    [AmbientLine(s, numeral), []]
  }

  function ShadowLines(s: RenderingState, numeral: real -> string): seq<Line>
  {
    [ShadowLightsLine(s, numeral), ShadowResolutionLine(s, numeral), ShadowDepthBiasLine(s, numeral), ShadowSlopeBiasLine(s, numeral)]
  }

  function SettingsLines(s: RenderingState, numeral: real -> string): seq<Line>
  {
    ScaleLines(s, numeral) + DisplacementLines(s, numeral) + ModeLines(s) +
    CameraLines(s, numeral) + AmbientLines(s, numeral) + ShadowLines(s, numeral)
  }

  function LightPositionLine(l: Light, numeral: real -> string): Line
  {
    var p := l.positionWorld;
    [Word("light_position"), Number(p.x, numeral), Number(p.y, numeral), Number(p.z, numeral)]
  }

  function LightFalloffLine(l: Light, numeral: real -> string): Line
  {
    [Word("light_falloff"), Number(l.falloffMultiplier, numeral)] + Remark(["Multiplier", "for", "falloff"])
  }

  function LightColorLine(l: Light, numeral: real -> string): Line
  {
    var c := l.colorHDR;
    [Word("light_color"), Number(c.x, numeral), Number(c.y, numeral), Number(c.z, numeral)] + Remark(["HDR", "color"])
  }

  /** The five lines `save` writes for one light. */
  function LightBlock(l: Light, numeral: real -> string): seq<Line>
  {
    [[], [Word("light")], LightPositionLine(l, numeral), LightFalloffLine(l, numeral), LightColorLine(l, numeral)]
  }

  function LightLines(lights: seq<Light>, numeral: real -> string): seq<Line>
    decreases |lights|
  {
    if |lights| == 0 then [] else LightBlock(lights[0], numeral) + LightLines(lights[1..], numeral)
  }

  /** `RenderingState::save(FILE*)` as written. */
  function SaveAsWritten(s: RenderingState, numeral: real -> string): seq<Line>
  {
    HeaderLines(s, SvbrdfLineAsWritten(s.svbrdfName)) + SettingsLines(s, numeral) + LightLines(s.lights, numeral)
  }

  /** `save` with the empty material name commented out like the empty mesh name. */
  function Save(s: RenderingState, numeral: real -> string): seq<Line>
  {
    HeaderLines(s, SvbrdfLine(s.svbrdfName)) + SettingsLines(s, numeral) + LightLines(s.lights, numeral)
  }

  // ---------------------------------------------------------------------------
  // Round trip

  /** A name `%511s` reads back whole: empty, or one word of at most 511 characters. */
  predicate NameFits(name: string)
  {
    name == "" || (IsWord(name, Whitespace) && |name| <= MaxNameLength)
  }

  /** The states a preset file can carry: names that survive `%511s`, a density `load` keeps,
      and unsigned fields that fit in 32 bits. */
  predicate Saveable(s: RenderingState)
  {
    NameFits(s.svbrdfName) && NameFits(s.meshName) &&
    (s.displacementDensity >= 1.0 || s.displacementDensity == 0.0) &&
    s.shadowLights < U32Modulus && s.shadowResolution < U32Modulus
  }

  /** A word of a name line reads back as the name. */
  lemma WordsOfName(name: string)
    requires NameFits(name) && name != ""
    ensures Words(name) == [Word(name)]
  {
    TokensOfWord(name, Whitespace);
  }

  /** A comment line or an empty line changes nothing. */
  lemma CommentLineIsInert(t: RenderingState, line: Line)
    requires |line| == 0 || line[0].text == "#"
    ensures ApplyLine(t, line) == t
  {
    assert ApplySetting(t, line).None? by {
      assert |line| == 0 || |line[0].text| == 1;
    }
    assert !StartsLight(line);
  }

  /** The material line reads back the name it was written with. */
  lemma SvbrdfLineLoads(t: RenderingState, name: string)
    requires NameFits(name)
    ensures ApplyLine(t, SvbrdfLine(name)) == if name == "" then t else t.(svbrdfName := name)
  {
    if name == "" {
      CommentLineIsInert(t, SvbrdfLine(name));
    } else {
      WordsOfName(name);
      assert SvbrdfLine(name)[1] == Word(name);
    }
  }

  /** The mesh line reads back the name it was written with. */
  lemma MeshLineLoads(t: RenderingState, name: string)
    requires NameFits(name)
    ensures ApplyLine(t, MeshLine(name)) == if name == "" then t else t.(meshName := name)
  {
    if name == "" {
      CommentLineIsInert(t, MeshLine(name));
    } else {
      WordsOfName(name);
      assert MeshLine(name)[1] == Word(name);
    }
  }

  /** The material line as written reads back an empty name as the `#` after the keyword. */
  lemma SvbrdfLineAsWrittenLoads(t: RenderingState, name: string)
    requires NameFits(name)
    ensures ApplyLine(t, SvbrdfLineAsWritten(name)) == t.(svbrdfName := if name == "" then "#" else name)
  {
    if name == "" {
      assert Words(name) == [];
      assert SvbrdfLineAsWritten(name)[1] == Word("#");
    } else {
      WordsOfName(name);
      assert SvbrdfLineAsWritten(name)[1] == Word(name);
    }
  }

  lemma MeshLinesLoad(t: RenderingState, s: RenderingState)
    requires NameFits(s.meshName)
    ensures ApplyLines(t, MeshLines(s)) == if s.meshName == "" then t else t.(meshName := s.meshName)
  {
    var a := MeshLine(s.meshName);
    ApplyLinesSnoc(t, [], a);
    ApplyLinesSnoc(t, [a], []);
    MeshLineLoads(t, s.meshName);
    CommentLineIsInert(ApplyLine(t, a), []);
  }

  /** Loading the header lines of `save` sets the two names. */
  lemma HeaderRoundTrip(t: RenderingState, s: RenderingState)
    requires t.svbrdfName == "" && t.meshName == ""
    requires NameFits(s.svbrdfName) && NameFits(s.meshName)
    ensures ApplyLines(t, HeaderLines(s, SvbrdfLine(s.svbrdfName))) == t.(svbrdfName := s.svbrdfName, meshName := s.meshName)
  {
    var a, b := Remark(["Comments", "start", "with", "'#'"]), SvbrdfLine(s.svbrdfName);
    ApplyLinesConcat(t, [a, b], MeshLines(s));
    ApplyLinesSnoc(t, [], a);
    ApplyLinesSnoc(t, [a], b);
    assert [a] + [b] == [a, b];
    CommentLineIsInert(t, a);
    SvbrdfLineLoads(t, s.svbrdfName);
    MeshLinesLoad(t.(svbrdfName := s.svbrdfName), s);
  }

  /** Loading the header lines of `save` as written sets the mesh name, and the material name
      unless it is empty: an empty one reads back as `#`. */
  lemma HeaderAsWrittenRoundTrip(t: RenderingState, s: RenderingState)
    requires t.svbrdfName == "" && t.meshName == ""
    requires NameFits(s.svbrdfName) && NameFits(s.meshName)
    ensures ApplyLines(t, HeaderLines(s, SvbrdfLineAsWritten(s.svbrdfName))) ==
            t.(svbrdfName := if s.svbrdfName == "" then "#" else s.svbrdfName, meshName := s.meshName)
  {
    var a, b := Remark(["Comments", "start", "with", "'#'"]), SvbrdfLineAsWritten(s.svbrdfName);
    ApplyLinesConcat(t, [a, b], MeshLines(s));
    ApplyLinesSnoc(t, [], a);
    ApplyLinesSnoc(t, [a], b);
    assert [a] + [b] == [a, b];
    CommentLineIsInert(t, a);
    SvbrdfLineAsWrittenLoads(t, s.svbrdfName);
    MeshLinesLoad(t.(svbrdfName := if s.svbrdfName == "" then "#" else s.svbrdfName), s);
  }

  /** `%d` and `%u` read a whole number back as itself. */
  lemma TruncateWhole(n: int)
    ensures TruncateTowardZero(n as real) == n
    ensures 0 <= n < U32Modulus ==> TruncateTowardZero(n as real) % U32Modulus == n
  {
    if 0 <= n < U32Modulus {
      DivModOf(0, U32Modulus, n);
    }
  }

  lemma VrScaleLineLoads(t: RenderingState, s: RenderingState, numeral: real -> string)
    ensures ApplyLine(t, VrScaleLine(s, numeral)) == t.(vrScale := s.vrScale)
  {
    TruncateWhole(s.vrScale);
  }

  lemma DensityLineLoads(t: RenderingState, s: RenderingState, numeral: real -> string)
    ensures ApplyLine(t, DensityLine(s, numeral)) == t.(displacementDensity := s.displacementDensity)
  {
  }

  lemma MagnitudeLineLoads(t: RenderingState, s: RenderingState, numeral: real -> string)
    ensures ApplyLine(t, MagnitudeLine(s, numeral)) == t.(displacementMagnitude := s.displacementMagnitude)
  {
  }

  lemma AaLineLoads(t: RenderingState, s: RenderingState)
    ensures ApplyLine(t, AaLine(s)) == t.(aaMode := s.aaMode)
  {
    ModeCharsRoundTrip(s.aaMode, s.aaMode, s.tonemapMode, s.tonemapMode);
  }

  lemma TonemapLineLoads(t: RenderingState, s: RenderingState)
    ensures ApplyLine(t, TonemapLine(s)) == t.(tonemapMode := s.tonemapMode)
  {
    ModeCharsRoundTrip(s.aaMode, s.aaMode, s.tonemapMode, s.tonemapMode);
  }

  lemma CameraPositionLineLoads(t: RenderingState, s: RenderingState, numeral: real -> string)
    ensures ApplyLine(t, CameraPositionLine(s, numeral)) == t.(cameraPosWorld := s.cameraPosWorld)
  {
  }

  lemma CameraYawLineLoads(t: RenderingState, s: RenderingState, numeral: real -> string)
    ensures ApplyLine(t, CameraYawLine(s, numeral)) == t.(cameraYawDegrees := s.cameraYawDegrees)
  {
  }

  lemma CameraPitchLineLoads(t: RenderingState, s: RenderingState, numeral: real -> string)
    ensures ApplyLine(t, CameraPitchLine(s, numeral)) == t.(cameraPitchDegrees := s.cameraPitchDegrees)
  {
  }

  lemma AmbientLineLoads(t: RenderingState, s: RenderingState, numeral: real -> string)
    ensures ApplyLine(t, AmbientLine(s, numeral)) == t.(ambientHDR := s.ambientHDR)
  {
  }

  lemma ShadowLightsLineLoads(t: RenderingState, s: RenderingState, numeral: real -> string)
    requires s.shadowLights < U32Modulus
    ensures ApplyLine(t, ShadowLightsLine(s, numeral)) == t.(shadowLights := s.shadowLights)
  {
    TruncateWhole(s.shadowLights);
  }

  lemma ShadowResolutionLineLoads(t: RenderingState, s: RenderingState, numeral: real -> string)
    requires s.shadowResolution < U32Modulus
    ensures ApplyLine(t, ShadowResolutionLine(s, numeral)) == t.(shadowResolution := s.shadowResolution)
  {
    TruncateWhole(s.shadowResolution);
  }

  lemma ShadowDepthBiasLineLoads(t: RenderingState, s: RenderingState, numeral: real -> string)
    ensures ApplyLine(t, ShadowDepthBiasLine(s, numeral)) == t.(shadowDepthBias := s.shadowDepthBias)
  {
    TruncateWhole(s.shadowDepthBias);
  }

  lemma ShadowSlopeBiasLineLoads(t: RenderingState, s: RenderingState, numeral: real -> string)
    ensures ApplyLine(t, ShadowSlopeBiasLine(s, numeral)) == t.(shadowSSDepthBias := s.shadowSSDepthBias)
  {
  }

  /** Loading one more line after a list of lines. */
  lemma ApplyLinesSnoc(t: RenderingState, lines: seq<Line>, line: Line)
    ensures ApplyLines(t, lines + [line]) == ApplyLine(ApplyLines(t, lines), line)
  {
    ApplyLinesConcat(t, lines, [line]);
    var u := ApplyLines(t, lines);
    assert ApplyLines(u, [line]) == ApplyLines(ApplyLine(u, line), []);
  }

  lemma ScaleLinesLoad(t: RenderingState, s: RenderingState, numeral: real -> string)
    ensures ApplyLines(t, ScaleLines(s, numeral)) == t.(vrScale := s.vrScale)
  {
    var a := VrScaleLine(s, numeral);
    ApplyLinesSnoc(t, [], a);
    ApplyLinesSnoc(t, [a], []);
    VrScaleLineLoads(t, s, numeral);
    CommentLineIsInert(t.(vrScale := s.vrScale), []);
  }

  lemma DisplacementLinesLoad(t: RenderingState, s: RenderingState, numeral: real -> string)
    ensures ApplyLines(t, DisplacementLines(s, numeral)) ==
            t.(displacementDensity := s.displacementDensity, displacementMagnitude := s.displacementMagnitude)
  {
    var a, b := DensityLine(s, numeral), MagnitudeLine(s, numeral);
    ApplyLinesSnoc(t, [], a);
    ApplyLinesSnoc(t, [a], b);
    ApplyLinesSnoc(t, [a, b], []);
    var t1 := t.(displacementDensity := s.displacementDensity);
    DensityLineLoads(t, s, numeral);
    MagnitudeLineLoads(t1, s, numeral);
    CommentLineIsInert(t1.(displacementMagnitude := s.displacementMagnitude), []);
  }

  lemma ModeLinesLoad(t: RenderingState, s: RenderingState)
    ensures ApplyLines(t, ModeLines(s)) == t.(aaMode := s.aaMode, tonemapMode := s.tonemapMode)
  {
    var a, b := AaLine(s), TonemapLine(s);
    ApplyLinesSnoc(t, [], a);
    ApplyLinesSnoc(t, [a], b);
    ApplyLinesSnoc(t, [a, b], []);
    var t1 := t.(aaMode := s.aaMode);
    AaLineLoads(t, s);
    TonemapLineLoads(t1, s);
    CommentLineIsInert(t1.(tonemapMode := s.tonemapMode), []);
  }

  lemma CameraLinesLoad(t: RenderingState, s: RenderingState, numeral: real -> string)
    ensures ApplyLines(t, CameraLines(s, numeral)) ==
            t.(cameraPosWorld := s.cameraPosWorld, cameraYawDegrees := s.cameraYawDegrees,
               cameraPitchDegrees := s.cameraPitchDegrees)
  {
    var a, b, c := CameraPositionLine(s, numeral), CameraYawLine(s, numeral), CameraPitchLine(s, numeral);
    ApplyLinesSnoc(t, [], a);
    ApplyLinesSnoc(t, [a], b);
    ApplyLinesSnoc(t, [a, b], c);
    ApplyLinesSnoc(t, [a, b, c], []);
    assert [a, b] + [c] == [a, b, c] && [a, b, c] + [[]] == CameraLines(s, numeral);
    var t1 := t.(cameraPosWorld := s.cameraPosWorld);
    var t2 := t1.(cameraYawDegrees := s.cameraYawDegrees);
    CameraPositionLineLoads(t, s, numeral);
    CameraYawLineLoads(t1, s, numeral);
    CameraPitchLineLoads(t2, s, numeral);
    CommentLineIsInert(t2.(cameraPitchDegrees := s.cameraPitchDegrees), []);
  }

  lemma AmbientLinesLoad(t: RenderingState, s: RenderingState, numeral: real -> string)
    ensures ApplyLines(t, AmbientLines(s, numeral)) == t.(ambientHDR := s.ambientHDR)
  {
    var a := AmbientLine(s, numeral);
    ApplyLinesSnoc(t, [], a);
    ApplyLinesSnoc(t, [a], []);
    AmbientLineLoads(t, s, numeral);
    CommentLineIsInert(t.(ambientHDR := s.ambientHDR), []);
  }

  lemma ShadowLinesLoad(t: RenderingState, s: RenderingState, numeral: real -> string)
    requires s.shadowLights < U32Modulus && s.shadowResolution < U32Modulus
    ensures ApplyLines(t, ShadowLines(s, numeral)) ==
            t.(shadowLights := s.shadowLights, shadowResolution := s.shadowResolution,
               shadowDepthBias := s.shadowDepthBias, shadowSSDepthBias := s.shadowSSDepthBias)
  {
    var a, b := ShadowLightsLine(s, numeral), ShadowResolutionLine(s, numeral);
    var c, d := ShadowDepthBiasLine(s, numeral), ShadowSlopeBiasLine(s, numeral);
    ApplyLinesSnoc(t, [], a);
    ApplyLinesSnoc(t, [a], b);
    ApplyLinesSnoc(t, [a, b], c);
    ApplyLinesSnoc(t, [a, b, c], d);
    assert [a, b] + [c] == [a, b, c] && [a, b, c] + [d] == ShadowLines(s, numeral);
    var t1 := t.(shadowLights := s.shadowLights);
    var t2 := t1.(shadowResolution := s.shadowResolution);
    var t3 := t2.(shadowDepthBias := s.shadowDepthBias);
    ShadowLightsLineLoads(t, s, numeral);
    ShadowResolutionLineLoads(t1, s, numeral);
    ShadowDepthBiasLineLoads(t2, s, numeral);
    ShadowSlopeBiasLineLoads(t3, s, numeral);
  }

  /** Loading the settings lines sets every scalar field to the value that was saved and
      leaves the names and the lights alone. */
  lemma SettingsRoundTrip(t: RenderingState, s: RenderingState, numeral: real -> string)
    requires s.shadowLights < U32Modulus && s.shadowResolution < U32Modulus
    ensures ApplyLines(t, SettingsLines(s, numeral)) ==
            s.(svbrdfName := t.svbrdfName, meshName := t.meshName, lights := t.lights)
  {
    var g1, g2, g3 := ScaleLines(s, numeral), DisplacementLines(s, numeral), ModeLines(s);
    var g4, g5, g6 := CameraLines(s, numeral), AmbientLines(s, numeral), ShadowLines(s, numeral);
    ApplyLinesConcat(t, g1, g2);
    ApplyLinesConcat(t, g1 + g2, g3);
    ApplyLinesConcat(t, g1 + g2 + g3, g4);
    ApplyLinesConcat(t, g1 + g2 + g3 + g4, g5);
    ApplyLinesConcat(t, g1 + g2 + g3 + g4 + g5, g6);
    ScaleLinesLoad(t, s, numeral);
    var t1 := ApplyLines(t, g1);
    DisplacementLinesLoad(t1, s, numeral);
    var t2 := ApplyLines(t1, g2);
    ModeLinesLoad(t2, s);
    var t3 := ApplyLines(t2, g3);
    CameraLinesLoad(t3, s, numeral);
    var t4 := ApplyLines(t3, g4);
    AmbientLinesLoad(t4, s, numeral);
    var t5 := ApplyLines(t4, g5);
    ShadowLinesLoad(t5, s, numeral);
  }

  /** A `light` line on its own appends a zero light. */
  lemma LightOpenLoads(t: RenderingState)
    ensures ApplyLine(t, [Word("light")]) == t.(lights := t.lights + [ZeroLight])
  {
    assert [Word("light")][0].text[..5] == "light";
  }

  lemma LightPositionLoads(t: RenderingState, l: Light, numeral: real -> string)
    requires |t.lights| > 0
    ensures var last := t.lights[|t.lights| - 1];
            ApplyLine(t, LightPositionLine(l, numeral)) == t.(lights := WithLast(t.lights, last.(positionWorld := l.positionWorld)))
  {
  }

  lemma LightFalloffLoads(t: RenderingState, l: Light, numeral: real -> string)
    requires |t.lights| > 0
    ensures var last := t.lights[|t.lights| - 1];
            ApplyLine(t, LightFalloffLine(l, numeral)) == t.(lights := WithLast(t.lights, last.(falloffMultiplier := l.falloffMultiplier)))
  {
  }

  lemma LightColorLoads(t: RenderingState, l: Light, numeral: real -> string)
    requires |t.lights| > 0
    ensures var last := t.lights[|t.lights| - 1];
            ApplyLine(t, LightColorLine(l, numeral)) == t.(lights := WithLast(t.lights, last.(colorHDR := l.colorHDR)))
  {
  }

  /** The five lines of a light append that light. */
  lemma LightBlockLoads(t: RenderingState, l: Light, numeral: real -> string)
    ensures ApplyLines(t, LightBlock(l, numeral)) == t.(lights := t.lights + [l])
  {
    var b, c, d, e := [Word("light")], LightPositionLine(l, numeral), LightFalloffLine(l, numeral), LightColorLine(l, numeral);
    ApplyLinesSnoc(t, [], []);
    ApplyLinesSnoc(t, [[]], b);
    ApplyLinesSnoc(t, [[], b], c);
    ApplyLinesSnoc(t, [[], b, c], d);
    ApplyLinesSnoc(t, [[], b, c, d], e);
    assert [[]] + [b] == [[], b] && [[], b] + [c] == [[], b, c] && [[], b, c] + [d] == [[], b, c, d];
    assert [[], b, c, d] + [e] == LightBlock(l, numeral);
    CommentLineIsInert(t, []);
    LightOpenLoads(t);
    var l1 := ZeroLight.(positionWorld := l.positionWorld);
    var l2 := l1.(falloffMultiplier := l.falloffMultiplier);
    var t1 := t.(lights := t.lights + [ZeroLight]);
    var t2 := t.(lights := t.lights + [l1]);
    var t3 := t.(lights := t.lights + [l2]);
    LightPositionLoads(t1, l, numeral);
    assert WithLast(t1.lights, ZeroLight.(positionWorld := l.positionWorld)) == t2.lights;
    LightFalloffLoads(t2, l, numeral);
    assert WithLast(t2.lights, l1.(falloffMultiplier := l.falloffMultiplier)) == t3.lights;
    LightColorLoads(t3, l, numeral);
    assert WithLast(t3.lights, l2.(colorHDR := l.colorHDR)) == t.lights + [l];
  }

  /** The light blocks of a list of lights append the lights in order. */
  lemma {:induction false} LightLinesLoad(t: RenderingState, lights: seq<Light>, numeral: real -> string)
    ensures ApplyLines(t, LightLines(lights, numeral)) == t.(lights := t.lights + lights)
    decreases |lights|
  {
    if |lights| == 0 {
      assert t.lights + lights == t.lights;
    } else {
      ApplyLinesConcat(t, LightBlock(lights[0], numeral), LightLines(lights[1..], numeral));
      LightBlockLoads(t, lights[0], numeral);
      var t1 := t.(lights := t.lights + [lights[0]]);
      LightLinesLoad(t1, lights[1..], numeral);
      assert t1.lights + lights[1..] == t.lights + lights;
    }
  }

  /** The lines after the header load every other field of a saveable state. */
  lemma BodyRoundTrip(t: RenderingState, s: RenderingState, numeral: real -> string)
    requires t.lights == [] && s.shadowLights < U32Modulus && s.shadowResolution < U32Modulus
    ensures ApplyLines(t, SettingsLines(s, numeral) + LightLines(s.lights, numeral)) ==
            s.(svbrdfName := t.svbrdfName, meshName := t.meshName)
  {
    ApplyLinesConcat(t, SettingsLines(s, numeral), LightLines(s.lights, numeral));
    SettingsRoundTrip(t, s, numeral);
    var t1 := s.(svbrdfName := t.svbrdfName, meshName := t.meshName, lights := []);
    LightLinesLoad(t1, s.lights, numeral);
    assert [] + s.lights == s.lights;
  }

  /** Loading what `save` wrote gives back the saved state, for every state a preset can
      carry. */
  lemma SaveRoundTrip(s: RenderingState, numeral: real -> string)
    requires Saveable(s)
    ensures Load(Save(s, numeral)) == s
  {
    var header := HeaderLines(s, SvbrdfLine(s.svbrdfName));
    var body := SettingsLines(s, numeral) + LightLines(s.lights, numeral);
    assert Save(s, numeral) == header + body;
    ApplyLinesConcat(LoadStart(), header, body);
    HeaderRoundTrip(LoadStart(), s);
    BodyRoundTrip(LoadStart().(svbrdfName := s.svbrdfName, meshName := s.meshName), s, numeral);
  }

  /** `save` as written loses an empty material name: the preset reads back with the name `#`,
      and otherwise as saved. */
  lemma SaveAsWrittenRoundTrip(s: RenderingState, numeral: real -> string)
    requires Saveable(s)
    ensures Load(SaveAsWritten(s, numeral)) == s.(svbrdfName := if s.svbrdfName == "" then "#" else s.svbrdfName)
  {
    var header := HeaderLines(s, SvbrdfLineAsWritten(s.svbrdfName));
    var body := SettingsLines(s, numeral) + LightLines(s.lights, numeral);
    assert SaveAsWritten(s, numeral) == header + body;
    ApplyLinesConcat(LoadStart(), header, body);
    HeaderAsWrittenRoundTrip(LoadStart(), s);
    var name := if s.svbrdfName == "" then "#" else s.svbrdfName;
    BodyRoundTrip(LoadStart().(svbrdfName := name, meshName := s.meshName), s, numeral);
  }

  /** The default state, which has no material yet, does not survive `save` as written. */
  lemma DefaultStateLosesNameAsWritten(numeral: real -> string)
    ensures Load(SaveAsWritten(DefaultState(), numeral)).svbrdfName == "#"
    ensures Load(Save(DefaultState(), numeral)) == DefaultState()
  {
    SaveAsWrittenRoundTrip(DefaultState(), numeral);
    SaveRoundTrip(DefaultState(), numeral);
  }
}

=== FILE: utils.dfy ===
/** Integer, string and keyboard helpers of the viewer (Utils.hpp and Utils.cpp). */
module Utils {
  import opened Wrappers

  // ---------------------------------------------------------------------------
  // Sizes

  /** `sizeBytes`: the byte size of a container of elements of `elementBytes` bytes each. */
  function SizeBytes<T>(t: seq<T>, elementBytes: nat): (r: nat)
  {
    |t| * elementBytes
  }

  // ---------------------------------------------------------------------------
  // Unsigned integer helpers

  const U32Modulus: int := 0x1_0000_0000

  /** `divRoundUp` on `uint32_t`: the sum `x + y - 1` is taken modulo 2^32 before dividing. */
  function DivRoundUp(x: nat, y: nat): (r: nat)
    requires x < U32Modulus && 0 < y < U32Modulus
    ensures x + y - 1 < U32Modulus ==> r * y >= x && (r - 1) * y < x
    ensures x + y - 1 >= U32Modulus ==> r * y < x
  {
    var sum := (x + y - 1) % U32Modulus;
    var q := sum / y;
    DivRoundUpBounds(x, y, sum, q);
    q
  }

  lemma DivRoundUpBounds(x: nat, y: nat, sum: nat, q: nat)
    requires 0 < y < U32Modulus && x < U32Modulus
    requires sum == (x + y - 1) % U32Modulus && q == sum / y
    ensures x + y - 1 < U32Modulus ==> q * y >= x && (q - 1) * y < x
    ensures x + y - 1 >= U32Modulus ==> q * y < x
  {
    DivisionBounds(sum, y);
    if x + y - 1 < U32Modulus {
      assert sum == x + y - 1;
      assert (q - 1) * y == q * y - y;
    } else {
      assert sum == x + y - 1 - U32Modulus;
    }
  }

  /** The two inequalities that pin down a Euclidean quotient. */
  lemma DivisionBounds(a: nat, y: nat)
    requires y > 0
    ensures (a / y) * y <= a < (a / y) * y + y
  {
    assert a == (a / y) * y + a % y;
  }

  predicate IsPowerOfTwo(v: bv64)
  {
    v != 0 && v & (v - 1) == 0
  }

  /** A run of one bits from bit 0 upwards, possibly empty: 2^k - 1 for some k. */
  predicate IsLowMask(m: bv64)
  {
    m & (m + 1) == 0
  }

  /** The middle of `roundUpToPowerOf2`: every bit below the highest set bit is set. */
  function SmearRight(a: bv64): bv64
  {
    var b := a | (a >> 1);
    var c := b | (b >> 2);
    var d := c | (c >> 4);
    var e := d | (d >> 8);
    var f := e | (e >> 16);
    f | (f >> 32)
  }

  /** `roundUpToPowerOf2` on `uint64_t`: decrement, smear the top bit downwards, increment.
      Both the decrement of 0 and the increment past 2^64 - 1 wrap. */
  function RoundUpToPowerOf2(v: bv64): bv64
  {
    SmearRight(v - 1) + 1
  }

  lemma SmearIsLowMask(a: bv64)
    ensures IsLowMask(SmearRight(a))
  {
  }

  lemma SmearCovers(a: bv64)
    ensures a <= SmearRight(a)
  {
  }

  lemma SmearIsLeastCover(a: bv64, m: bv64)
    requires IsLowMask(m) && a <= m
    ensures SmearRight(a) <= m
  {
  }

  lemma SmearKeepsLowMask(m: bv64)
    requires IsLowMask(m)
    ensures SmearRight(m) == m
  {
  }

  lemma SmearBelowTopBit(a: bv64)
    ensures a < 0x8000_0000_0000_0000 ==> SmearRight(a) < 0x8000_0000_0000_0000
    ensures a >= 0x8000_0000_0000_0000 ==> SmearRight(a) == 0xFFFF_FFFF_FFFF_FFFF
  {
  }

  lemma LowMaskSuccessor(m: bv64)
    requires IsLowMask(m) && m != 0xFFFF_FFFF_FFFF_FFFF
    ensures IsPowerOfTwo(m + 1) && (m + 1) - 1 == m
  {
  }

  lemma PowerOfTwoPredecessor(p: bv64)
    requires IsPowerOfTwo(p)
    ensures IsLowMask(p - 1)
  {
  }

  /** For 1 <= v <= 2^63 the result is a power of two r with v <= r, written v - 1 <= r - 1
      so that neither side can wrap. */
  lemma RoundUpIsPowerOfTwoAbove(v: bv64)
    requires 1 <= v <= 0x8000_0000_0000_0000
    ensures IsPowerOfTwo(RoundUpToPowerOf2(v))
    ensures v - 1 <= RoundUpToPowerOf2(v) - 1
  {
    SmearIsLowMask(v - 1);
    SmearCovers(v - 1);
    SmearBelowTopBit(v - 1);
    LowMaskSuccessor(SmearRight(v - 1));
  }

  /** No power of two p >= v is smaller than the result: it is the least one. */
  lemma RoundUpIsLeastPowerOfTwo(v: bv64, p: bv64)
    requires 1 <= v
    requires IsPowerOfTwo(p) && v - 1 <= p - 1
    ensures RoundUpToPowerOf2(v) - 1 <= p - 1
  {
    PowerOfTwoPredecessor(p);
    SmearIsLeastCover(v - 1, p - 1);
    SmearIsLowMask(v - 1);
    SmearBelowTopBit(v - 1);
    LowMaskSuccessor(SmearRight(v - 1));
  }

  /** Powers of two are left unchanged. */
  lemma RoundUpKeepsPowersOfTwo(v: bv64)
    requires IsPowerOfTwo(v)
    ensures RoundUpToPowerOf2(v) == v
  {
    PowerOfTwoPredecessor(v);
    SmearKeepsLowMask(v - 1);
  }

  /** 0 and every value above 2^63 wrap around to 0. */
  lemma RoundUpWrapsToZero(v: bv64)
    requires v == 0 || v > 0x8000_0000_0000_0000
    ensures RoundUpToPowerOf2(v) == 0
  {
    SmearBelowTopBit(v - 1);
  }

  // ---------------------------------------------------------------------------
  // Euclidean division facts shared by the index computations

  /** Adding the period does not change a remainder. */
  lemma ModAddPeriod(a: int, d: int)
    requires d > 0
    ensures (a + d) % d == a % d
  {
    var q := a / d;
    var r := a % d;
    assert a == d * q + r;
    assert a + d == d * (q + 1) + r;
    DivModUnique(a + d, d, q + 1, r);
  }

  /** A quotient and remainder within range are the Euclidean ones. */
  lemma DivModUnique(n: int, d: int, q: int, r: int)
    requires d > 0 && 0 <= r < d && n == d * q + r
    ensures n / d == q && n % d == r
  {
    assert n == d * (n / d) + n % d;
    assert d * (n / d - q) == r - n % d;
    SmallMultiple(d, n / d - q);
  }

  /** The only multiple of d strictly between -d and d is 0. */
  lemma SmallMultiple(d: int, k: int)
    requires d > 0 && -d < d * k < d
    ensures k == 0
  {
    if k >= 1 {
      MultiplyMonotone(1, k, d);
      assert false;
    }
  }

  lemma DivModOf(q: nat, d: nat, r: nat)
    requires r < d
    ensures (q * d + r) / d == q && (q * d + r) % d == r
  {
    DivModUnique(q * d + r, d, q, r);
  }

  lemma MultiplyMonotone(a: nat, b: nat, c: nat)
    requires a <= b
    ensures a * c <= b * c
  {
  }

  /** A quotient stays below m when the dividend stays below m whole divisors. */
  lemma QuotientBelow(t: nat, d: nat, m: nat)
    requires d > 0 && t < d * m
    ensures t / d < m
  {
    var q := t / d;
    assert d * q <= t;
    if m <= q {
      MultiplyMonotone(m, q, d);
    }
  }

  lemma ModSuccessor(a: nat, count: nat)
    requires count > 0
    ensures (a % count + 1) % count == (a + 1) % count
  {
    var q := a / count;
    var r := a % count;
    assert a == count * q + r;
    if r + 1 < count {
      DivModUnique(a + 1, count, q, r + 1);
      DivModUnique(r + 1, count, 0, r + 1);
    } else {
      DivModUnique(a + 1, count, q + 1, 0);
      DivModUnique(r + 1, count, 1, 0);
    }
  }

  // ---------------------------------------------------------------------------
  // join

  /** `join`: the parts in order with the separator between neighbours. */
  function Join(parts: seq<string>, sep: string): (r: string)
    decreases |parts|
  {
    if |parts| == 0 then ""
    else if |parts| == 1 then parts[0]
    else Join(parts[..|parts| - 1], sep) + sep + parts[|parts| - 1]
  }

  /** `join` as the source writes it: the first part, then a separator and a part for each
      further one. */
  method JoinByLoop(parts: seq<string>, sep: string) returns (s: string)
    ensures s == Join(parts, sep)
  {
    if |parts| == 0 {
      return "";
    }
    s := parts[0];
    var i := 1;
    while i < |parts|
      invariant 1 <= i <= |parts|
      invariant s == Join(parts[..i], sep)
    {
      assert parts[..i + 1][..i] == parts[..i];
      s := s + sep + parts[i];
      i := i + 1;
    }
    assert parts[..|parts|] == parts;
  }

  /** The total number of characters in a list of strings. */
  function TotalLength(parts: seq<string>): (n: nat)
    decreases |parts|
  {
    if |parts| == 0 then 0 else TotalLength(parts[..|parts| - 1]) + |parts[|parts| - 1]|
  }

  /** A join of n >= 1 parts holds every character of the parts plus exactly n - 1 separators. */
  lemma {:induction false} JoinLength(parts: seq<string>, sep: string)
    requires |parts| >= 1
    ensures |Join(parts, sep)| == TotalLength(parts) + (|parts| - 1) * |sep|
    decreases |parts|
  {
    if |parts| > 1 {
      var init := parts[..|parts| - 1];
      JoinLength(init, sep);
      assert TotalLength(parts) == TotalLength(init) + |parts[|parts| - 1]|;
      assert (|parts| - 1) * |sep| == (|init| - 1) * |sep| + |sep|;
    }
  }

  // ---------------------------------------------------------------------------
  // std::string searching

  /** The first index at or after `from` holding one of `chars` (`find_first_of`). */
  function FindFirstOf(s: string, chars: string, from: nat): (r: Option<nat>)
    requires from <= |s|
    ensures r.Some? ==> from <= r.value < |s| && s[r.value] in chars
    ensures r.Some? ==> forall k :: from <= k < r.value ==> s[k] !in chars
    ensures r.None? ==> forall k :: from <= k < |s| ==> s[k] !in chars
    decreases |s| - from
  {
    if from == |s| then None
    else if s[from] in chars then Some(from)
    else FindFirstOf(s, chars, from + 1)
  }

  /** The first index at or after `from` holding none of `chars` (`find_first_not_of`). */
  function FindFirstNotOf(s: string, chars: string, from: nat): (r: Option<nat>)
    requires from <= |s|
    ensures r.Some? ==> from <= r.value < |s| && s[r.value] !in chars
    ensures r.Some? ==> forall k :: from <= k < r.value ==> s[k] in chars
    ensures r.None? ==> forall k :: from <= k < |s| ==> s[k] in chars
    decreases |s| - from
  {
    if from == |s| then None
    else if s[from] !in chars then Some(from)
    else FindFirstNotOf(s, chars, from + 1)
  }

  predicate OccursAt(s: string, pat: string, k: nat)
  {
    k + |pat| <= |s| && s[k..k + |pat|] == pat
  }

  /** The first index at or after `from` where `pat` occurs (`find`). */
  function Find(s: string, pat: string, from: nat): (r: Option<nat>)
    requires from <= |s|
    ensures r.Some? ==> from <= r.value && r.value + |pat| <= |s|
    decreases |s| - from
  {
    if from + |pat| > |s| then None
    else if s[from..from + |pat|] == pat then Some(from)
    else Find(s, pat, from + 1)
  }

  /** `Find` returns an occurrence, and no occurrence lies between `from` and it. */
  lemma {:induction false} FindIsFirst(s: string, pat: string, from: nat)
    requires from <= |s|
    ensures var r := Find(s, pat, from);
            (r.Some? ==> OccursAt(s, pat, r.value)) &&
            (r.Some? ==> forall k: nat :: from <= k < r.value ==> !OccursAt(s, pat, k)) &&
            (r.None? ==> forall k: nat :: from <= k ==> !OccursAt(s, pat, k))
    decreases |s| - from
  {
    if from + |pat| <= |s| && s[from..from + |pat|] != pat {
      FindIsFirst(s, pat, from + 1);
    }
  }

  function Shift(r: Option<nat>, offset: nat): Option<nat>
  {
    if r.None? then None else Some(r.value + offset)
  }

  /** The value a shifted result was shifted from. */
  lemma ShiftedValue(r: Option<nat>, offset: nat) returns (v: nat)
    requires Shift(r, offset).Some?
    ensures r == Some(v) && Shift(r, offset).value == v + offset
  {
    v := r.value;
  }

  /** Searching the tail of `d + t` finds what searching `t` finds, moved by |d|. */
  lemma {:induction false} FindInSuffix(d: string, t: string, pat: string, k: nat)
    requires k <= |t|
    ensures Find(d + t, pat, |d| + k) == Shift(Find(t, pat, k), |d|)
    decreases |t| - k
  {
    var s := d + t;
    if |d| + k + |pat| <= |s| {
      assert s[|d| + k..|d| + k + |pat|] == t[k..k + |pat|];
      if t[k..k + |pat|] != pat {
        FindInSuffix(d, t, pat, k + 1);
      }
    }
  }

  // ---------------------------------------------------------------------------
  // replaceAll

  predicate StartsWith(s: string, pat: string)
  {
    |pat| <= |s| && s[..|pat|] == pat
  }

  /** Reference definition: scanning left to right, an occurrence of `pat` becomes `w` and the
      scan resumes after it; any other character is kept. Occurrences never overlap and the
      inserted text is never scanned again. */
  function Replaced(s: string, pat: string, w: string): (r: string)
    requires |pat| > 0
    decreases |s|
  {
    if |s| == 0 then ""
    else if StartsWith(s, pat) then w + Replaced(s[|pat|..], pat, w)
    else [s[0]] + Replaced(s[1..], pat, w)
  }

  /** The number of occurrences `Replaced` replaces. */
  function ReplacementCount(s: string, pat: string): (n: nat)
    requires |pat| > 0
    decreases |s|
  {
    if |s| == 0 then 0
    else if StartsWith(s, pat) then 1 + ReplacementCount(s[|pat|..], pat)
    else ReplacementCount(s[1..], pat)
  }

  /** `replaceAll`: the source's loop, which searches again just after the inserted text. */
  method ReplaceAll(s0: string, pat: string, w: string) returns (s: string)
    requires |pat| > 0
    ensures s == Replaced(s0, pat, w)
  {
    s := s0;
    var pos := Find(s, pat, 0);
    ghost var done := "";
    ghost var rest := s0;
    assert s == done + rest;
    while pos.Some?
      invariant s == done + rest
      invariant done + Replaced(rest, pat, w) == Replaced(s0, pat, w)
      invariant pos == Shift(Find(rest, pat, 0), |done|)
      decreases |rest|
    {
      ghost var local := ShiftedValue(Find(rest, pat, 0), |done|);
      var p := pos.value;
      var spliced := s[..p] + w + s[p + |pat|..];
      ghost var done', rest' := done + rest[..local] + w, rest[local + |pat|..];
      var next := p + |w|;
      ReplaceTurn(s0, done, rest, pat, w, local, done', rest');
      SpliceTurn(s, done, rest, |pat|, w, local, p, spliced, done', rest');
      FindAfterSplice(spliced, done', rest', pat, next);
      pos := Find(spliced, pat, next);
      s, done, rest := spliced, done', rest';
    }
    FindIsFirst(rest, pat, 0);
    ReplacedWithoutOccurrence(rest, pat, w);
  }

  /** One turn of the `replaceAll` loop, in terms of the processed prefix `done` and the
      unprocessed rest: the occurrence `Find` reports in the rest is replaced, and what the
      reference definition makes of the rest moves into the processed prefix. */
  lemma ReplaceTurn(s0: string, done: string, rest: string, pat: string, w: string, local: nat,
                    done': string, rest': string)
    requires |pat| > 0
    requires Find(rest, pat, 0) == Some(local)
    requires done + Replaced(rest, pat, w) == Replaced(s0, pat, w)
    requires done' == done + rest[..local] + w && rest' == rest[local + |pat|..]
    ensures done' + Replaced(rest', pat, w) == Replaced(s0, pat, w)
  {
    FindIsFirst(rest, pat, 0);
    ReplacedAtFirstOccurrence(rest, pat, w, local);
    Regroup(done, rest[..local], w, Replaced(rest', pat, w));
  }

  /** The splice the loop performs, seen from `done` and `rest`: the occurrence is cut out of
      the rest and `w` joins the processed prefix. */
  lemma SpliceTurn(s: string, done: string, rest: string, n: nat, w: string, local: nat, p: nat,
                   spliced: string, done': string, rest': string)
    requires s == done + rest
    requires local + n <= |rest| && p == |done| + local
    requires spliced == s[..p] + w + s[p + n..]
    requires done' == done + rest[..local] + w && rest' == rest[local + n..]
    ensures spliced == done' + rest'
  {
    assert s[..p] == done + rest[..local];
    assert s[p + n..] == rest[local + n..];
  }

  /** After the splice the search resumes just past `w`, which is where the rest begins. */
  lemma FindAfterSplice(spliced: string, done': string, rest': string, pat: string, next: nat)
    requires spliced == done' + rest' && next == |done'|
    ensures Find(spliced, pat, next) == Shift(Find(rest', pat, 0), |done'|)
  {
    FindInSuffix(done', rest', pat, 0);
  }

  lemma Regroup(a: string, b: string, c: string, d: string)
    ensures (a + b + c) + d == a + (b + c + d)
  {
  }

  /** An occurrence in the tail of s is an occurrence in s, one position later. */
  lemma OccursAtTail(s: string, pat: string, k: nat)
    requires |s| > 0
    ensures OccursAt(s[1..], pat, k) == OccursAt(s, pat, k + 1)
    ensures OccursAt(s, pat, 0) == StartsWith(s, pat)
  {
    if k + 1 + |pat| <= |s| {
      assert s[1..][k..k + |pat|] == s[k + 1..k + 1 + |pat|];
    }
  }

  /** Characters before the first occurrence are kept as they are. */
  lemma {:induction false} ReplacedKeepsPrefix(s: string, pat: string, w: string, n: nat)
    requires |pat| > 0 && n <= |s|
    requires forall k: nat :: k < n ==> !OccursAt(s, pat, k)
    ensures Replaced(s, pat, w) == s[..n] + Replaced(s[n..], pat, w)
    decreases n
  {
    if n > 0 {
      OccursAtTail(s, pat, 0);
      assert !OccursAt(s, pat, 0);
      forall k: nat | k < n - 1
        ensures !OccursAt(s[1..], pat, k)
      {
        OccursAtTail(s, pat, k);
      }
      ReplacedKeepsPrefix(s[1..], pat, w, n - 1);
      assert s[1..][n - 1..] == s[n..];
      assert s[..n] == [s[0]] + s[1..][..n - 1];
    }
  }

  /** At the first occurrence the pattern is replaced and the scan resumes after it. */
  lemma ReplacedAtFirstOccurrence(s: string, pat: string, w: string, p: nat)
    requires |pat| > 0
    requires OccursAt(s, pat, p)
    requires forall k: nat :: k < p ==> !OccursAt(s, pat, k)
    ensures Replaced(s, pat, w) == s[..p] + w + Replaced(s[p + |pat|..], pat, w)
  {
    ReplacedKeepsPrefix(s, pat, w, p);
    var t := s[p..];
    assert StartsWith(t, pat) by {
      assert t[..|pat|] == s[p..p + |pat|];
    }
    assert t[|pat|..] == s[p + |pat|..];
    assert Replaced(t, pat, w) == w + Replaced(s[p + |pat|..], pat, w);
    Regroup3(s[..p], w, Replaced(s[p + |pat|..], pat, w));
  }

  lemma Regroup3(a: string, b: string, c: string)
    ensures a + (b + c) == a + b + c
  {
  }

  /** A string without an occurrence of the pattern is returned unchanged. */
  lemma ReplacedWithoutOccurrence(s: string, pat: string, w: string)
    requires |pat| > 0
    requires forall k: nat :: !OccursAt(s, pat, k)
    ensures Replaced(s, pat, w) == s
  {
    ReplacedKeepsPrefix(s, pat, w, |s|);
    assert s[..|s|] == s;
  }

  /** Each replacement changes the length by |w| - |pat|. */
  lemma {:induction false} ReplacedLength(s: string, pat: string, w: string)
    requires |pat| > 0
    ensures |Replaced(s, pat, w)| == |s| + ReplacementCount(s, pat) * (|w| - |pat|)
    decreases |s|
  {
    if |s| > 0 {
      if StartsWith(s, pat) {
        var t := s[|pat|..];
        ReplacedLength(t, pat, w);
        MultiplySuccessor(ReplacementCount(t, pat), |w| - |pat|);
      } else {
        ReplacedLength(s[1..], pat, w);
      }
    }
  }

  lemma MultiplySuccessor(c: int, d: int)
    ensures (1 + c) * d == c * d + d
  {
  }

  /** Replacing a one-character pattern by text free of that character leaves none of it behind. */
  lemma {:induction false} ReplacedRemovesChar(s: string, c: char, w: string)
    requires c !in w
    ensures c !in Replaced(s, [c], w)
    decreases |s|
  {
    if |s| > 0 {
      if StartsWith(s, [c]) {
        ReplacedRemovesChar(s[1..], c, w);
      } else {
        assert s[..1] == [s[0]];
        ReplacedRemovesChar(s[1..], c, w);
      }
    }
  }

  /** Replacing one character by another is the character-wise substitution. */
  lemma {:induction false} ReplacedCharIsMap(s: string, a: char, b: char)
    ensures Replaced(s, [a], [b]) == Substitute(s, a, b)
    decreases |s|
  {
    if |s| > 0 {
      assert s[..1] == [s[0]];
      ReplacedCharIsMap(s[1..], a, b);
      assert Substitute(s, a, b) == Substitute([s[0]], a, b) + Substitute(s[1..], a, b) by {
        assert s == [s[0]] + s[1..];
        SubstituteAppend([s[0]], s[1..], a, b);
      }
    }
  }

  /** Every `a` in s turned into `b`. */
  function Substitute(s: string, a: char, b: char): (r: string)
  {
    seq(|s|, k requires 0 <= k < |s| => if s[k] == a then b else s[k])
  }

  lemma SubstituteAppend(x: string, y: string, a: char, b: char)
    ensures Substitute(x + y, a, b) == Substitute(x, a, b) + Substitute(y, a, b)
  {
  }

  // ---------------------------------------------------------------------------
  // tokenize

  /** The length of the leading run of non-delimiter characters. */
  function RunLength(s: string, delims: string): (n: nat)
    ensures n <= |s|
    ensures forall k :: 0 <= k < n ==> s[k] !in delims
    ensures n < |s| ==> s[n] in delims
    decreases |s|
  {
    if |s| == 0 || s[0] in delims then 0 else 1 + RunLength(s[1..], delims)
  }

  /** The maximal runs of non-delimiter characters of s, in order. */
  function Tokens(s: string, delims: string): (r: seq<string>)
    decreases |s|
  {
    if |s| == 0 then []
    else if s[0] in delims then Tokens(s[1..], delims)
    else
      var n := RunLength(s, delims);
      [s[..n]] + Tokens(s[n..], delims)
  }

  /** Every token is non-empty and free of delimiters. */
  lemma {:induction false} TokensAreWords(s: string, delims: string)
    ensures forall t :: t in Tokens(s, delims) ==> |t| > 0 && forall k :: 0 <= k < |t| ==> t[k] !in delims
    decreases |s|
  {
    if |s| > 0 {
      if s[0] in delims {
        TokensAreWords(s[1..], delims);
      } else {
        TokensAreWords(s[RunLength(s, delims)..], delims);
      }
    }
  }

  /** s with every delimiter character removed. */
  function WithoutDelimiters(s: string, delims: string): (r: string)
    decreases |s|
  {
    if |s| == 0 then ""
    else if s[0] in delims then WithoutDelimiters(s[1..], delims)
    else [s[0]] + WithoutDelimiters(s[1..], delims)
  }

  function Concat(parts: seq<string>): string
    decreases |parts|
  {
    if |parts| == 0 then "" else parts[0] + Concat(parts[1..])
  }

  lemma {:induction false} ConcatAppend(a: seq<string>, b: seq<string>)
    ensures Concat(a + b) == Concat(a) + Concat(b)
    decreases |a|
  {
    if |a| > 0 {
      assert (a + b)[1..] == a[1..] + b;
      ConcatAppend(a[1..], b);
    } else {
      assert a + b == b;
    }
  }

  lemma {:induction false} WithoutDelimitersOfRun(s: string, delims: string, n: nat)
    requires n <= |s|
    requires forall k :: 0 <= k < n ==> s[k] !in delims
    ensures WithoutDelimiters(s, delims) == s[..n] + WithoutDelimiters(s[n..], delims)
    decreases n
  {
    if n > 0 {
      var t := s[1..];
      var rest := WithoutDelimiters(s[n..], delims);
      assert WithoutDelimiters(s, delims) == [s[0]] + WithoutDelimiters(t, delims);
      assert t[n - 1..] == s[n..];
      WithoutDelimitersOfRun(t, delims, n - 1);
      assert s[..n] == [s[0]] + t[..n - 1];
      assert [s[0]] + (t[..n - 1] + rest) == ([s[0]] + t[..n - 1]) + rest;
    } else {
      assert s[..0] + s[0..] == s;
    }
  }

  /** Concatenating the tokens gives s with its delimiters removed. */
  lemma {:induction false} TokensConcat(s: string, delims: string)
    ensures Concat(Tokens(s, delims)) == WithoutDelimiters(s, delims)
    decreases |s|
  {
    if |s| > 0 {
      if s[0] in delims {
        TokensConcat(s[1..], delims);
      } else {
        var n := RunLength(s, delims);
        TokensConcat(s[n..], delims);
        WithoutDelimitersOfRun(s, delims, n);
        assert ([s[..n]] + Tokens(s[n..], delims))[1..] == Tokens(s[n..], delims);
      }
    }
  }

  /** A string made only of delimiters has no tokens. */
  lemma {:induction false} TokensOfDelimiters(s: string, delims: string)
    requires forall k :: 0 <= k < |s| ==> s[k] in delims
    ensures Tokens(s, delims) == []
    decreases |s|
  {
    if |s| > 0 {
      TokensOfDelimiters(s[1..], delims);
    }
  }

  lemma {:induction false} TokensSkipDelimiters(s: string, delims: string, n: nat)
    requires n <= |s|
    requires forall k :: 0 <= k < n ==> s[k] in delims
    ensures Tokens(s, delims) == Tokens(s[n..], delims)
    decreases n
  {
    if n > 0 {
      TokensSkipDelimiters(s[1..], delims, n - 1);
      assert s[1..][n - 1..] == s[n..];
    }
  }

  /** `tokenize`: the source's loop alternating `find_first_of` and `find_first_not_of`.
      `None` plays the part of `std::string::npos`. */
  method Tokenize(s: string, delims: string) returns (tokens: seq<string>)
    ensures tokens == Tokens(s, delims)
  {
    tokens := [];
    var pos: Option<nat> := Some(0);
    var delim := false;
    while pos.Some?
      invariant pos.Some? ==> pos.value <= |s|
      invariant pos.Some? ==> tokens + Tokens(s[pos.value..], delims) == Tokens(s, delims)
      invariant pos.Some? && delim ==> pos.value == |s| || s[pos.value] in delims
      invariant pos.None? ==> tokens == Tokens(s, delims)
      decreases if pos.None? then 0 else 2 * (|s| - pos.value) + (if delim then 1 else 2)
    {
      var p := pos.value;
      if delim {
        var next := FindFirstNotOf(s, delims, p);
        DelimiterStep(s, delims, tokens, p);
        pos := next;
      } else {
        var end := FindFirstOf(s, delims, p);
        var e := if end.None? then |s| else end.value;
        var token := s[p..e];
        TokenStep(s, delims, tokens, p, e);
        if |token| > 0 {
          tokens := tokens + [token];
        }
        pos := Some(e);
      }
      delim := !delim;
    }
  }

  /** One delimiter phase of `Tokenize` keeps its invariant. */
  lemma DelimiterStep(s: string, delims: string, tokens: seq<string>, p: nat)
    requires p <= |s| && tokens + Tokens(s[p..], delims) == Tokens(s, delims)
    ensures var next := FindFirstNotOf(s, delims, p);
            (next.None? ==> tokens == Tokens(s, delims)) &&
            (next.Some? ==> tokens + Tokens(s[next.value..], delims) == Tokens(s, delims))
  {
    DelimiterPhase(s, delims, p);
  }

  /** One token phase of `Tokenize` keeps its invariant. */
  lemma TokenStep(s: string, delims: string, tokens: seq<string>, p: nat, e: nat)
    requires p <= |s| && tokens + Tokens(s[p..], delims) == Tokens(s, delims)
    requires e == (if FindFirstOf(s, delims, p).None? then |s| else FindFirstOf(s, delims, p).value)
    ensures p <= e <= |s| && (e == |s| || s[e] in delims)
    ensures (if e > p then tokens + [s[p..e]] else tokens) + Tokens(s[e..], delims) == Tokens(s, delims)
  {
    TokenPhase(s, delims, p, e);
    if e > p {
      assert (tokens + [s[p..e]]) + Tokens(s[e..], delims) == tokens + ([s[p..e]] + Tokens(s[e..], delims));
    }
  }

  /** The token phase: the run from p up to the next delimiter is the next token, if non-empty. */
  lemma TokenPhase(s: string, delims: string, p: nat, e: nat)
    requires p <= e <= |s|
    requires forall k :: p <= k < e ==> s[k] !in delims
    requires e == |s| || s[e] in delims
    ensures e > p ==> Tokens(s[p..], delims) == [s[p..e]] + Tokens(s[e..], delims)
  {
    var rest := s[p..];
    RunLengthIs(rest, delims, e - p);
    if e > p {
      assert rest[..e - p] == s[p..e];
      assert rest[e - p..] == s[e..];
    }
  }

  /** The delimiter phase: skipping to the next non-delimiter loses no token. */
  lemma DelimiterPhase(s: string, delims: string, p: nat)
    requires p <= |s|
    ensures var next := FindFirstNotOf(s, delims, p);
            (next.None? ==> Tokens(s[p..], delims) == []) &&
            (next.Some? ==> Tokens(s[p..], delims) == Tokens(s[next.value..], delims))
  {
    var next := FindFirstNotOf(s, delims, p);
    if next.None? {
      TokensOfDelimiters(s[p..], delims);
    } else {
      TokensSkipDelimiters(s[p..], delims, next.value - p);
      assert s[p..][next.value - p..] == s[next.value..];
    }
  }

  /** A run bounded by a delimiter or the end of the string has the expected length. */
  lemma {:induction false} RunLengthIs(s: string, delims: string, n: nat)
    requires n <= |s|
    requires forall k :: 0 <= k < n ==> s[k] !in delims
    requires n == |s| || s[n] in delims
    ensures RunLength(s, delims) == n
    decreases n
  {
    if n > 0 {
      RunLengthIs(s[1..], delims, n - 1);
    }
  }

  /** Unfolding `Tokens` at a string that starts with a non-delimiter. */
  lemma TokensOfRun(s: string, delims: string, n: nat)
    requires 0 < n <= |s|
    requires forall k :: 0 <= k < n ==> s[k] !in delims
    requires n == |s| || s[n] in delims
    ensures Tokens(s, delims) == [s[..n]] + Tokens(s[n..], delims)
  {
    RunLengthIs(s, delims, n);
  }

  /** Splitting at a delimiter splits the tokens. */
  lemma {:induction false} TokensAroundDelimiter(a: string, d: char, b: string, delims: string)
    requires d in delims
    ensures Tokens(a + [d] + b, delims) == Tokens(a, delims) + Tokens(b, delims)
    decreases |a|
  {
    var s := a + [d] + b;
    if |a| == 0 {
      assert s[1..] == b;
    } else if a[0] in delims {
      assert s[1..] == a[1..] + [d] + b;
      TokensAroundDelimiter(a[1..], d, b, delims);
    } else {
      var n := RunLength(a, delims);
      FirstTokenBeforeDelimiter(a, d, b, delims, n);
      TokensAroundDelimiter(a[n..], d, b, delims);
    }
  }

  /** The first token of `a + [d] + b` is the first token of `a` when `a` starts with one. */
  lemma FirstTokenBeforeDelimiter(a: string, d: char, b: string, delims: string, n: nat)
    requires d in delims && 0 < |a| && a[0] !in delims && n == RunLength(a, delims)
    ensures Tokens(a + [d] + b, delims) == [a[..n]] + Tokens(a[n..] + [d] + b, delims)
    ensures Tokens(a, delims) == [a[..n]] + Tokens(a[n..], delims)
  {
    var s := a + [d] + b;
    assert s[n] in delims by {
      if n < |a| { assert s[n] == a[n]; } else { assert s[n] == d; }
    }
    forall k | 0 <= k < n
      ensures s[k] !in delims
    {
      assert s[k] == a[k];
    }
    TokensOfRun(s, delims, n);
    TokensOfRun(a, delims, n);
    assert s[..n] == a[..n];
    assert s[n..] == a[n..] + [d] + b;
  }

  /** A non-empty delimiter-free string is its own single token. */
  lemma TokensOfWord(w: string, delims: string)
    requires |w| > 0
    requires forall k :: 0 <= k < |w| ==> w[k] !in delims
    ensures Tokens(w, delims) == [w]
  {
    TokensOfRun(w, delims, |w|);
    assert w[..|w|] == w;
    assert w[|w|..] == [];
  }

  predicate IsWord(w: string, delims: string)
  {
    |w| > 0 && forall k :: 0 <= k < |w| ==> w[k] !in delims
  }

  /** Tokenizing a join on a delimiter gives back the parts when they are non-empty and free of delimiters. */
  lemma {:induction false} TokensOfJoin(parts: seq<string>, d: char, delims: string)
    requires d in delims
    requires forall i :: 0 <= i < |parts| ==> IsWord(parts[i], delims)
    ensures Tokens(Join(parts, [d]), delims) == parts
    decreases |parts|
  {
    if |parts| == 1 {
      TokensOfWord(parts[0], delims);
    } else if |parts| > 1 {
      var init := parts[..|parts| - 1];
      var last := parts[|parts| - 1];
      TokensOfJoin(init, d, delims);
      TokensAroundDelimiter(Join(init, [d]), d, last, delims);
      TokensOfWord(last, delims);
      assert parts == init + [last];
    }
  }

  // ---------------------------------------------------------------------------
  // splitPath

  const PathSeparators: string := "/\\"

  /** `splitPath`: backslashes become slashes, then the path is tokenized at slashes. */
  function SplitPath(path: string): (parts: seq<string>)
    ensures forall t :: t in parts ==> |t| > 0 && '/' !in t && '\\' !in t
  {
    var canonical := Replaced(path, "\\", "/");
    ReplacedRemovesChar(path, '\\', "/");
    var parts := Tokens(canonical, "/");
    TokensAreWords(canonical, "/");
    forall t | t in parts
      ensures '\\' !in t
    {
      TokenChars(canonical, "/", t);
    }
    parts
  }

  /** Every character of a token is a character of the tokenized string. */
  lemma {:induction false} TokenChars(s: string, delims: string, t: string)
    requires t in Tokens(s, delims)
    ensures forall c :: c in t ==> c in s
    decreases |s|
  {
    if s[0] in delims {
      TokenChars(s[1..], delims, t);
    } else {
      var n := RunLength(s, delims);
      if t != s[..n] {
        TokenChars(s[n..], delims, t);
      }
    }
  }

  /** The parts of a path are exactly its maximal runs free of both `/` and `\`. */
  lemma SplitPathIsMaximalRuns(path: string)
    ensures SplitPath(path) == Tokens(path, PathSeparators)
  {
    ReplacedCharIsMap(path, '\\', '/');
    TokensOfSubstitution(path);
  }

  lemma {:induction false} TokensOfSubstitution(s: string)
    ensures Tokens(Substitute(s, '\\', '/'), "/") == Tokens(s, PathSeparators)
    decreases |s|
  {
    var m := Substitute(s, '\\', '/');
    if |s| > 0 {
      assert m[1..] == Substitute(s[1..], '\\', '/');
      if s[0] in PathSeparators {
        TokensOfSubstitution(s[1..]);
      } else {
        var n := RunLength(s, PathSeparators);
        RunLengthIs(m, "/", n);
        assert m[..n] == s[..n];
        assert m[n..] == Substitute(s[n..], '\\', '/');
        TokensOfSubstitution(s[n..]);
      }
    }
  }

  /** A path written with `/` between separator-free names splits back into those names. */
  lemma SplitPathOfJoin(parts: seq<string>)
    requires forall i :: 0 <= i < |parts| ==> IsWord(parts[i], PathSeparators)
    ensures SplitPath(Join(parts, "/")) == parts
  {
    SplitPathIsMaximalRuns(Join(parts, "/"));
    TokensOfJoin(parts, '/', PathSeparators);
  }

  // ---------------------------------------------------------------------------
  // Keyboard edge detection

  const KeySlots: nat := 256

  /** The recorded "was held" flag of each of the 256 key slots. */
  datatype KeyboardState = KeyboardState(status: seq<bool>)
  {
    predicate Valid() { |status| == KeySlots }
  }

  function InitialKeyboard(): (kb: KeyboardState)
    ensures kb.Valid() && forall i :: 0 <= i < KeySlots ==> !kb.status[i]
  {
    KeyboardState(seq(KeySlots, i => false))
  }

  /** Key codes share a slot when they agree modulo 256 (`status[virtualKeyCode % 256]`). */
  function KeySlot(virtualKeyCode: nat): (slot: nat)
    ensures slot < KeySlots
  {
    virtualKeyCode % KeySlots
  }

  /** `keyHeld`: a key counts as up while another window has the focus; otherwise the
      asynchronous key state decides. The answer is recorded in the key's slot. */
  function KeyHeld(kb: KeyboardState, virtualKeyCode: nat, otherWindowFocused: bool, asyncDown: bool)
    : (r: (KeyboardState, bool))
    requires kb.Valid()
    ensures r.0.Valid()
    ensures r.1 <==> !otherWindowFocused && asyncDown
    ensures r.0.status[KeySlot(virtualKeyCode)] == r.1
    ensures forall i :: 0 <= i < KeySlots && i != KeySlot(virtualKeyCode) ==> r.0.status[i] == kb.status[i]
  {
    var held := if otherWindowFocused then false else asyncDown;
    (KeyboardState(kb.status[KeySlot(virtualKeyCode) := held]), held)
  }

  /** `keyPressed`: true exactly on the frame a key goes from up to held. */
  function KeyPressed(kb: KeyboardState, virtualKeyCode: nat, otherWindowFocused: bool, asyncDown: bool)
    : (r: (KeyboardState, bool))
    requires kb.Valid()
    ensures r.0.Valid()
    ensures r.1 <==> !kb.status[KeySlot(virtualKeyCode)] && !otherWindowFocused && asyncDown
    ensures r.0 == KeyHeld(kb, virtualKeyCode, otherWindowFocused, asyncDown).0
  {
    var wasHeld := kb.status[KeySlot(virtualKeyCode)];
    var (kb', isHeld) := KeyHeld(kb, virtualKeyCode, otherWindowFocused, asyncDown);
    (kb', !wasHeld && isHeld)
  }

  /** Holding a key down reports one press, not one per frame. */
  lemma HeldKeyDoesNotRepeat(kb: KeyboardState, virtualKeyCode: nat)
    requires kb.Valid()
    ensures var first := KeyPressed(kb, virtualKeyCode, false, true);
            !KeyPressed(first.0, virtualKeyCode, false, true).1
  {
  }

  /** Releasing and pressing again reports a new press. */
  lemma ReleaseThenPress(kb: KeyboardState, virtualKeyCode: nat)
    requires kb.Valid()
    ensures var released := KeyPressed(kb, virtualKeyCode, false, false);
            KeyPressed(released.0, virtualKeyCode, false, true).1
  {
  }

  /** Two key codes 256 apart share their recorded state, so one masks the other's press. */
  lemma AliasedKeysSharePress(kb: KeyboardState, virtualKeyCode: nat)
    requires kb.Valid()
    ensures var first := KeyPressed(kb, virtualKeyCode, false, true);
            !KeyPressed(first.0, virtualKeyCode + KeySlots, false, true).1
  {
  }
}

=== FILE: viewer.dfy ===
/** The viewer application's control logic (`SVBRDFOculus`, SVBRDFOculus.cpp): the material
    and mesh collections' name lookup, light editing, the derived renderer constants, the
    antialiasing targets, the shadow-map slice layout, `setState`, and one call of `update` as
    a pure step from the viewer's state, the keys pressed in the frame and the outcomes of the
    file loads and dialogs to the next state, or to the fault the frame runs into.

    Real-valued editors (light positions and colours, ambient light, light intensity, height
    and density multipliers), the camera and the Oculus session are not modelled: the keys
    that drive the height and density editors count only through the rebuild they cause. */
module Viewer {
  import opened Wrappers
  import opened Utils
  import opened Controls
  import opened Modes
  import opened Graphics
  import Preset

  const ShadowPcfTaps: int := 4
  const ShadowKernelWidth: real := 2.0
  const MaxLuminance: real := 2.0

  // ---------------------------------------------------------------------------
  // Collections

  /** The first position at or after `from` holding `name`, or -1. */
  function MaterialIndexFrom(names: seq<string>, name: string, from: nat): (r: int)
    requires from <= |names|
    ensures r == -1 || from <= r < |names|
    ensures r >= 0 ==> names[r] == name && forall i :: from <= i < r ==> names[i] != name
    ensures r == -1 <==> forall i :: from <= i < |names| ==> names[i] != name
    decreases |names| - from
  {
    if from == |names| then -1
    else if names[from] == name then from
    else MaterialIndexFrom(names, name, from + 1)
  }

  /** `SVBRDFCollection::indexOf`: the first material called `name`; -1 for an empty name or
      one no material has. */
  function MaterialIndexOf(names: seq<string>, name: string): (r: int)
    ensures -1 <= r < |names|
    ensures r >= 0 ==> names[r] == name && name !in names[..r]
    ensures r == -1 <==> name == "" || name !in names
  {
    if name == "" then -1 else MaterialIndexFrom(names, name, 0)
  }

  /** What `path.find_first_of(name) != npos` tests: some character of the path occurs anywhere
      in the name. */
  predicate SharesCharacter(path: string, name: string)
  {
    exists k :: 0 <= k < |path| && path[k] in name
  }

  /** The first position at or after `from` whose path shares a character with `name`, or -1. */
  function MeshIndexFrom(paths: seq<string>, name: string, from: nat): (r: int)
    requires from <= |paths|
    ensures r == -1 || from <= r < |paths|
    ensures r >= 0 ==> SharesCharacter(paths[r], name)
    ensures r >= 0 ==> forall i :: from <= i < r ==> !SharesCharacter(paths[i], name)
    ensures r == -1 <==> forall i :: from <= i < |paths| ==> !SharesCharacter(paths[i], name)
    decreases |paths| - from
  {
    if from == |paths| then -1
    else if FindFirstOf(paths[from], name, 0).Some? then from
    else MeshIndexFrom(paths, name, from + 1)
  }

  /** `MeshCollection::indexOf`: the first mesh directory that shares a character with `name`
      (not one that contains it); -1 for an empty name or when none does. */
  function MeshIndexOf(paths: seq<string>, name: string): (r: int)
    ensures -1 <= r < |paths|
    ensures r >= 0 ==> name != "" && SharesCharacter(paths[r], name)
    ensures r >= 0 ==> forall i :: 0 <= i < r ==> !SharesCharacter(paths[i], name)
    ensures r == -1 <==> name == "" || forall i :: 0 <= i < |paths| ==> !SharesCharacter(paths[i], name)
  {
    if name == "" then -1 else MeshIndexFrom(paths, name, 0)
  }

  /** A directory that contains the name as a substring is found, at its position or before. */
  lemma MeshIndexFindsContainingPath(paths: seq<string>, name: string, i: nat, k: nat)
    requires name != "" && i < |paths| && k + |name| <= |paths[i]| && paths[i][k..k + |name|] == name
    ensures 0 <= MeshIndexOf(paths, name) <= i
  {
    assert paths[i][k] == name[0];
    assert SharesCharacter(paths[i], name);
  }

  /** Any shared character is enough: the name "brick" selects the directory
      "meshes/dragon" through their common 'r'. */
  lemma MeshIndexMatchesUnrelatedName()
    ensures MeshIndexOf(["meshes/dragon"], "brick") == 0
  {
    assert "meshes/dragon"[8] == 'r' && 'r' in "brick";
    assert SharesCharacter(["meshes/dragon"][0], "brick");
  }

  // ---------------------------------------------------------------------------
  // Lights

  /** The light list and the index of the light the keys edit. */
  datatype LightSelection = LightSelection(lights: seq<Preset.Light>, selected: nat)

  predicate ValidSelection(s: LightSelection)
  {
    s.selected < |s.lights|
  }

  /** `addNewLight`: a white light of falloff 1 at the selected light's position, appended and
      selected. */
  function AddNewLight(s: LightSelection): (r: LightSelection)
    requires ValidSelection(s)
    ensures ValidSelection(r) && |r.lights| == |s.lights| + 1
    ensures r.lights[..|s.lights|] == s.lights
    ensures r.selected == |s.lights|
    ensures r.lights[r.selected].positionWorld == s.lights[s.selected].positionWorld
    ensures r.lights[r.selected].colorHDR == Float3(1.0, 1.0, 1.0) && r.lights[r.selected].falloffMultiplier == 1.0
  {
    var l := Preset.Light(s.lights[s.selected].positionWorld, 1.0, Float3(1.0, 1.0, 1.0));
    LightSelection(s.lights + [l], |s.lights|)
  }

  /** `removeLight`: the selected light is erased unless it is the only one, and the selection
      stays on the same position, or moves back to the new last light. */
  function RemoveLight(s: LightSelection): (r: LightSelection)
    requires ValidSelection(s)
    ensures ValidSelection(r)
    ensures |s.lights| <= 1 ==> r == s
    ensures |s.lights| > 1 ==> (|r.lights| == |s.lights| - 1 &&
                                multiset(r.lights) + multiset{s.lights[s.selected]} == multiset(s.lights))
    ensures |s.lights| > 1 ==> forall i :: 0 <= i < |r.lights| ==>
              r.lights[i] == (if i < s.selected then s.lights[i] else s.lights[i + 1])
    ensures |s.lights| > 1 ==> r.selected == (if s.selected < |r.lights| then s.selected else |r.lights| - 1)
  {
    if |s.lights| > 1 then
      var lights := s.lights[..s.selected] + s.lights[s.selected + 1..];
      assert s.lights == s.lights[..s.selected] + [s.lights[s.selected]] + s.lights[s.selected + 1..];
      LightSelection(lights, if s.selected < |lights| then s.selected else |lights| - 1)
    else s
  }

  /** Removing a light straight after adding one restores the list and selects its last light. */
  lemma RemoveUndoesAdd(s: LightSelection)
    requires ValidSelection(s)
    ensures RemoveLight(AddNewLight(s)) == LightSelection(s.lights, |s.lights| - 1)
  {
    var a := AddNewLight(s);
    assert a.lights[..a.selected] == s.lights;
  }

  // ---------------------------------------------------------------------------
  // Rendering modes and derived constants

  /** The mode fields of the viewer that the renderer is built from. */
  datatype RenderModes = RenderModes(
    mesh: MeshMode,
    displacement: DisplacementMode,
    lighting: LightingMode,
    precision: LightingPrecision,
    normal: NormalMode,
    shadow: ShadowMode,
    useNormalMapping: bool,
    wireframe: bool)

  /** Texture-space lighting and constant normals only make sense on the single quad. */
  predicate Consistent(m: RenderModes)
  {
    m.mesh == LoadedMesh ==> m.lighting == ForwardLighting && m.normal != ConstantNormal
  }

  /** In `update`, after the key toggles: a loaded mesh forces forward lighting and interpolated
      normals in place of constant ones. */
  function LoadedMeshCorrection(m: RenderModes): (r: RenderModes)
    ensures Consistent(r)
    ensures r.(lighting := m.lighting, normal := m.normal) == m
    ensures Consistent(m) ==> r == m
    ensures r.normal != m.normal ==> m.normal == ConstantNormal && r.normal == InterpolatedNormals
  {
    if m.mesh.LoadedMesh? then
      m.(lighting := ForwardLighting, normal := if m.normal.ConstantNormal? then InterpolatedNormals else m.normal)
    else m
  }

  /** `SVBRDFRenderer::Constants`, without the matrices and the camera position. */
  datatype Constants = Constants(
    ambientLight: Float3,
    tonemapMode: TonemapMode,
    maxLuminance: real,
    shadowLights: nat,
    shadowResolution: nat,
    shadowDepthBias: int,
    shadowSSDepthBias: real,
    shadowPcfTaps: int,
    shadowKernelWidth: real,
    normalMode: NormalMode,
    useNormalMapping: bool,
    displacementDensity: real,
    displacementMagnitude: real,
    tessellation: bool,
    wireframe: bool)

  /** Normal maps are already baked into CPU-displaced geometry, unless its normals are
      replaced by the constant one. */
  predicate NormalMapInGeometry(m: RenderModes)
  {
    m.displacement.CPUDisplacementMapping? && !m.normal.ConstantNormal?
  }

  /** `computeConstants` as written: every light the preset asks for casts a shadow, however
      many lights there are. */
  function ComputeConstantsAsWritten(s: Preset.RenderingState, m: RenderModes, pcfTaps: int, kernelWidth: real): (c: Constants)
    ensures m.shadow == NoShadows ==> c.shadowLights == 0
    ensures m.shadow == ShadowMapping ==> c.shadowLights == s.shadowLights
    ensures c.shadowPcfTaps >= 1 && (pcfTaps >= 1 ==> c.shadowPcfTaps == pcfTaps)
    ensures c.useNormalMapping <==> m.useNormalMapping && !NormalMapInGeometry(m)
    ensures c.tessellation <==> m.displacement == GPUDisplacementMapping
    ensures c.normalMode == m.normal && c.wireframe == m.wireframe && c.tonemapMode == s.tonemapMode
  {
    Constants(
      s.ambientHDR, s.tonemapMode, MaxLuminance,
      if m.shadow.NoShadows? then 0 else s.shadowLights,
      s.shadowResolution, s.shadowDepthBias, s.shadowSSDepthBias,
      if pcfTaps < 1 then 1 else pcfTaps, kernelWidth,
      m.normal, m.useNormalMapping && !NormalMapInGeometry(m),
      s.displacementDensity, s.displacementMagnitude,
      m.displacement.GPUDisplacementMapping?, m.wireframe)
  }

  /** `computeConstants` with the shadow count limited to the lights that exist. */
  function ComputeConstants(s: Preset.RenderingState, m: RenderModes, pcfTaps: int, kernelWidth: real): (c: Constants)
    ensures c.shadowLights <= |s.lights|
    ensures m.shadow == ShadowMapping ==> c.shadowLights == Min(s.shadowLights, |s.lights|)
    ensures c.(shadowLights := 0) == ComputeConstantsAsWritten(s, m, pcfTaps, kernelWidth).(shadowLights := 0)
    ensures s.shadowLights <= |s.lights| ==> c == ComputeConstantsAsWritten(s, m, pcfTaps, kernelWidth)
  {
    var c := ComputeConstantsAsWritten(s, m, pcfTaps, kernelWidth);
    c.(shadowLights := Min(c.shadowLights, |s.lights|))
  }

  function Min(a: nat, b: nat): (r: nat)
    ensures r <= a && r <= b && (r == a || r == b)
  {
    if a < b then a else b
  }

  // ---------------------------------------------------------------------------
  // Shadow maps

  /** Light `light`'s cube map occupies six consecutive slices of the shadow array, in face
      order. */
  function ShadowSlice(light: nat, face: CubeMapFace): nat
  {
    light * 6 + FaceIndex(face)
  }

  /** The array holds every face of every shadowed light, and never fewer than six slices. */
  function ShadowArraySize(shadowLights: nat): (n: nat)
    ensures n >= 6 && n >= 6 * shadowLights
    ensures shadowLights >= 1 ==> n == 6 * shadowLights
  {
    if 6 * shadowLights < 6 then 6 else 6 * shadowLights
  }

  /** A slice names its light and face back. */
  lemma ShadowSliceInverse(light: nat, face: CubeMapFace)
    ensures ShadowSlice(light, face) / 6 == light
    ensures FaceAt(ShadowSlice(light, face) % 6) == Some(face)
  {
    DivModOf(light, 6, FaceIndex(face));
    FaceIndexRoundTrip(face, FaceIndex(face));
  }

  /** No two faces of the shadowed lights share a slice, and each lies inside the array. */
  lemma ShadowSlicesFit(shadowLights: nat, l1: nat, f1: CubeMapFace, l2: nat, f2: CubeMapFace)
    requires l1 < shadowLights && l2 < shadowLights
    ensures ShadowSlice(l1, f1) < ShadowArraySize(shadowLights)
    ensures ShadowSlice(l1, f1) == ShadowSlice(l2, f2) <==> l1 == l2 && f1 == f2
  {
    ShadowSliceInverse(l1, f1);
    ShadowSliceInverse(l2, f2);
    MultiplyMonotone(l1 + 1, shadowLights, 6);
  }

  /** The face-view loops of `constructShadowMapping`: one view per light and face, each on the
      slice of its own position in the list. */
  method ShadowFaceSlices(shadowLights: nat) returns (slices: seq<nat>)
    ensures |slices| == 6 * shadowLights
    ensures forall k :: 0 <= k < |slices| ==> slices[k] == k && slices[k] < ShadowArraySize(shadowLights)
  {
    slices := [];
    var light := 0;
    while light < shadowLights
      invariant light <= shadowLights
      invariant |slices| == 6 * light
      invariant forall k :: 0 <= k < |slices| ==> slices[k] == k
    {
      var i := 0;
      while i < 6
        invariant i <= 6
        invariant |slices| == 6 * light + i
        invariant forall k :: 0 <= k < |slices| ==> slices[k] == k
      {
        slices := slices + [light * 6 + i];
        i := i + 1;
      }
      light := light + 1;
    }
  }

  // ---------------------------------------------------------------------------
  // Antialiasing targets

  /** The colour and depth targets `initAA` creates for one view, and whether the colour
      target gets its mip chain generated. */
  datatype AaTargets = AaTargets(color: TextureDesc, depth: TextureDesc, generateMips: bool)

  function Supersampling(aa: AntialiasingMode): nat
  {
    match aa
    case SSAA2x => 2
    case SSAA4x => 4
    case _ => 1
  }

  function Power2(k: nat): (p: nat)
    ensures p >= 1
  {
    if k == 0 then 1 else 2 * Power2(k - 1)
  }

  /** The width or height of mip `level` of a texture `extent` texels across. */
  function MipExtent(extent: nat, level: nat): (e: nat)
    ensures e >= 1
  {
    var e := extent / Power2(level);
    if e < 1 then 1 else e
  }

  /** `initAA` for a view of `width` by `height`: nothing without antialiasing; otherwise an
      sRGB colour target and a 32-bit depth target, `Supersampling` times the view's size. The
      supersampled modes give the colour target just enough mips to come back to the view's
      size, and MSAA takes four samples per pixel at the view's size. */
  function InitAA(aa: AntialiasingMode, width: nat, height: nat): (r: Option<AaTargets>)
    ensures r.None? <==> aa == NoAA
    ensures r.Some? ==> var t := r.value;
              t.color.format == R8G8B8A8UnormSrgb && t.depth.format == D32Float &&
              t.color.bind.renderTarget && t.depth.bind.depthStencil &&
              t.color.width == t.depth.width == width * Supersampling(aa) &&
              t.color.height == t.depth.height == height * Supersampling(aa) &&
              t.color.sampleCount == t.depth.sampleCount && t.color.mipLevels >= 1 &&
              (t.color.sampleCount == 4 <==> aa == MSAA4x) &&
              (t.generateMips <==> Supersampling(aa) > 1)
    ensures r.Some? && width >= 1 && height >= 1 ==> var t := r.value;
              t.color.mipLevels >= 1 &&
              MipExtent(t.color.width, t.color.mipLevels - 1) == width &&
              MipExtent(t.color.height, t.color.mipLevels - 1) == height
  {
    match aa
    case NoAA => None
    case MSAA4x => Some(AaTargetsOf(width, height, 1, 1, 4))
    case SSAA2x =>
      DivModOf(width, 2, 0);
      DivModOf(height, 2, 0);
      Some(AaTargetsOf(width, height, 2, 2, 1))
    case SSAA4x =>
      DivModOf(width, 4, 0);
      DivModOf(height, 4, 0);
      Some(AaTargetsOf(width, height, 4, 3, 1))
  }

  /** The `makeTargets` lambda: both targets `scale` times the view's size. */
  function AaTargetsOf(width: nat, height: nat, scale: nat, mips: nat, samples: nat): (t: AaTargets)
  {
    var colorBind := BindFlags(scale > 1, false, true, false);
    AaTargets(
      TextureDesc(width * scale, height * scale, mips, 1, samples, R8G8B8A8UnormSrgb, colorBind, false),
      TextureDesc(width * scale, height * scale, 1, 1, samples, D32Float, NoBinding.(depthStencil := true), false),
      scale > 1)
  }

  // ---------------------------------------------------------------------------
  // The viewer

  /** What the viewer knows of the loaded material: its name, whether it loaded, and whether
      it has a height map on both the GPU and the CPU. */
  datatype Material = Material(name: string, valid: bool, heightMapUsable: bool)

  /** A default-constructed `SVBRDF`. */
  const NoMaterial: Material := Material("", false, false)

  /** What the viewer knows of the loaded mesh: its name and whether it has both buffers. */
  datatype MeshInfo = MeshInfo(name: string, valid: bool)

  /** A default-constructed `Mesh`. */
  const NoMeshInfo: MeshInfo := MeshInfo("", false)

  /** What the renderer was last built with. */
  datatype RendererConfig = RendererConfig(
    mesh: MeshMode,
    displacement: DisplacementMode,
    lighting: LightingMode,
    precision: LightingPrecision,
    constants: Constants)

  /** Texture-space lighting of an arbitrary mesh is what the loaded-mesh correction rules
      out; constant normals on a mesh likewise. */
  predicate RendererConsistent(r: RendererConfig)
  {
    r.mesh == LoadedMesh ==> r.lighting == ForwardLighting && r.constants.normalMode != ConstantNormal
  }

  datatype ViewerState = ViewerState(
    state: Preset.RenderingState,
    selectedLight: int,
    modes: RenderModes,
    useOculus: bool,
    shadowPcfTaps: int,
    shadowKernelWidth: real,
    materialIndex: int,
    meshIndex: int,
    material: Material,
    mesh: MeshInfo,
    renderer: RendererConfig)

  /** The keys the frame saw pressed (or, for the height editor, held). */
  datatype Keys = Keys(
    nextLight: bool, previousLight: bool,
    addLight: bool, removeLight: bool,
    moreShadowLights: bool, fewerShadowLights: bool,
    meshMode: bool, displacementMode: bool, shadows: bool, lighting: bool,
    antialiasing: bool, normals: bool, normalMapping: bool, tonemap: bool, wireframe: bool,
    vr: bool, vrScaleUp: bool, vrScaleDown: bool,
    nextMaterial: bool, previousMaterial: bool, nextMesh: bool, previousMesh: bool,
    heightUp: bool, heightDown: bool, densityUp: bool, densityDown: bool,
    materialDialog: bool, meshDialog: bool)

  const NoKeys: Keys := Keys(
    false, false, false, false, false, false, false, false, false, false, false, false, false, false,
    false, false, false, false, false, false, false, false, false, false, false, false, false, false)

  /** What the frame learns from outside: whether the headset is there, the collections, and
      what the loads and dialogs it may run would produce (a dialog the user cancels is
      `None`). */
  datatype World = World(
    oculusConnected: bool,
    materialNames: seq<string>,
    meshPaths: seq<string>,
    loadedMaterial: Material,
    materialDialog: Option<Material>,
    loadedMesh: MeshInfo,
    meshDialog: Option<MeshInfo>)

  /** Where a frame that does not complete stops. */
  datatype Fault =
    | LightIndexOutOfRange     // `state.lights[selectedLight]` with no lights at all
    | NoValidMaterial          // the `check` after the material dialog
    | ShadowLightOutOfRange    // `lights[L]` in `computeShadowViewProj` for a light that does not exist

  datatype Outcome =
    | Running(viewer: ViewerState, rebuilt: bool, reinitAA: bool)
    | Crashed(fault: Fault)

  /** Whether the frame runs the code as written or with the corrections for the two faults
      found in it (see `Update`). */
  datatype Variant = AsWritten | Corrected

  // ---------------------------------------------------------------------------
  // The phases of `update`

  /** The light keys of `update`: the selection wraps into the light list, which must not be empty for
      the selected light to be edited; then a light may be added and one removed, and the
      shadow count moves within the new number of lights. Answers whether the lights changed. */
  function EditLights(v: ViewerState, keys: Keys): (r: Option<(ViewerState, bool)>)
    ensures r.None? <==> |v.state.lights| == 0
    ensures r.Some? ==> var w := r.value.0;
              0 <= w.selectedLight < |w.state.lights| &&
              w == v.(state := w.state, selectedLight := w.selectedLight) &&
              w.state == v.state.(lights := w.state.lights, shadowLights := w.state.shadowLights)
    ensures r.Some? ==> (|r.value.0.state.lights| ==
                         |v.state.lights| + (if keys.addLight then 1 else 0) -
                         (if keys.removeLight && |v.state.lights| + (if keys.addLight then 1 else 0) > 1 then 1 else 0))
    ensures r.Some? && !keys.addLight && !keys.removeLight ==> r.value.0.state.lights == v.state.lights
    ensures r.Some? && !keys.addLight && !keys.removeLight && v.state.shadowLights <= |v.state.lights| ==>
              r.value.0.state.shadowLights <= |r.value.0.state.lights|
    ensures r.Some? ==> (r.value.1 <==> keys.addLight || keys.removeLight ||
                                        r.value.0.state.shadowLights != v.state.shadowLights ||
                                        UpdateValueMax(v.state.shadowLights, |r.value.0.state.lights|,
                                                       keys.moreShadowLights, keys.fewerShadowLights).changed)
  {
    var n := |v.state.lights|;
    var selected := WrapValue(v.selectedLight, 1, 0, n, keys.nextLight, keys.previousLight).value;
    if n == 0 then None
    else
      var s0 := LightSelection(v.state.lights, selected);
      var s1 := if keys.addLight then AddNewLight(s0) else s0;
      var s2 := if keys.removeLight then RemoveLight(s1) else s1;
      var shadows := UpdateValueMax(v.state.shadowLights, |s2.lights|, keys.moreShadowLights, keys.fewerShadowLights);
      var w := v.(state := v.state.(lights := s2.lights, shadowLights := shadows.value), selectedLight := s2.selected);
      Some((w, keys.addLight || keys.removeLight || shadows.changed))
  }

  /** What the mode, antialiasing and VR toggles of `update` report. */
  datatype Toggles = Toggles(renderer: bool, aa: bool, vr: bool)

  /** The render-mode toggles of `update` (keys 1, 2, 3, 8, 5, 6 and DEL). */
  function ToggleRenderModes(m: RenderModes, keys: Keys): (r: RenderModes)
    ensures r.precision == m.precision
    ensures !keys.meshMode ==> r.mesh == m.mesh
    ensures keys.meshMode ==> r.mesh != m.mesh
    ensures !keys.displacementMode ==> r.displacement == m.displacement
    ensures !keys.shadows ==> r.shadow == m.shadow
    ensures !keys.lighting ==> r.lighting == m.lighting
    ensures !keys.normals ==> r.normal == m.normal
    ensures keys.displacementMode ==>
              r.displacement.Ordinal() == (m.displacement.Ordinal() + 1) % (DisplacementMode.Maximum + 1)
    ensures keys.shadows ==> r.shadow.Ordinal() == (m.shadow.Ordinal() + 1) % (ShadowMode.Maximum + 1)
    ensures keys.lighting ==> r.lighting.Ordinal() == (m.lighting.Ordinal() + 1) % (LightingMode.Maximum + 1)
    ensures keys.normals ==> r.normal.Ordinal() == (m.normal.Ordinal() + 1) % (NormalMode.Maximum + 1)
    ensures r.useNormalMapping == (m.useNormalMapping != keys.normalMapping)
    ensures r.wireframe == (m.wireframe != keys.wireframe)
  {
    m.(mesh := m.mesh.Toggled(keys.meshMode).value,
       displacement := m.displacement.Toggled(keys.displacementMode).value,
       shadow := m.shadow.Toggled(keys.shadows).value,
       lighting := m.lighting.Toggled(keys.lighting).value,
       normal := m.normal.Toggled(keys.normals).value,
       useNormalMapping := m.useNormalMapping != keys.normalMapping,
       wireframe := m.wireframe != keys.wireframe)
  }

  /** The toggle keys of `update`: the mode toggles, the antialiasing and tone-mapping toggles, the VR
      scale, and VR switched back off without a headset. */
  function ToggleModes(v: ViewerState, keys: Keys, oculusConnected: bool): (r: (ViewerState, Toggles))
    ensures r.1 == Toggles(keys.meshMode || keys.displacementMode || keys.shadows || keys.lighting,
                           keys.antialiasing, keys.vr)
    ensures r.0.modes == ToggleRenderModes(v.modes, keys)
    ensures r.0.useOculus ==> oculusConnected
    ensures -1 <= v.state.vrScale <= 10 ==> -1 <= r.0.state.vrScale <= 10
    ensures r.0.state.lights == v.state.lights && r.0.state.shadowLights == v.state.shadowLights
    ensures r.0 == v.(modes := r.0.modes, useOculus := r.0.useOculus, state := r.0.state)
  {
    var state := v.state.(aaMode := v.state.aaMode.Toggled(keys.antialiasing).value,
                          tonemapMode := v.state.tonemapMode.Toggled(keys.tonemap).value,
                          vrScale := UpdateValueClamp(v.state.vrScale, 1, -1, 10, keys.vrScaleUp, keys.vrScaleDown).value);
    var useOculus := v.useOculus != keys.vr;
    (v.(modes := ToggleRenderModes(v.modes, keys), state := state, useOculus := useOculus && oculusConnected),
     Toggles(keys.meshMode || keys.displacementMode || keys.shadows || keys.lighting, keys.antialiasing, keys.vr))
  }

  /** `materials.load(index)`: nothing without materials, otherwise what loading gives. */
  function LoadMaterial(world: World): (m: Material)
    ensures |world.materialNames| == 0 ==> !m.valid
  {
    if |world.materialNames| == 0 then NoMaterial else world.loadedMaterial
  }

  /** `meshes.load(index)`: nothing without meshes, otherwise what loading gives. */
  function LoadMesh(world: World): (m: MeshInfo)
    ensures |world.meshPaths| == 0 ==> !m.valid
  {
    if |world.meshPaths| == 0 then NoMeshInfo else world.loadedMesh
  }

  /** The material step of `update`: the selected material is loaded when asked for; the dialog opens when
      there is no valid material or its key is pressed, and keeps the old material when
      cancelled; then a valid material is required. Answers the material and whether the
      dialog opened. */
  function ChooseMaterial(current: Material, load: bool, dialogKey: bool, world: World): (r: Option<(Material, bool)>)
    ensures r.Some? ==> r.value.0.valid
    ensures r.Some? ==> (r.value.1 <==> dialogKey || !(if load then LoadMaterial(world) else current).valid)
    ensures !load && !dialogKey && current.valid ==> r == Some((current, false))
    ensures r.None? <==>
              var loaded := if load then LoadMaterial(world) else current;
              (dialogKey || !loaded.valid) &&
              !(match world.materialDialog case Some(m) => m.valid case None => loaded.valid)
  {
    var loaded := if load then LoadMaterial(world) else current;
    var dialog := !loaded.valid || dialogKey;
    var chosen := if !dialog then loaded else match world.materialDialog case Some(m) => m case None => loaded;
    if chosen.valid then Some((chosen, dialog)) else None
  }

  /** The mesh, the mesh mode, and whether the mesh step of `update` demands a rebuild. */
  datatype MeshChoice = MeshChoice(mesh: MeshInfo, mode: MeshMode, rebuild: bool)

  /** The mesh step of `update`: the selected mesh is loaded when asked for, or else the dialog's mesh
      when its key is pressed (which also selects the loaded-mesh mode); a loaded mesh is
      re-tessellated when the density or the material changed, and the single quad takes
      over when there is no valid mesh to draw. */
  function ChooseMesh(current: MeshInfo, mode: MeshMode, load: bool, dialogKey: bool, changedTessellation: bool, world: World)
    : (r: MeshChoice)
    ensures r.mode == LoadedMesh ==> r.mesh.valid
    ensures r.mode == LoadedMesh ==> mode == LoadedMesh || (!load && dialogKey)
    ensures !load && !dialogKey && !changedTessellation && (mode == LoadedMesh ==> current.valid) ==>
              r == MeshChoice(current, mode, false)
    ensures !load && dialogKey ==> r.rebuild
  {
    var (mesh, mode1, dialogRan) :=
      if load then (LoadMesh(world), mode, false)
      else if dialogKey then (match world.meshDialog case Some(m) => m case None => current, LoadedMesh, true)
      else (current, mode, false);
    if mesh.valid && mode1.LoadedMesh? && changedTessellation then MeshChoice(mesh, mode1, true)
    else if !mesh.valid && mode1.LoadedMesh? then MeshChoice(mesh, SingleQuad, true)
    else MeshChoice(mesh, mode1, dialogRan)
  }

  /** The displacement check of `update`: displacement needs a height map. */
  function DisplacementWithHeightMap(d: DisplacementMode, material: Material): (r: DisplacementMode)
    ensures r != NoDisplacement ==> material.heightMapUsable
    ensures material.heightMapUsable ==> r == d
    ensures !material.heightMapUsable ==> r == NoDisplacement
  {
    if !d.NoDisplacement? && !material.heightMapUsable then NoDisplacement else d
  }

  /** Building `SVBRDFRenderer` at the end of `update` from the current modes and constants. */
  function BuildRenderer(v: ViewerState, variant: Variant): (r: RendererConfig)
    ensures r.mesh == v.modes.mesh && r.lighting == v.modes.lighting && r.constants.normalMode == v.modes.normal
    ensures variant == Corrected ==> r.constants.shadowLights <= |v.state.lights|
  {
    var constants :=
      if variant.AsWritten? then ComputeConstantsAsWritten(v.state, v.modes, v.shadowPcfTaps, v.shadowKernelWidth)
      else ComputeConstants(v.state, v.modes, v.shadowPcfTaps, v.shadowKernelWidth);
    RendererConfig(v.modes.mesh, v.modes.displacement, v.modes.lighting, v.modes.precision, constants)
  }

  /** `updateState`: the preset records the material's name, and the mesh's name only while a
      valid mesh is drawn. */
  function RecordNames(v: ViewerState): (w: ViewerState)
    ensures w == v.(state := w.state) && w.state == v.state.(svbrdfName := w.state.svbrdfName, meshName := w.state.meshName)
    ensures w.state.svbrdfName == v.material.name
    ensures w.state.meshName == (if v.mesh.valid && v.modes.mesh == LoadedMesh then v.mesh.name else "")
  {
    var meshName := if v.mesh.valid && v.modes.mesh.LoadedMesh? then v.mesh.name else "";
    v.(state := v.state.(svbrdfName := v.material.name, meshName := meshName))
  }

  // ---------------------------------------------------------------------------
  // One frame

  /** `update(forceInit)`. The corrected variant differs in two places: the renderer's shadow
      count is limited to the lights that exist, and the loaded-mesh correction is applied
      again after the mesh dialog, which can switch to the loaded mesh after it ran. */
  function Frame(v: ViewerState, keys: Keys, world: World, forceInit: bool, variant: Variant): Outcome
  {
    match EditLights(v, keys)
    case None => Crashed(LightIndexOutOfRange)
    case Some((v1, changedLights)) =>
      var (v2, toggles) := ToggleModes(v1, keys, world.oculusConnected);
      var v3 := v2.(modes := LoadedMeshCorrection(v2.modes));
      var materialIndex := WrapValue(v3.materialIndex, 1, 0, |world.materialNames|, keys.nextMaterial, keys.previousMaterial);
      var meshIndex := WrapValue(v3.meshIndex, 1, 0, |world.meshPaths|, keys.nextMesh, keys.previousMesh);
      var loadMaterial := materialIndex.changed || forceInit;
      var loadMesh := meshIndex.changed || forceInit;
      var changedHeight := keys.heightUp || keys.heightDown;
      var changedDensity := keys.densityUp || keys.densityDown;
      var initRenderer := toggles.renderer || changedHeight || changedDensity || loadMaterial || loadMesh || changedLights;
      match ChooseMaterial(v3.material, loadMaterial, keys.materialDialog, world)
      case None => Crashed(NoValidMaterial)
      case Some((material, dialogRan)) =>
        var mesh := ChooseMesh(v3.mesh, v3.modes.mesh, loadMesh, keys.meshDialog,
                               changedDensity || loadMaterial || dialogRan, world);
        var m4 := v3.modes.(mesh := mesh.mode);
        var m5 := if variant.Corrected? then LoadedMeshCorrection(m4) else m4;
        var m6 := m5.(displacement := DisplacementWithHeightMap(m5.displacement, material));
        var v4 := v3.(modes := m6, materialIndex := materialIndex.value, meshIndex := meshIndex.value,
                      material := material, mesh := mesh.mesh);
        var rebuild := initRenderer || dialogRan || mesh.rebuild;
        var renderer := if rebuild then BuildRenderer(v4, variant) else v4.renderer;
        if renderer.constants.shadowLights > |v4.state.lights| then Crashed(ShadowLightOutOfRange)
        else Running(RecordNames(v4.(renderer := renderer)), rebuild, forceInit || toggles.vr || toggles.aa)
  }

  /** `update` as written. */
  function UpdateAsWritten(v: ViewerState, keys: Keys, world: World, forceInit: bool): (r: Outcome)
    ensures r == Crashed(LightIndexOutOfRange) <==> |v.state.lights| == 0
    ensures r.Running? ==> r.viewer.material.valid && 0 <= r.viewer.selectedLight < |r.viewer.state.lights|
    ensures r.Running? && forceInit ==> r.rebuilt && r.reinitAA
  {
    Frame(v, keys, world, forceInit, AsWritten)
  }

  /** `update` with both corrections. */
  function Update(v: ViewerState, keys: Keys, world: World, forceInit: bool): (r: Outcome)
    ensures r == Crashed(LightIndexOutOfRange) <==> |v.state.lights| == 0
    ensures r.Running? ==> Settled(r.viewer, world)
    ensures r.Running? && r.rebuilt ==> RendererConsistent(r.viewer.renderer)
    ensures r.Running? && forceInit ==> r.rebuilt && r.reinitAA
  {
    FrameSettles(v, keys, world, forceInit);
    Frame(v, keys, world, forceInit, Corrected)
  }

  // ---------------------------------------------------------------------------
  // What a frame leaves behind

  /** An index that `updateValueWrap` over a collection of `count` leaves where it is. */
  predicate IndexSettled(i: int, count: nat)
  {
    if count == 0 then i == 0 else 0 <= i < count
  }

  /** The state every completed corrected frame leaves: a light is selected, the material is
      valid, a loaded mesh is valid and drawn with forward lighting and interpolated or
      reconstructed normals, displacement has its height map, VR has its headset, the
      renderer's shadows exist, and the preset records what is drawn. */
  predicate Settled(v: ViewerState, world: World)
  {
    0 <= v.selectedLight < |v.state.lights| &&
    v.material.valid &&
    -1 <= v.state.vrScale <= 10 &&
    (v.modes.mesh == LoadedMesh ==> v.mesh.valid) &&
    Consistent(v.modes) &&
    (v.modes.displacement != NoDisplacement ==> v.material.heightMapUsable) &&
    (v.useOculus ==> world.oculusConnected) &&
    v.renderer.constants.shadowLights <= |v.state.lights| &&
    IndexSettled(v.materialIndex, |world.materialNames|) &&
    IndexSettled(v.meshIndex, |world.meshPaths|) &&
    v.state.svbrdfName == v.material.name &&
    v.state.meshName == (if v.mesh.valid && v.modes.mesh == LoadedMesh then v.mesh.name else "")
  }

  lemma WrapSettles(i: int, count: nat, increase: bool, decrease: bool)
    ensures IndexSettled(WrapValue(i, 1, 0, count, increase, decrease).value, count)
  {
  }

  /** Every completed corrected frame is settled, and a rebuilt renderer is consistent. */
  lemma FrameSettles(v: ViewerState, keys: Keys, world: World, forceInit: bool)
    ensures var r := Frame(v, keys, world, forceInit, Corrected);
            r.Running? ==> Settled(r.viewer, world) && (r.rebuilt ==> RendererConsistent(r.viewer.renderer))
  {
    var r := Frame(v, keys, world, forceInit, Corrected);
    if r.Running? {
      WrapSettles(v.materialIndex, |world.materialNames|, keys.nextMaterial, keys.previousMaterial);
      WrapSettles(v.meshIndex, |world.meshPaths|, keys.nextMesh, keys.previousMesh);
    }
  }

  /** A frame with no key pressed leaves a settled viewer exactly as it was: nothing is
      loaded, rebuilt or re-created. */
  lemma IdleFrameChangesNothing(v: ViewerState, world: World)
    requires Settled(v, world)
    ensures Update(v, NoKeys, world, false) == Running(v, false, false)
  {
    var n := |v.state.lights|;
    DivModUnique(v.selectedLight, n, 0, v.selectedLight);
    if |world.materialNames| > 0 {
      DivModUnique(v.materialIndex, |world.materialNames|, 0, v.materialIndex);
    }
    if |world.meshPaths| > 0 {
      DivModUnique(v.meshIndex, |world.meshPaths|, 0, v.meshIndex);
    }
    var e := EditLights(v, NoKeys);
    assert e == Some((v, false));
    assert ToggleRenderModes(v.modes, NoKeys) == v.modes;
    assert ToggleModes(v, NoKeys, world.oculusConnected).0 == v;
  }

  /** Whatever asks for a new renderer gets one: a forced update, a mode toggle, a change to
      the lights, the height or the density, another material or mesh, or either dialog. */
  lemma RebuildWhenAsked(v: ViewerState, keys: Keys, world: World, forceInit: bool, variant: Variant)
    requires forceInit || keys.meshMode || keys.displacementMode || keys.shadows || keys.lighting ||
             keys.addLight || keys.removeLight || keys.heightUp || keys.heightDown ||
             keys.densityUp || keys.densityDown || keys.nextMaterial || keys.previousMaterial ||
             keys.nextMesh || keys.previousMesh || keys.materialDialog || keys.meshDialog
    ensures Frame(v, keys, world, forceInit, variant).Running? ==> Frame(v, keys, world, forceInit, variant).rebuilt
  {
  }

  // ---------------------------------------------------------------------------
  // The two faults of `update` as written

  /** A viewer drawing material "rock" on the single quad with the given lights and modes. */
  function QuadViewer(lights: seq<Preset.Light>, shadowLights: nat, modes: RenderModes): (v: ViewerState)
    ensures v.state.lights == lights && v.modes == modes && v.material.valid
  {
    var state := Preset.DefaultState().(svbrdfName := "rock", lights := lights, shadowLights := shadowLights);
    var renderer := BuildRenderer(ViewerState(state, 0, modes, false, ShadowPcfTaps, ShadowKernelWidth, 0, 0,
                                              Material("rock", true, true), NoMeshInfo, RendererConfig(SingleQuad, NoDisplacement, ForwardLighting, Float11_11_10, ComputeConstants(state, modes, ShadowPcfTaps, ShadowKernelWidth))), Corrected);
    ViewerState(state, 0, modes, false, ShadowPcfTaps, ShadowKernelWidth, 0, 0,
                Material("rock", true, true), NoMeshInfo, renderer)
  }

  /** One material "rock", one mesh directory whose mesh loads, and no headset. */
  const ExampleWorld: World := World(false, ["rock"], ["meshes/dragon"], Material("rock", true, true), None,
                                     MeshInfo("dragon", true), Some(MeshInfo("dragon", true)))

  const WhiteLight: Preset.Light := Preset.Light(Float3(3.0, 3.0, 3.0), 1.0, Float3(1.0, 1.0, 1.0))

  /** Removing one of two shadowed lights leaves the shadow count at two, and the renderer
      rebuilt for it reads the light that is gone. */
  lemma RemovingShadowedLightCrashesAsWritten()
    ensures var modes := RenderModes(SingleQuad, NoDisplacement, ForwardLighting, Float11_11_10, ConstantNormal,
                                     ShadowMapping, true, false);
            var v := QuadViewer([WhiteLight, WhiteLight], 2, modes);
            Settled(v, ExampleWorld) &&
            UpdateAsWritten(v, NoKeys.(removeLight := true), ExampleWorld, false) == Crashed(ShadowLightOutOfRange)
  {
  }

  /** With the shadow count limited to the lights, a renderer that fits its lights is never
      replaced by one that does not. */
  lemma UpdateNeverOverrunsShadowLights(v: ViewerState, keys: Keys, world: World, forceInit: bool)
    requires v.renderer.constants.shadowLights <= |v.state.lights|
    ensures Update(v, keys, world, forceInit) != Crashed(ShadowLightOutOfRange)
  {
  }

  /** Opening a mesh from the dialog while the quad is lit in texture space builds the
      renderer for the loaded mesh with texture-space lighting. */
  lemma MeshDialogKeepsTextureSpaceAsWritten()
    ensures var modes := RenderModes(SingleQuad, NoDisplacement, TextureSpaceLighting, Float11_11_10, ConstantNormal,
                                     NoShadows, true, false);
            var v := QuadViewer([WhiteLight], 1, modes);
            var r := UpdateAsWritten(v, NoKeys.(meshDialog := true), ExampleWorld, false);
            Settled(v, ExampleWorld) &&
            r.Running? && r.rebuilt && r.viewer.renderer.mesh == LoadedMesh &&
            r.viewer.renderer.lighting == TextureSpaceLighting && !RendererConsistent(r.viewer.renderer)
  {
  }

  // ---------------------------------------------------------------------------
  // Presets

  /** `setState` up to its `update(true)`: the preset is taken over, the material and mesh
      are looked up by name (a mesh that is not found selects the single quad), displacement,
      shadows and texture-space lighting are switched off, and the normals suit the mesh. */
  function SetState(v: ViewerState, s: Preset.RenderingState, world: World): (r: ViewerState)
    ensures r.state == s && r.selectedLight == v.selectedLight
    ensures r.materialIndex >= 0
    ensures s.svbrdfName != "" && s.svbrdfName in world.materialNames ==>
              r.materialIndex < |world.materialNames| && world.materialNames[r.materialIndex] == s.svbrdfName
    ensures r.modes.mesh == LoadedMesh <==> MeshIndexOf(world.meshPaths, s.meshName) >= 0
    ensures r.modes.mesh == LoadedMesh ==>
              0 <= r.meshIndex < |world.meshPaths| && SharesCharacter(world.meshPaths[r.meshIndex], s.meshName)
    ensures r.modes.mesh == SingleQuad ==> r.meshIndex == 0
    ensures Consistent(r.modes)
    ensures r.modes.displacement == NoDisplacement && r.modes.shadow == NoShadows
    ensures r.modes.lighting == ForwardLighting && r.modes.useNormalMapping
    ensures r.modes.normal == (if r.modes.mesh == LoadedMesh then InterpolatedNormals else ConstantNormal)
  {
    var materialIndex := MaterialIndexOf(world.materialNames, s.svbrdfName);
    var meshIndex := MeshIndexOf(world.meshPaths, s.meshName);
    var mesh := if meshIndex < 0 then SingleQuad else LoadedMesh;
    var displacement := NoDisplacement;
    var modes := v.modes.(
      mesh := mesh, displacement := displacement, lighting := ForwardLighting, shadow := NoShadows,
      normal := if mesh.SingleQuad? then ConstantNormal else InterpolatedNormals,
      useNormalMapping := mesh.SingleQuad? || displacement.NoDisplacement?,
      precision := Float11_11_10);
    v.(state := s, modes := modes, shadowPcfTaps := ShadowPcfTaps, shadowKernelWidth := ShadowKernelWidth,
       materialIndex := if materialIndex < 0 then 0 else materialIndex,
       meshIndex := if meshIndex < 0 then 0 else meshIndex)
  }

  /** Loading a preset as `setState` does it: the state is replaced and the forced `update`
      runs as written. */
  function ApplyPresetAsWritten(v: ViewerState, s: Preset.RenderingState, keys: Keys, world: World): (r: Outcome)
    ensures r == Crashed(LightIndexOutOfRange) <==> |s.lights| == 0
    ensures r.Running? ==> r.viewer.material.valid && 0 <= r.viewer.selectedLight < |r.viewer.state.lights|
    ensures r.Running? ==> r.rebuilt && r.reinitAA
    ensures r.Running? && !keys.addLight && !keys.removeLight ==> r.viewer.state.lights == s.lights
  {
    UpdateAsWritten(SetState(v, s, world), keys, world, true)
  }

  /** Loading a preset with the corrected frame: `setState` followed by the forced `update`
      with both corrections of `Update`. */
  function ApplyPreset(v: ViewerState, s: Preset.RenderingState, keys: Keys, world: World): (r: Outcome)
    ensures r == Crashed(LightIndexOutOfRange) <==> |s.lights| == 0
    ensures r.Running? ==> Settled(r.viewer, world) && r.rebuilt && r.reinitAA
    ensures r.Running? && !keys.addLight && !keys.removeLight ==> r.viewer.state.lights == s.lights
  {
    Update(SetState(v, s, world), keys, world, true)
  }

  /** A preset file without a `light` line loads with no lights, and the first frame after it
      indexes the empty light list. */
  lemma PresetWithoutLightsCrashes(v: ViewerState, lines: seq<Preset.Line>, keys: Keys, world: World)
    requires Preset.CountAppending(lines) == 0
    ensures ApplyPreset(v, Preset.Load(lines), keys, world) == Crashed(LightIndexOutOfRange)
  {
    Preset.LoadCountsLights(lines);
  }
}

=== FILE: wrappers.dfy ===
/** Failure-compatible result types shared by the modules of this model. */
module Wrappers {

  /** A value that may be missing: `std::string::npos`, a null pointer, an absent buffer. */
  datatype Option<+T> = None | Some(value: T)

  /** The outcome of an operation whose source either fails a `check(...)` or returns a value. */
  datatype Result<+T> = Ok(value: T) | Failed(reason: string)
}
